=== FILE: README.md ===
# Learning apps and canvas library: a Dafny model

This project models the core of two browser learning apps and the library
they are built on. All three store their data in Firestore and call Gemini.

- **self_extending_learning.js** is a modular learning engine. It tracks how
  well each item is mastered (New, Learning, Mastered). It records wrong
  answers as mistakes and brings them back on a spaced-repetition schedule
  (1, 3, 7, 14, 30, 60 or 180 days). It also shows dashboard counts and
  suggestions, renders `**bold**` and `*italic*` feedback, and validates
  generated module descriptors.
- **verb_mastery2.ts** applies the same scheme to irregular verbs. It adds
  progress initialisation, verb-of-the-day, practice suggestions, a settings
  screen's keyword list, and the mistake review screen's navigation.
- **canvas-library.js** provides:
  - the Gemini client: retries with back-off, request payloads and
    response-envelope checks;
  - a Firestore manager that splits large strings into 800 KiB chunks;
  - an asset manager with a memory cache backed by Firestore;
  - the PCM-to-WAV converter.

Modules, one per file:

- `Wrappers` holds `Option` and `Result`.
- `Decimal` covers `String(n)` for naturals.
- `Json` covers JavaScript values, truthiness, optional chaining and a
  JSON codec.
- `Seqs` holds filtering, sub-sequences and a stable sort.
- `Merge` is Firestore's `{ merge: true }`.
- `Mastery` covers the mastery levels.
- `Schedule` covers mistakes and their review schedule, for both apps.
- `Learning` and `Verbs` are the two apps.
- `Markdown` is the feedback renderer.
- `ReviewScreen` is the verb app's review navigation over the list of due mistakes.
- `Retry`, `Gemini`, `ChunkedStore`, `Assets` and `Wav` are the library.

Time is an integer number of milliseconds and a day is 86 400 000 ms.
Side effects (Firestore writes, API calls) are returned as data: sequences of
writes or effects the operation issues, in order. Whatever the operation
would have received from the network, the store's id generator, the Gemini
classifier or the clock is a parameter.

## Model

| member | source | states |
|---|---|---|
| Mastery.Rank | self_extending_learning.js:698-706 | the level order Mastered 2, Learning 1, New 0: exactly Mastered ranks 2 and exactly New ranks 0 |
| Mastery.NextLevel | self_extending_learning.js:302-306 | a correct answer never lowers the level and a wrong one never raises it; a step moves at most one level; New is left exactly on a correct answer; Mastered is reached only from Learning with at least 4 successes; Mastered is left exactly on a wrong answer, to Learning |
| Mastery.NextLevelKeepsInvariant | verb_mastery2.ts:192-196 | an update keeps the invariant "New has no successes, Mastered has at least 4" |
| Schedule.ResolveTags | self_extending_learning.js:351-360 | given tags are kept; otherwise the classifier's `tags`; `['untagged']` when it threw or gave none |
| Schedule.NewMistake | verb_mastery2.ts:133-153 | a new mistake carries its subject, texts and resolved tags, confidence 0, and is due at its creation time |
| Schedule.IntervalDays | self_extending_learning.js:399 | `confidenceIntervals[c-1]` for c in 1..7, one day for any other position, never less than one day |
| Schedule.NextConfidence | self_extending_learning.js:389-397 | a missing confidence reads as 0; a correct review adds one up to 7; a wrong one subtracts one down to 0 |
| Schedule.Reschedule | self_extending_learning.js:389-407 | the patch holds the next confidence and a review time that many interval days after now, always strictly in the future; only the self-extending app stamps `lastReviewed` |
| Schedule.Find | verb_mastery2.ts:158 | `find` by id: found exactly when some mistake has the id; the result is that mistake |
| Schedule.MergeAll | verb_mastery2.ts:171-174 | a merge write changes the documents with the id and no other |
| Schedule.ApplyPatch | verb_mastery2.ts:177-185 | merging into an existing id patches it in place; a missing id gets a new document holding only the patched fields |
| Schedule.ActiveQueue | verb_mastery2.ts:111-113 | the queue is the order-preserving sub-sequence of exactly the due mistakes |
| Schedule.Review | verb_mastery2.ts:155-175 | no write for an unknown id; otherwise the reschedule computed from the stored confidence |
| Schedule.Reset | verb_mastery2.ts:177-185 | a reset sets confidence 0 and makes the mistake due now |
| Schedule.ReviewedLeavesQueue | verb_mastery2.ts:155-175 | after a review is merged, the reviewed mistake is no longer in the queue at the review time |
| Schedule.ResetIsDue | verb_mastery2.ts:177-185 | after a reset is merged, a mistake with that id exists and is due at every later time |
| Schedule.NewMistakeIsQueued | verb_mastery2.ts:148-153 | a mistake saved now is in the active queue at every later time |
| Schedule.ReplayStaysInRange | self_extending_learning.js:389-397 | any sequence of reviews keeps confidence within 0..7 |
| Schedule.IntervalExamples | verb_mastery2.ts:12 | 0 to 1 waits a day, 3 to 4 waits 14 days, a drop to 0 waits a day, and at 7 a review waits 180 days |
| Merge.MergeWrite | self_extending_learning.js:345 | a merge write keeps every stored key, and updated keys take the new value |
| Learning.UpdateItemProgress | self_extending_learning.js:289-323 | only the answered item changes: one more attempt, one more success when correct, the next mastery level, practice time now; a wrong answer first adds a mistake; the whole local map is then merged |
| Learning.UpdateKeepsWellFormed | self_extending_learning.js:289-323 | progress stays well formed in memory and in the store: successes never exceed attempts and the level agrees with the successes |
| Learning.DeleteItem | self_extending_learning.js:335-346 | the item and its local entry are removed; the store receives a merge of the local map |
| Learning.DeletedProgressSurvives | self_extending_learning.js:342-345 | as written, a deleted item's stored progress entry survives the merge write unchanged |
| Learning.ProgressValues | self_extending_learning.js:551 | at most one progress value per item |
| Learning.DashboardStats | self_extending_learning.js:550-560 | the three counts add up to the total; all zero when no item has progress; otherwise the total is the item count, mastered and learning are the numbers of progress values at those levels, and New is the rest; counts are non-negative |
| Learning.NoValuesMeansNoProgress | self_extending_learning.js:551-552 | an empty value list means that no item has a progress entry |
| Learning.SomeValueMeansSomeProgress | self_extending_learning.js:551-552 | a non-empty value list means that some item has an entry |
| Learning.DisjointCounts | self_extending_learning.js:554-557 | mastered and learning values together never outnumber the values |
| Learning.Suggestions | self_extending_learning.js:562-570 | at most three items, none mastered, in catalogue order; fewer than three only when those are all the unmastered items |
| Learning.SuggestionsAreFirstUnmastered | self_extending_learning.js:565-569 | the suggestions are exactly the unmastered items of some prefix of the catalogue, and that prefix is the whole catalogue unless three were found: the first three unmastered items |
| Learning.Rows | self_extending_learning.js:699-702 | one row per item, in order, holding its progress or the New default |
| Learning.SortedItemsGroups | self_extending_learning.js:698-706 | the sorted rows are all Mastered rows, then Learning, then New, each group in catalogue order, and a permutation of the rows |
| Learning.SortedSplitsByRank | self_extending_learning.js:703-705 | a sequence sorted by descending rank is its rank-2 rows, then rank 1, then rank 0 |
| Learning.MissingFieldNames | self_extending_learning.js:1595-1596 | exactly the required fields that are falsy, in the order they are listed |
| Learning.FirstNonFunction | self_extending_learning.js:1602-1612 | none exactly when every checked property holds a function; otherwise the first checked name, in list order, that does not |
| Learning.ValidateModule | self_extending_learning.js:1594-1615 | true exactly when all required fields are truthy and the three component fields are functions; a missing field is reported before a wrong type, with exactly the falsy fields; otherwise the first component field that is not a function is the one reported |
| Verbs.UpdateVerbProgress | verb_mastery2.ts:187-203 | only the answered verb changes: the correct or incorrect counter goes up by one, the next level, practice time now; a wrong answer first saves a mistake about the verb, then the whole map is merged |
| Verbs.UpdateKeepsWellFormed | verb_mastery2.ts:187-203 | counters stay non-negative and a Mastered verb has at least 4 correct answers |
| Verbs.InitProgress | verb_mastery2.ts:65-82 | every verb gets an entry; stored entries are kept and added ones are New with zero counts; a write is needed exactly when some verb had no entry |
| Verbs.InitProgressIdempotent | verb_mastery2.ts:72-79 | a second snapshot adds nothing and writes nothing, and merging the result into the stored document gives the result |
| Verbs.InitCoversAllVerbs | verb_mastery2.ts:72-77 | after initialisation every verb has an entry |
| Verbs.Entries | verb_mastery2.ts:249 | the enumerated entries are entries of the progress map |
| Verbs.LevelCount | verb_mastery2.ts:251-252 | a level count never exceeds the entries |
| Verbs.LevelCountsBounded | verb_mastery2.ts:251-252 | mastered and learning entries together never outnumber the entries |
| Verbs.VerbStats | verb_mastery2.ts:248-256 | the counts add up to the total; all zero exactly when there are no entries or no verbs; otherwise the total is the verb count |
| Verbs.NewCountNonNegative | verb_mastery2.ts:253-254 | the New count is non-negative when every entry names an existing verb |
| Verbs.StaleEntriesMakeNewNegative | verb_mastery2.ts:253-254 | two mastered entries for one listed verb make the New count negative |
| Verbs.VerbOfTheDay | verb_mastery2.ts:258-263 | none exactly without verbs; when some verb is unmastered, the unmastered verb at position day mod their count, in list order; the first verb when all are mastered |
| Verbs.EveryUnmasteredVerbHasADay | verb_mastery2.ts:260-262 | every unmastered verb is the verb of some day |
| Verbs.AtLevel | verb_mastery2.ts:268-269 | the entries at one level, as many as that level's count |
| Verbs.FindVerb | verb_mastery2.ts:270 | found exactly when some verb has that infinitive |
| Verbs.FoundVerbs | verb_mastery2.ts:270 | entries without a verb are dropped; nothing is dropped when all verbs exist |
| Verbs.EntriesFollowOrder | verb_mastery2.ts:248 | when every name of the key order has progress, the entries are one per name, in that order, each carrying that name's progress |
| Verbs.EntriesCoverMap | verb_mastery2.ts:248 | with the order listing each key of the map once, as `Object.values` does, there is one entry per key and every key's progress appears, so the counts and suggestions range over the whole map |
| Verbs.KeysOfOrder | verb_mastery2.ts:248 | an order that lists each key once is as long as the map |
| Verbs.PracticeSuggestions | verb_mastery2.ts:265-271 | at most five verbs, none mastered, with descending incorrect counts; as many as the candidates, up to five, when all their verbs exist |
| Verbs.PracticeSuggestionsAreTopFive | verb_mastery2.ts:268-270 | a candidate whose verb exists but is not suggested has no more incorrect answers than any suggested verb |
| Verbs.NotSuggestedRanksLower | verb_mastery2.ts:268-270 | one left-out candidate against one suggested verb |
| Verbs.LeftOutOfTop | verb_mastery2.ts:270 | an entry cut by `slice(0, 5)` after the descending sort ranks no higher than any entry kept |
| Verbs.TopCandidates | verb_mastery2.ts:270 | the first five sorted candidates are sorted, drawn from the candidates, and as many as there are up to five |
| Verbs.CandidatesFromProgress | verb_mastery2.ts:267-269 | every candidate is an unmastered entry of the progress map |
| Verbs.FoundVerbsSorted | verb_mastery2.ts:270 | mapping sorted entries to verbs keeps the incorrect counts in descending order |
| Verbs.Trim | verb_mastery2.ts:304 | the trimmed string has no whitespace at either end, is empty exactly for all-whitespace input, and is the input's middle otherwise |
| Verbs.AddKeyword | verb_mastery2.ts:303-308 | a keyword is added exactly when its trimmed form is non-empty and new, and it is appended |
| Verbs.RemoveKeyword | verb_mastery2.ts:310-312 | the keyword is gone, every other keyword stays, nothing new appears, and an absent keyword changes nothing; the result is an order-preserving sub-sequence, and every other keyword keeps its number of occurrences |
| Verbs.AddThenRemove | verb_mastery2.ts:303-312 | adding keeps the list duplicate-free, and removing what was added restores the list |
| Verbs.RemoveKeepsDistinct | verb_mastery2.ts:310-312 | removing keeps the list duplicate-free |
| Markdown.BoldClose | self_extending_learning.js:1569 | the lazy `**(.*?)**` close: the nearest closing pair on the line, or none at all |
| Markdown.FindBold | self_extending_learning.js:1569 | the leftmost bold match with its shortest content; none means no bold match anywhere |
| Markdown.NextStar | self_extending_learning.js:1577 | the first asterisk at or after a position |
| Markdown.FindItalic | self_extending_learning.js:1577 | the leftmost single-star italic match not touching another star; none means no match anywhere |
| Markdown.ItalicEndsAtNextStar | self_extending_learning.js:1577 | an italic match closes at the first star after its opening |
| Markdown.ItalicContentForced | self_extending_learning.js:1577 | an italic match at a position has only one possible content |
| Markdown.LoopStep | self_extending_learning.js:1567-1589 | one loop turn consumes input and pushes parts that spell exactly what it consumed; the loop stops exactly when there is no match; a match consumes at least two stars |
| Markdown.TokenizeSpellsInput | self_extending_learning.js:1560-1592 | the parts, rendered back with their markers, spell the input exactly |
| Markdown.RenderMarkdownText | self_extending_learning.js:1591 | the text is returned unchanged exactly when there is at most one part; otherwise the parts spell the text |
| Markdown.SingleBoldSpanUnchanged | self_extending_learning.js:1591 | a text that is one bold span gives one part, so the raw text is returned, asterisks included |
| Markdown.WholeTextIsFirstBold | self_extending_learning.js:1569 | a bold span covering the whole text is the first match |
| Markdown.NoAsteriskUnchanged | self_extending_learning.js:1584-1591 | a text without asterisks is returned unchanged |
| ReviewScreen.StepIndex | verb_mastery2.ts:557-558 | every step is listed, so `indexOf` is never -1 |
| ReviewScreen.MoveToNext | verb_mastery2.ts:570-585 | over a list of `count` mistakes: the dashboard exactly after the last one; otherwise the next index with the assessment and exercise cleared |
| ReviewScreen.Handle | verb_mastery2.ts:438-585 | as written, over the list the event was handled with: the index grows by at most one, the dashboard is final, and a change of mistake keeps the practice step |
| ReviewScreen.HandleCorrected | self_extending_learning.js:1214-1229 | with the reset, a change of mistake also sets the practice step back to the first exercise |
| ReviewScreen.CorrectedKeepsConsistent | self_extending_learning.js:1214-1235 | before an assessment the step is the first one and no exercise shows; during practice the exercise shown is the current step |
| ReviewScreen.CorrectedRunConsistent | self_extending_learning.js:1214-1235 | any run of events keeps that consistency |
| ReviewScreen.CorrectedRoundVisitsAllSteps | verb_mastery2.ts:553-568 | with the reset, a failed assessment leads through the three exercises in order, then to the next mistake |
| ReviewScreen.StaleStepEndsRound | verb_mastery2.ts:525 | as written, a mistake entered with the step at the last exercise gets one exercise only |
| ReviewScreen.SecondRoundCutShort | verb_mastery2.ts:570-585 | as written, the second mistake's practice ends after one answer; with the reset it is still at the second exercise |
| Schedule.QueueAfterReview | verb_mastery2.ts:107-113 | the snapshot after a review lists the due mistakes of the one before, in order, less the reviewed one |
| Schedule.MergedQueue | verb_mastery2.ts:111-113 | a merge whose review time is in the future drops exactly that id from the queue |
| ReviewScreen.WithoutAt | verb_mastery2.ts:107-113 | with distinct ids, dropping the reviewed id removes exactly its position |
| ReviewScreen.LiveListSkipsNext | verb_mastery2.ts:570-585 | as written, with the live list: on the moves-on path the snapshot that drops mistake i lands while the timer is pending, so mistake i+1 stands at index i with its correction open; once the timer has fired, or the practice round's answer is handled, mistake i+1 is no longer current and is still due, and was not assessed unless the learner submitted in that window; the screen asks for i+2 or stops |
| ReviewScreen.SkipAfterShift | verb_mastery2.ts:570-585 | the same for any snapshot that shifts the rest of the list down by one |
| ReviewScreen.FrozenVisitsInOrder | verb_mastery2.ts:570-585 | with the list the screen opened with kept, a change of mistake presents the next id of that list at the first exercise, and the dashboard comes only after the last id |
| ReviewScreen.FrozenListPresentsNext | verb_mastery2.ts:570-585 | with the list kept, mistake i+1 is presented next on both paths |
| Retry.Attempt | canvas-library.js:103-116 | one fetch gives ok with the body exactly on a 2xx with JSON, a client error exactly on 4xx other than 429, and a server error for any other status |
| Retry.Call | canvas-library.js:96-123 | the loop agrees with the reference outcome; it waits at most four times, with delays 1, 2, 4 and 8 s in that order; the result is the last attempt's; a failure before the fourth wait is one the policy does not retry |
| Retry.OutcomeShape | canvas-library.js:100-120 | from attempt k on, the call makes n retries within the budget, waits the n delays from k in order, and returns what attempt k+n gave |
| Retry.OutcomeRetried | canvas-library.js:117-122 | every retried attempt failed with an error the policy retries, and a call that stops early with an error stops on one it does not retry |
| Retry.WaitBound | canvas-library.js:117-120 | from attempt k on, the waits add up to at most the remaining delays |
| Retry.TotalWaitAtMostFifteenSeconds | canvas-library.js:98-99 | a call never waits more than 15 s in all |
| Retry.RateLimitedThenServed | canvas-library.js:111 | three 429 answers and then a 200 give the body after 1+2+4 s |
| Retry.NetworkDownExhaustsRetries | canvas-library.js:117-120 | without a network the call fails after all four waits |
| Retry.ClientErrorRetried | canvas-library.js:111-120 | as written, a 404 is retried four times before it is reported |
| Retry.ClientErrorFailsFast | canvas-library.js:110-112 | with fail-fast, the first client error is reported at once, after only the waits before it |
| Retry.NotFoundFailsFast | canvas-library.js:110-112 | with fail-fast, a 404 is reported without waiting |
| Gemini.TextPayload | canvas-library.js:131-146 | the prompt is `contents[0].parts[0].text`; `systemInstruction` exactly when a truthy system prompt is given; `tools` exactly with search; a JSON MIME type exactly in JSON mode |
| Gemini.GenerateText | canvas-library.js:130-153 | call errors pass through; a null reply throws; a missing or falsy text is "No text generated"; otherwise text mode returns exactly the text, and JSON mode returns its parse, or the JSON error when it does not parse, whatever other fields the reply has |
| Gemini.MapCallError | canvas-library.js:148 | a call error becomes a generation error; a reply passes unchanged |
| Gemini.TextRoundTrip | canvas-library.js:149-152 | a reply holding text t gives t; in JSON mode, a reply holding a non-empty encoding of v gives v |
| Gemini.NoCandidates | canvas-library.js:149-151 | an empty candidate list is "No text generated"; a null reply is a type error |
| Gemini.ImagePayload | canvas-library.js:161-164 | the prompt is `instances[0].prompt` and one sample is asked for |
| Gemini.GenerateImage | canvas-library.js:160-169 | call errors pass through; a truthy `predictions[0].bytesBase64Encoded` is returned exactly, otherwise "No image generated" |
| Gemini.ImageRoundTrip | canvas-library.js:166-168 | a prediction with bytes b gives b |
| Gemini.PrefixesExclusive | canvas-library.js:178 | no string starts with two of the three data-URL prefixes |
| Gemini.StripDataPrefix | canvas-library.js:178 | a leading PNG, JPEG or JPG data-URL prefix is removed; any other string is kept |
| Gemini.StripUndoesPrefix | canvas-library.js:178 | stripping undoes each prefix, and removes only one prefix |
| Gemini.EditPayload | canvas-library.js:180-188 | part 0 is the prompt; part 1 carries the stripped image as PNG inline data |
| Gemini.FindInline | canvas-library.js:191 | the first part with truthy `inlineData`: a found part is in the list and every part before it is non-null without inline data; none exactly when no part has it; a null part before a match throws |
| Gemini.EditImage | canvas-library.js:176-194 | call errors pass through; no parts is "Image edit failed"; a null part before a match is a type error; no inline part is "Image edit failed"; a found part gives its truthy `inlineData.data`, otherwise "Image edit failed" |
| Gemini.EditSkipsTextParts | canvas-library.js:191-193 | a text part before the image part is skipped |
| Gemini.EditNullPartThrows | canvas-library.js:191 | a null part before the image throws a type error |
| Gemini.VoiceName | canvas-library.js:219 | the given voice when non-empty, otherwise "Kore"; never empty |
| Gemini.SpeakerConfigs | canvas-library.js:212-215 | one config per speaker, holding its name and voice |
| Gemini.SpeechPayload | canvas-library.js:202-221 | the text is `parts[0].text`; a multi-speaker config exactly when speakers are given, a single voice otherwise |
| Gemini.GenerateSpeech | canvas-library.js:201-227 | call errors pass through; a truthy `inlineData.data` of the first part is returned exactly, otherwise "TTS generation failed" |
| Gemini.SpeechRoundTrip | canvas-library.js:224-226 | a reply with audio data pcm gives pcm |
| ChunkedStore.DocPath | canvas-library.js:251-252 | `artifacts/appId/{public/data or users/uid}/collection/docId`, six segments |
| ChunkedStore.ChunkPath | canvas-library.js:277 | the chunk path extends the document path with `chunks` and the index |
| ChunkedStore.DocPathsDistinct | canvas-library.js:251-252 | two document paths are equal exactly when app, scope, collection and id are |
| ChunkedStore.ChunkPathsDistinct | canvas-library.js:277 | a chunk path is never a document path, and chunk paths are equal exactly when document and index are |
| ChunkedStore.ChunkCount | canvas-library.js:267 | `Math.ceil(length / CHUNK_SIZE)`: the smallest count whose chunks cover the content |
| ChunkedStore.Pieces | canvas-library.js:268-272 | one piece per index, each the clamped substring |
| ChunkedStore.ConcatPieces | canvas-library.js:268-272 | the pieces joined give the content back |
| ChunkedStore.SplitFacts | canvas-library.js:256-272 | large content has at least two chunks, every chunk but the last is full, the last is non-empty, and they join to the content |
| ChunkedStore.ApplyWritten | canvas-library.js:276-283 | a written path holds its last write |
| ChunkedStore.ApplyUntouched | canvas-library.js:276-283 | an unwritten path keeps its document |
| ChunkedStore.MetaDoc | canvas-library.js:259-264 | `isChunked` exactly for large content; `data` is null when the content is large and the given data otherwise; `chunkCount` is present exactly for large content |
| ChunkedStore.Save | canvas-library.js:249-284 | chunk writes at the chunk paths, one per chunk in order, then the meta write at the document path |
| ChunkedStore.ReadChunks | canvas-library.js:303-311 | the chunk texts joined in order; the first missing chunk is reported |
| ChunkedStore.Load | canvas-library.js:289-318 | null for a missing document; the inline data when not chunked; otherwise the joined chunks, parsed when they parse |
| ChunkedStore.SavedChunksReadBack | canvas-library.js:266-279 | every saved chunk reads back as its piece |
| ChunkedStore.LoadAfterSave | canvas-library.js:249-318 | over any prior store, loading after a save gives the data back inline, or the serialised content re-parsed when it was chunked |
| ChunkedStore.LawfulRoundTrip | canvas-library.js:255-317 | with a lawful codec, a chunked non-string value comes back equal |
| ChunkedStore.InterruptedSave | canvas-library.js:276-283 | a save torn after k chunk writes leaves the meta document and the later chunks old, and the earlier chunks new |
| ChunkedStore.Notification | canvas-library.js:323-342 | null for a missing document; the data when not chunked; only `{_isChunked, timestamp}` when chunked |
| ChunkedStore.NotificationAgreesWithLoad | canvas-library.js:327-334 | for an unchunked or missing document the listener and `load` give the same value |
| Wav.Le16 | canvas-library.js:460-461 | two little-endian bytes whose value is v mod 2^16 |
| Wav.Le32 | canvas-library.js:458-459 | four little-endian bytes whose value is v mod 2^32 |
| Wav.Ascii | canvas-library.js:447-449 | one byte per character, the low 8 bits of its code |
| Wav.RiffDescriptor | canvas-library.js:451-453 | 12 bytes: `RIFF`, the size field, `WAVE` |
| Wav.FmtChunk | canvas-library.js:454-461 | 24 bytes: the `fmt ` chunk with its fields at their offsets |
| Wav.DataChunkHeader | canvas-library.js:462-463 | 8 bytes: `data` and the data size |
| Wav.Header | canvas-library.js:446-463 | the 44-byte header |
| Wav.PcmToWav | canvas-library.js:436-472 | an odd byte count is an error; otherwise the file is 44 bytes plus the samples, and the samples follow the header unchanged |
| Wav.ParseWav | canvas-library.js:446-469 | a reader: a result exactly for files of at least 44 bytes with the four tags |
| Wav.RiffLayout | canvas-library.js:451-453 | the descriptor's bytes at offsets 0-11 |
| Wav.FmtLayout | canvas-library.js:454-461 | the format chunk's bytes at offsets 12-35 |
| Wav.DataLayout | canvas-library.js:462-463 | the data header's bytes at offsets 36-43 |
| Wav.HeaderReads | canvas-library.js:446-463 | each header field reads back from its offset |
| Wav.WavRoundTrip | canvas-library.js:436-472 | reading the file gives sizes 36+n and n, PCM format 1, mono, the rate, byte rate 2×rate, block align 2, 16 bits, and the samples back, each field modulo its width |
| Wav.SizesDescribeFile | canvas-library.js:452-463 | when nothing wraps, the RIFF size is the file length minus 8, the data size is the length minus 44, and byte rate = rate × block align |
| Wav.DefaultRate | canvas-library.js:458-459 | at the default 24 kHz the byte rate is 48 000 |
| Assets.Landed | canvas-library.js:276-283 | a failed save lands a strict prefix of its writes; a successful one lands all |
| Assets.ToWav | canvas-library.js:406-409 | undecodable input is an error; decoded PCM of even length becomes the 44-byte header at 24 kHz followed by the samples; an odd length is the WAV error |
| Assets.GenerateImageAsset | canvas-library.js:371-384 | generation is the first effect, followed by at most one store write and no read; failure leaves the cache unchanged; success memoises a data URL |
| Assets.GetImage | canvas-library.js:356-385 | a memory hit has no effects; `force` skips the store read; a store hit gives the JPEG data URL of the stored text; an error leaves the cache unchanged, and success memoises |
| Assets.ImageMissSavesAndMemoises | canvas-library.js:374-384 | on a miss the compressed image is saved to `assets` and its data URL is cached and returned |
| Assets.FailedGenerationChangesNothing | canvas-library.js:374 | a failed generation changes neither the cache nor the store |
| Assets.ImageServedFromEitherLevel | canvas-library.js:359-368 | after generation the next call is a memory hit, and a new session gets the same URL from the store |
| Assets.GenerateAudioAsset | canvas-library.js:402-411 | generation is the first effect, followed by at most one store write and no read; a failed generation changes nothing; with a save that lands the result is the WAV conversion of the reply; failure leaves the cache unchanged; success memoises |
| Assets.SaveAudio | canvas-library.js:403-410 | the one effect is the landed writes of saving the PCM, and the store receives exactly those; a failed save is the save error; a save that lands gives the WAV conversion of the PCM; an error leaves the cache unchanged, and success memoises the blob |
| Assets.GetAudio | canvas-library.js:387-412 | a memory hit has no effects; `force` skips the store read; a store hit is converted to WAV; an error leaves the cache unchanged, and success memoises |
| Assets.AudioMissConvertsReply | canvas-library.js:387-412 | on a miss with audio in the reply and a save that lands: the result is the WAV conversion of the reply, the raw PCM is saved, the cache memoises exactly on success, and the effects are the read (without `force`), the call and the save |
| Assets.GeneratedAudio | canvas-library.js:402-411 | the generation step alone: the conversion, the state and the call then the save |
| Assets.MissReadsFirst | canvas-library.js:392-403 | without `force`, a miss in both levels is the store read followed by the generation step |
| Assets.AudioStoresRawPcm | canvas-library.js:403-406 | the raw PCM, not the WAV, is what gets saved |
| Assets.SharedCacheServesImageAsAudio | canvas-library.js:387-390 | image and audio share one cache, so an audio request for an image's id returns the image's URL |

## Left out

- Sign-in, app start-up and `await this.app.ready` are not modelled. The user id and app id are parameters.
- The `!db \|\| !userId` early returns are not modelled. The model assumes a signed-in user.
- The React UI, toasts and `setTimeout` delays are not modelled. Neither are the prompts and `callGemini`, which is outside these files. The review screen's timers fire as events.
- The tag classifier's answer is a parameter (`Tagging`).
- `addNewItem`, `addNewVerb`, bulk add and the developer panel's module generation are not modelled. `evaluateModuleCode` and `runModuleTests` run generated code.
- The self-extending app's own review screen steps are not modelled. Its reset is used only as the corrected behaviour of the verb app's screen.
- How a practice answer is judged correct is not modelled. It is the `PracticeAnswered` event.
- `fetch`, `response.json()` and `response.text()` are a scripted response sequence.
- JSON.stringify and JSON.parse are a `Codec` parameter. Only lawful codecs are assumed where stated.
- `Optimizer.compressImage` is a parameter (canvas drawing). It never resolves when the image fails to load, and that case is not modelled.
- `atob` is a parameter.
- `URL.createObjectURL` is not modelled. The cached WAV bytes stand for the blob URL.
- Floating-point numbers are not modelled. JSON numbers are integers.
- `new Date()` and `toISOString()` are a timestamp parameter.
- Daylight-saving shifts in `setDate` are not modelled. A day is always 86 400 000 ms.
- Promise.all concurrency is not modelled. A failed save lands a prefix of its writes in order.
- Firestore's deep merge of nested maps is not modelled. A merge overrides top-level keys.
- Path segments are assumed to contain no `/`.
- A non-numeric `chunkCount` is not modelled. It reads as zero chunks.
- An undefined `meta.data` reads as null.
- `JSON.stringify(undefined)` is not modelled.
- The host's byte order is not modelled. `Int16Array` is taken as little-endian, as on every common platform.
- The subscription's real-time chunk re-assembly is not done by the library either. Only its notification is modelled.
- ChunkedStore.LoadAfterSave: a chunked non-string value comes back as the codec's parse of its encoding. It comes back equal only for a lawful codec (`LawfulRoundTrip`).
- Verbs.NewCountNonNegative: needs every progress entry to name an existing verb. `StaleEntriesMakeNewNegative` shows the count going negative otherwise.
- ChunkedStore.ChunkCount: counts Unicode scalar values, while JavaScript's `length` counts UTF-16 code units (canvas-library.js:256, 267). Text with characters outside the Basic Multilingual Plane is chunked at a different count.
- ChunkedStore.Pieces: cuts at scalar values, while `substring` cuts at UTF-16 code units (canvas-library.js:268-272). A piece boundary that splits a surrogate pair cannot be expressed over `seq<char>`.
- ChunkedStore.MetaDoc: the `isLarge` test compares the scalar-value length with the chunk size, not the UTF-16 length (canvas-library.js:256).
- Markdown.RenderMarkdownText: the input is typed as a string. The `typeof text !== 'string'` pass-through at self_extending_learning.js:1560 is not modelled.
- ReviewScreen.LiveListSkipsNext: covers a snapshot that drops the reviewed mistake. A new mistake saved by the same assessment enters the list at its head, because the query orders by newest timestamp first; that shift is not modelled. A submission made during the moves-on window is assessed against the sentence shown for mistake i; the model states that mistake i+1 is open in that window but does not follow such a submission.
- Wav.SizesDescribeFile: only states the sizes when they fit in 32 bits. `WavRoundTrip` gives the wrapped values in general.

## Findings

| source | as written | input that shows it | evidently intended | confidence | as-written member | corrected member |
|---|---|---|---|---|---|---|
| canvas-library.js:110-120 | the client-error `throw` is inside the `try`, so the `catch` retries it like any other failure | five replies of status 404: four waits (15 s) and then the 404 error | 4xx errors other than 429 are reported at once, as the comment at line 110 says | not executed | Retry.ClientErrorRetried | Retry.ClientErrorFailsFast |
| verb_mastery2.ts:570-585 | moving to the next mistake resets the assessment and the exercise but not `practiceStep` | three mistakes; a failed assessment and three answers on the first, then a failed assessment and one answer on the second | each mistake's practice round starts at the first exercise, as self_extending_learning.js:1223-1229 resets it | not executed | ReviewScreen.SecondRoundCutShort | ReviewScreen.CorrectedRoundVisitsAllSteps |
| verb_mastery2.ts:231 | the screen indexes `activeMistakes`, which every snapshot replaces. A review moves its mistake out of the queue, so the next one slides into the current index | due mistakes a, b, c; a is reviewed and the learner moves on: b stands at a's index with its input open until the 2.5 s timer fires, then the screen moves on to c; b is not assessed unless the learner presses Check in that window, and then against a's sentence | each due mistake is assessed once, in order, and the list under review stays put while the learner works through it | not executed | ReviewScreen.LiveListSkipsNext | ReviewScreen.FrozenListPresentsNext |

=== FILE: assets.dfy ===
/**
 * `AssetManager` in canvas-library.js: generated images and speech behind
 * two cache levels. The memory cache is one map shared by images and audio;
 * below it the document store holds, under the `assets` collection, the
 * compressed image or the raw PCM; below that the Gemini API generates.
 * Each call returns what it resolved to, the manager's new state and the
 * effects it performed, in order. The API reply, the image compressor and
 * base64 decoding are parameters.
 */
module Assets {
  import opened Wrappers
  import opened Json
  import ChunkedStore
  import Gemini
  import Retry
  import Wav

  /** What the memory cache holds: a data URL for an image, an object URL standing for a WAV blob. */
  datatype Cached = DataUrl(url: string) | WavBlob(wav: seq<Wav.Byte>)

  datatype Manager = Manager(cache: map<string, Cached>, store: ChunkedStore.Store)

  /** What happens outside the manager, in order. */
  datatype Effect =
    | ReadStore(path: ChunkedStore.Path)
    | CallApi(payload: Json)
    | WriteStore(writes: seq<ChunkedStore.Write>)

  /**
   * The collaborators: the application id, JSON.stringify/parse, the save
   * timestamp, `Optimizer.compressImage` and `atob` (None where it throws).
   */
  datatype Env = Env(
    appId: string, codec: Codec, timestamp: string,
    compress: Json -> string, atob: string -> Option<seq<Wav.Byte>>)

  datatype AssetError =
    | LoadFailed(load: ChunkedStore.LoadError)
    | GenerationFailed(gen: Gemini.GenError)
    | SaveFailed
    | NotBase64
    | BadPcm(wav: Wav.WavError)

  datatype Outcome = Outcome(result: Result<Cached, AssetError>, state: Manager, effects: seq<Effect>)

  const JPEG_DATA_URL_PREFIX: string := "data:image/jpeg;base64,"

  const ASSET_COLLECTION: string := "assets"

  function AssetPath(env: Env, scope: ChunkedStore.Scope, assetId: string): ChunkedStore.Path {
    ChunkedStore.DocPath(env.appId, scope, ASSET_COLLECTION, assetId)
  }

  /**
   * The writes of a save that lands: all of them, or, when the write at
   * `failsAt` fails, the ones before it.
   */
  function Landed(ws: seq<ChunkedStore.Write>, failsAt: Option<nat>): (r: seq<ChunkedStore.Write>)
    requires |ws| > 0
    ensures failsAt.None? ==> r == ws
    ensures failsAt.Some? ==> |r| < |ws| && r == ws[..|r|]
  {
    if failsAt.None? then ws
    else if failsAt.value < |ws| then ws[..failsAt.value]
    else ws[..|ws| - 1]
  }

  function Prepend(e: Effect, o: Outcome): Outcome {
    o.(effects := [e] + o.effects)
  }

  /** `Optimizer.pcmToWav(x)` at the default rate: `atob(String(x))`, then the WAV file. */
  function ToWav(env: Env, x: Json): (r: Result<Cached, AssetError>)
    ensures r.Ok? ==>
      && r.value.WavBlob? && env.atob(ToText(x)).Some?
      && Wav.PcmToWav(env.atob(ToText(x)).value, Wav.DEFAULT_SAMPLE_RATE) == Ok(r.value.wav)
    ensures env.atob(ToText(x)).None? ==> r == Err(NotBase64)
    ensures env.atob(ToText(x)).Some? ==>
      var pcm := env.atob(ToText(x)).value;
      && (|pcm| % 2 == 0 ==> r == Ok(WavBlob(Wav.Header(Wav.DEFAULT_SAMPLE_RATE, |pcm|) + pcm)))
      && (|pcm| % 2 == 1 ==> r == Err(BadPcm(Wav.OddByteLength)))
  {
    match env.atob(ToText(x))
    case None => Err(NotBase64)
    case Some(pcm) =>
      match Wav.PcmToWav(pcm, Wav.DEFAULT_SAMPLE_RATE)
      case Err(e) => Err(BadPcm(e))
      case Ok(wav) => Ok(WavBlob(wav))
  }

  // ----- getImage -----

  /** Steps 3 to 5 of `getImage`: generate, compress, save, memoise. */
  function GenerateImageAsset(m: Manager, env: Env, p: ChunkedStore.Path, assetId: string, prompt: string,
                              called: Result<Json, Retry.CallError>, saveFailsAt: Option<nat>): (o: Outcome)
    ensures |o.effects| >= 1 && o.effects[0] == CallApi(Gemini.ImagePayload(prompt))
    ensures o.result.Err? ==> o.state.cache == m.cache
    ensures o.result.Ok? ==> o.state.cache == m.cache[assetId := o.result.value] && o.result.value.DataUrl?
    ensures |o.effects| <= 2 && (|o.effects| == 2 ==> o.effects[1].WriteStore?)
  {
    var api := CallApi(Gemini.ImagePayload(prompt));
    match Gemini.GenerateImage(called)
    case Err(e) => Outcome(Err(GenerationFailed(e)), m, [api])
    case Ok(raw) =>
      var compressed := env.compress(raw);
      var ws := ChunkedStore.Save(p, JStr(compressed), env.timestamp, env.codec);
      var landed := Landed(ws, saveFailsAt);
      var store := ChunkedStore.Apply(m.store, landed);
      if saveFailsAt.Some? then Outcome(Err(SaveFailed), m.(store := store), [api, WriteStore(landed)])
      else
        var url := DataUrl(JPEG_DATA_URL_PREFIX + compressed);
        Outcome(Ok(url), Manager(m.cache[assetId := url], store), [api, WriteStore(ws)])
  }

  /**
   * `getImage(assetId, prompt, { force, public })`. Without `force` a memory
   * hit is returned with no effect at all, and a truthy stored value is
   * memoised as a JPEG data URL around its text; with `force` neither cache
   * is consulted and the image is generated. A failure anywhere leaves the
   * memory cache as it was; a success memoises what it returns.
   */
  function GetImage(m: Manager, env: Env, assetId: string, prompt: string, force: bool, scope: ChunkedStore.Scope,
                    called: Result<Json, Retry.CallError>, saveFailsAt: Option<nat>): (o: Outcome)
    ensures !force && assetId in m.cache ==> o == Outcome(Ok(m.cache[assetId]), m, [])
    ensures force ==>
      && |o.effects| >= 1 && o.effects[0] == CallApi(Gemini.ImagePayload(prompt))
      && |o.effects| <= 2 && (|o.effects| == 2 ==> o.effects[1].WriteStore?)
    ensures !force && assetId !in m.cache ==>
      |o.effects| >= 1 && o.effects[0] == ReadStore(AssetPath(env, scope, assetId))
    ensures o.result.Err? ==> o.state.cache == m.cache
    ensures o.result.Ok? ==> o.state.cache == m.cache[assetId := o.result.value]
    ensures o.result.Ok? && (force || assetId !in m.cache) ==> o.result.value.DataUrl?
    ensures var p := AssetPath(env, scope, assetId);
      !force && assetId !in m.cache && ChunkedStore.Load(m.store, p, env.codec).Ok?
        && Truthy(ChunkedStore.Load(m.store, p, env.codec).value) ==>
      o.result == Ok(DataUrl(JPEG_DATA_URL_PREFIX + ToText(ChunkedStore.Load(m.store, p, env.codec).value)))
        && o.state.store == m.store && o.effects == [ReadStore(p)]
  {
    var p := AssetPath(env, scope, assetId);
    if !force && assetId in m.cache then Outcome(Ok(m.cache[assetId]), m, [])
    else if force then GenerateImageAsset(m, env, p, assetId, prompt, called, saveFailsAt)
    else
      match ChunkedStore.Load(m.store, p, env.codec)
      case Err(e) => Outcome(Err(LoadFailed(e)), m, [ReadStore(p)])
      case Ok(cached) =>
        if Truthy(cached) then
          var url := DataUrl(JPEG_DATA_URL_PREFIX + ToText(cached));
          Outcome(Ok(url), m.(cache := m.cache[assetId := url]), [ReadStore(p)])
        else Prepend(ReadStore(p), GenerateImageAsset(m, env, p, assetId, prompt, called, saveFailsAt))
  }

  /**
   * On a miss with a reply carrying an image and a save that lands, the
   * compressed image is both saved under the asset's path and memoised.
   */
  lemma ImageMissSavesAndMemoises(m: Manager, env: Env, assetId: string, prompt: string, force: bool,
                                  scope: ChunkedStore.Scope, called: Result<Json, Retry.CallError>)
    requires force || assetId !in m.cache
    requires Gemini.GenerateImage(called).Ok?
    requires !force ==> ChunkedStore.Load(m.store, AssetPath(env, scope, assetId), env.codec) == Ok(JNull)
    ensures var o := GetImage(m, env, assetId, prompt, force, scope, called, None);
      var compressed := env.compress(Gemini.GenerateImage(called).value);
      var ws := ChunkedStore.Save(AssetPath(env, scope, assetId), JStr(compressed), env.timestamp, env.codec);
      && o.result == Ok(DataUrl(JPEG_DATA_URL_PREFIX + compressed))
      && o.state == Manager(m.cache[assetId := o.result.value], ChunkedStore.Apply(m.store, ws))
      && o.effects == (if force then [] else [ReadStore(AssetPath(env, scope, assetId))])
                      + [CallApi(Gemini.ImagePayload(prompt)), WriteStore(ws)]
  {
  }

  /** When neither cache level serves the image, a generation that fails touches neither of them. */
  lemma FailedGenerationChangesNothing(m: Manager, env: Env, assetId: string, prompt: string, force: bool,
                                       scope: ChunkedStore.Scope, called: Result<Json, Retry.CallError>,
                                       saveFailsAt: Option<nat>)
    requires force || assetId !in m.cache
    requires var loaded := ChunkedStore.Load(m.store, AssetPath(env, scope, assetId), env.codec);
      !force ==> loaded.Err? || !Truthy(loaded.value)
    requires Gemini.GenerateImage(called).Err?
    ensures GetImage(m, env, assetId, prompt, force, scope, called, saveFailsAt).state == m
  {
  }

  /**
   * What one call memoises the next one returns without any effect; and
   * what it saved another session, with an empty memory cache, reads back
   * from the store as the same URL, provided the compressed image is
   * non-empty and, when it is chunked, does not parse as JSON.
   */
  lemma ImageServedFromEitherLevel(m: Manager, env: Env, assetId: string, prompt: string, force: bool,
                                   scope: ChunkedStore.Scope, called: Result<Json, Retry.CallError>,
                                   prompt': string, called': Result<Json, Retry.CallError>)
    requires force || assetId !in m.cache
    requires Gemini.GenerateImage(called).Ok?
    requires !force ==> ChunkedStore.Load(m.store, AssetPath(env, scope, assetId), env.codec) == Ok(JNull)
    requires var c := env.compress(Gemini.GenerateImage(called).value);
      c != "" && (|c| > ChunkedStore.CHUNK_SIZE ==> env.codec.decode(c).None?)
    ensures var o := GetImage(m, env, assetId, prompt, force, scope, called, None);
      && GetImage(o.state, env, assetId, prompt', false, scope, called', None) == Outcome(o.result, o.state, [])
      && GetImage(Manager(map[], o.state.store), env, assetId, prompt', false, scope, called', None).result == o.result
  {
    var o := GetImage(m, env, assetId, prompt, force, scope, called, None);
    var c := env.compress(Gemini.GenerateImage(called).value);
    var p := AssetPath(env, scope, assetId);
    ImageMissSavesAndMemoises(m, env, assetId, prompt, force, scope, called);
    ChunkedStore.LoadAfterSave(m.store, p, JStr(c), env.timestamp, env.codec);
    assert ChunkedStore.Load(o.state.store, p, env.codec) == Ok(JStr(c));
    assert Truthy(JStr(c)) && ToText(JStr(c)) == c;
    var later := Manager(map[], o.state.store);
    assert GetImage(later, env, assetId, prompt', false, scope, called', None).result
      == Ok(DataUrl(JPEG_DATA_URL_PREFIX + c));
  }

  // ----- getAudio -----

  /** The tail of `getAudio`: generate speech, save the raw PCM, then memoise its WAV blob. */
  function GenerateAudioAsset(m: Manager, env: Env, p: ChunkedStore.Path, assetId: string, text: string,
                              config: Gemini.SpeechConfig, called: Result<Json, Retry.CallError>,
                              saveFailsAt: Option<nat>): (o: Outcome)
    ensures |o.effects| >= 1 && o.effects[0] == CallApi(Gemini.SpeechPayload(text, config))
    ensures o.result.Err? ==> o.state.cache == m.cache
    ensures o.result.Ok? ==> o.state.cache == m.cache[assetId := o.result.value]
    ensures |o.effects| <= 2 && (|o.effects| == 2 ==> o.effects[1].WriteStore?)
    ensures Gemini.GenerateSpeech(called).Err? ==>
      o.result == Err(GenerationFailed(Gemini.GenerateSpeech(called).error)) && o.state == m && |o.effects| == 1
    ensures Gemini.GenerateSpeech(called).Ok? && saveFailsAt.None? ==>
      o.result == ToWav(env, Gemini.GenerateSpeech(called).value)
  {
    var api := CallApi(Gemini.SpeechPayload(text, config));
    match Gemini.GenerateSpeech(called)
    case Err(e) => Outcome(Err(GenerationFailed(e)), m, [api])
    case Ok(pcm) => Prepend(api, SaveAudio(m, env, p, assetId, pcm, saveFailsAt))
  }

  /** Saving the generated PCM, then converting it: a failed save or conversion memoises nothing. */
  function SaveAudio(m: Manager, env: Env, p: ChunkedStore.Path, assetId: string, pcm: Json,
                     saveFailsAt: Option<nat>): (o: Outcome)
    ensures var landed := Landed(ChunkedStore.Save(p, pcm, env.timestamp, env.codec), saveFailsAt);
      && o.effects == [WriteStore(landed)]
      && o.state.store == ChunkedStore.Apply(m.store, landed)
    ensures saveFailsAt.Some? ==> o.result == Err(SaveFailed)
    ensures saveFailsAt.None? ==> o.result == ToWav(env, pcm)
    ensures o.result.Err? ==> o.state.cache == m.cache
    ensures o.result.Ok? ==> o.state.cache == m.cache[assetId := o.result.value]
  {
    var ws := ChunkedStore.Save(p, pcm, env.timestamp, env.codec);
    var landed := Landed(ws, saveFailsAt);
    var saved := m.(store := ChunkedStore.Apply(m.store, landed));
    if saveFailsAt.Some? then Outcome(Err(SaveFailed), saved, [WriteStore(landed)])
    else
      match ToWav(env, pcm)
      case Err(e) => Outcome(Err(e), saved, [WriteStore(ws)])
      case Ok(blob) => Outcome(Ok(blob), saved.(cache := m.cache[assetId := blob]), [WriteStore(ws)])
  }

  /**
   * `getAudio(assetId, text, { force, public, voice, speakers })`: as
   * `getImage`, except that a stored value is turned into a WAV blob, and a
   * generated one is saved as the raw PCM before it is.
   */
  function GetAudio(m: Manager, env: Env, assetId: string, text: string, config: Gemini.SpeechConfig, force: bool,
                    scope: ChunkedStore.Scope, called: Result<Json, Retry.CallError>, saveFailsAt: Option<nat>): (o: Outcome)
    ensures !force && assetId in m.cache ==> o == Outcome(Ok(m.cache[assetId]), m, [])
    ensures force ==>
      && |o.effects| >= 1 && o.effects[0] == CallApi(Gemini.SpeechPayload(text, config))
      && |o.effects| <= 2 && (|o.effects| == 2 ==> o.effects[1].WriteStore?)
    ensures !force && assetId !in m.cache ==>
      |o.effects| >= 1 && o.effects[0] == ReadStore(AssetPath(env, scope, assetId))
    ensures o.result.Err? ==> o.state.cache == m.cache
    ensures o.result.Ok? ==> o.state.cache == m.cache[assetId := o.result.value]
    ensures var p := AssetPath(env, scope, assetId);
      !force && assetId !in m.cache && ChunkedStore.Load(m.store, p, env.codec).Ok?
        && Truthy(ChunkedStore.Load(m.store, p, env.codec).value) ==>
      o.result == ToWav(env, ChunkedStore.Load(m.store, p, env.codec).value)
        && o.state.store == m.store && o.effects == [ReadStore(p)]
  {
    var p := AssetPath(env, scope, assetId);
    if !force && assetId in m.cache then Outcome(Ok(m.cache[assetId]), m, [])
    else if force then GenerateAudioAsset(m, env, p, assetId, text, config, called, saveFailsAt)
    else
      match ChunkedStore.Load(m.store, p, env.codec)
      case Err(e) => Outcome(Err(LoadFailed(e)), m, [ReadStore(p)])
      case Ok(cached) =>
        if Truthy(cached) then
          match ToWav(env, cached)
          case Err(e) => Outcome(Err(e), m, [ReadStore(p)])
          case Ok(blob) => Outcome(Ok(blob), m.(cache := m.cache[assetId := blob]), [ReadStore(p)])
        else Prepend(ReadStore(p), GenerateAudioAsset(m, env, p, assetId, text, config, called, saveFailsAt))
  }

  /**
   * On a miss with a reply carrying audio and a save that lands, the raw PCM
   * is saved under the asset's path, and the WAV conversion of the reply is
   * returned and, when it succeeds, memoised.
   */
  lemma AudioMissConvertsReply(m: Manager, env: Env, assetId: string, text: string, config: Gemini.SpeechConfig,
                               force: bool, scope: ChunkedStore.Scope, called: Result<Json, Retry.CallError>)
    requires force || assetId !in m.cache
    requires Gemini.GenerateSpeech(called).Ok?
    requires var loaded := ChunkedStore.Load(m.store, AssetPath(env, scope, assetId), env.codec);
      !force ==> loaded.Ok? && !Truthy(loaded.value)
    ensures var o := GetAudio(m, env, assetId, text, config, force, scope, called, None);
      var pcm := Gemini.GenerateSpeech(called).value;
      var ws := ChunkedStore.Save(AssetPath(env, scope, assetId), pcm, env.timestamp, env.codec);
      && o.result == ToWav(env, pcm)
      && o.state == Manager(if o.result.Ok? then m.cache[assetId := o.result.value] else m.cache,
                            ChunkedStore.Apply(m.store, ws))
      && o.effects == (if force then [] else [ReadStore(AssetPath(env, scope, assetId))])
                      + [CallApi(Gemini.SpeechPayload(text, config)), WriteStore(ws)]
  {
    var p := AssetPath(env, scope, assetId);
    GeneratedAudio(m, env, p, assetId, text, config, called);
    if !force {
      MissReadsFirst(m, env, assetId, text, config, scope, called);
    }
  }

  /** Without `force`, a miss in both levels is the read followed by the generation step. */
  lemma MissReadsFirst(m: Manager, env: Env, assetId: string, text: string, config: Gemini.SpeechConfig,
                       scope: ChunkedStore.Scope, called: Result<Json, Retry.CallError>)
    requires assetId !in m.cache
    requires var loaded := ChunkedStore.Load(m.store, AssetPath(env, scope, assetId), env.codec);
      loaded.Ok? && !Truthy(loaded.value)
    ensures var p := AssetPath(env, scope, assetId);
      var g := GenerateAudioAsset(m, env, p, assetId, text, config, called, None);
      var o := GetAudio(m, env, assetId, text, config, false, scope, called, None);
      o.result == g.result && o.state == g.state && o.effects == [ReadStore(p)] + g.effects
  {
  }

  /** The generation step alone, with a save that lands. */
  lemma GeneratedAudio(m: Manager, env: Env, p: ChunkedStore.Path, assetId: string, text: string,
                       config: Gemini.SpeechConfig, called: Result<Json, Retry.CallError>)
    requires Gemini.GenerateSpeech(called).Ok?
    ensures var o := GenerateAudioAsset(m, env, p, assetId, text, config, called, None);
      var pcm := Gemini.GenerateSpeech(called).value;
      var ws := ChunkedStore.Save(p, pcm, env.timestamp, env.codec);
      && o.result == ToWav(env, pcm)
      && o.state == Manager(if o.result.Ok? then m.cache[assetId := o.result.value] else m.cache,
                            ChunkedStore.Apply(m.store, ws))
      && o.effects == [CallApi(Gemini.SpeechPayload(text, config)), WriteStore(ws)]
  {
    var pcm := Gemini.GenerateSpeech(called).value;
    var sv := SaveAudio(m, env, p, assetId, pcm, None);
    assert GenerateAudioAsset(m, env, p, assetId, text, config, called, None)
        == Prepend(CallApi(Gemini.SpeechPayload(text, config)), sv);
    assert sv.state == Manager(sv.state.cache, sv.state.store);
  }

  /**
   * A generated clip is stored as the PCM the API returned, not as the WAV
   * file that is memoised: loading the asset gives the PCM back.
   */
  lemma AudioStoresRawPcm(m: Manager, env: Env, assetId: string, text: string, config: Gemini.SpeechConfig,
                          scope: ChunkedStore.Scope, called: Result<Json, Retry.CallError>)
    requires Gemini.GenerateSpeech(called).Ok?
    ensures var o := GetAudio(m, env, assetId, text, config, true, scope, called, None);
      ChunkedStore.Load(o.state.store, AssetPath(env, scope, assetId), env.codec)
        == Ok(ChunkedStore.Reloaded(Gemini.GenerateSpeech(called).value, env.codec))
  {
    var pcm := Gemini.GenerateSpeech(called).value;
    ChunkedStore.LoadAfterSave(m.store, AssetPath(env, scope, assetId), pcm, env.timestamp, env.codec);
  }

  /**
   * The memory cache is shared: once an image is memoised under an id, asking
   * for audio under the same id returns the image's URL and generates nothing.
   */
  lemma SharedCacheServesImageAsAudio(m: Manager, env: Env, assetId: string, prompt: string, force: bool,
                                      scope: ChunkedStore.Scope, called: Result<Json, Retry.CallError>,
                                      text: string, config: Gemini.SpeechConfig, called': Result<Json, Retry.CallError>)
    requires force || assetId !in m.cache
    requires GetImage(m, env, assetId, prompt, force, scope, called, None).result.Ok?
    ensures var o := GetImage(m, env, assetId, prompt, force, scope, called, None);
      var a := GetAudio(o.state, env, assetId, text, config, false, scope, called', None);
      a.result == o.result && a.effects == [] && a.result.value.DataUrl?
  {
  }
}

=== FILE: chunked_store.dfy ===
/**
 * `FirestoreManager` in canvas-library.js: a document store that keeps a
 * payload inline in one metadata document when its serialisation is small,
 * and otherwise splits the serialisation into fixed-size pieces stored in a
 * `chunks` sub-collection. The store is a map from paths to documents and
 * `setDoc` overwrites a whole document; a save is the list of writes it
 * issues, of which any prefix may land.
 */
module ChunkedStore {
  import opened Wrappers
  import opened Json
  import Decimal

  const CHUNK_SIZE: nat := 800 * 1024

  const ROOT_COLLECTION: string := "artifacts"

  type Path = seq<string>

  /** A stored document: its top-level fields. */
  type Doc = map<string, Json>

  type Store = map<Path, Doc>

  /** `isPublic`, and the signed-in user otherwise. */
  datatype Scope = Public | Private(userId: string)

  function ScopeSegments(scope: Scope): seq<string> {
    match scope
    case Public => ["public", "data"]
    case Private(uid) => ["users", uid]
  }

  /** The metadata document of `docId` in `collectionName`. */
  function DocPath(appId: string, scope: Scope, collectionName: string, docId: string): (p: Path)
    ensures |p| == 6 && p[0] == ROOT_COLLECTION && p[1] == appId
    ensures p[2..4] == ScopeSegments(scope) && p[4] == collectionName && p[5] == docId
  {
    [ROOT_COLLECTION, appId] + ScopeSegments(scope) + [collectionName, docId]
  }

  /** Piece `i` of the document at `p`. */
  function ChunkPath(p: Path, i: nat): (q: Path)
    ensures |q| == |p| + 2 && q[..|p|] == p && q[|p|] == "chunks" && q[|p| + 1] == Decimal.NatToString(i)
  {
    p + ["chunks", Decimal.NatToString(i)]
  }

  /** Public documents and private ones live apart, and the path names its arguments back. */
  lemma DocPathsDistinct(a: string, s: Scope, c: string, d: string, a': string, s': Scope, c': string, d': string)
    ensures DocPath(a, s, c, d) == DocPath(a', s', c', d') <==> a == a' && s == s' && c == c' && d == d'
  {
    var p, p' := DocPath(a, s, c, d), DocPath(a', s', c', d');
    if p == p' {
      assert p[2..4] == p'[2..4];
      assert ScopeSegments(s)[0] == p[2] && ScopeSegments(s')[0] == p'[2];
      assert ScopeSegments(s)[1] == p[3] && ScopeSegments(s')[1] == p'[3];
    }
  }

  /** A chunk path is never a document path, and names its document and index back. */
  lemma ChunkPathsDistinct(p: Path, i: nat, p': Path, j: nat)
    ensures ChunkPath(p, i) != p
    ensures ChunkPath(p, i) == ChunkPath(p', j) <==> p == p' && i == j
  {
    var q, q' := ChunkPath(p, i), ChunkPath(p', j);
    assert |q| != |p|;
    if q == q' {
      assert |p| == |p'|;
      assert p == q[..|p|] == q'[..|p'|] == p';
      assert q[|p| + 1] == q'[|p| + 1];
      if i != j {
        Decimal.NatToStringInjective(i, j);
      }
    }
  }

  // ----- splitting -----

  /** `Math.ceil(n / CHUNK_SIZE)`. */
  function ChunkCount(n: nat): (c: nat)
    ensures c * CHUNK_SIZE >= n
    ensures n > 0 ==> c > 0 && (c - 1) * CHUNK_SIZE < n
    ensures n == 0 ==> c == 0
  {
    (n + CHUNK_SIZE - 1) / CHUNK_SIZE
  }

  function Min(a: nat, b: nat): nat {
    if a <= b then a else b
  }

  /** `content.substring(i * CHUNK_SIZE, i * CHUNK_SIZE + CHUNK_SIZE)`, clamped to the string. */
  function Piece(s: string, i: nat): (r: string)
    ensures |r| == Min(i * CHUNK_SIZE + CHUNK_SIZE, |s|) - Min(i * CHUNK_SIZE, |s|)
  {
    s[Min(i * CHUNK_SIZE, |s|)..Min(i * CHUNK_SIZE + CHUNK_SIZE, |s|)]
  }

  function Pieces(s: string, n: nat): (r: seq<string>)
    ensures |r| == n && forall i :: 0 <= i < n ==> r[i] == Piece(s, i)
  {
    if n == 0 then [] else Pieces(s, n - 1) + [Piece(s, n - 1)]
  }

  /** `join('')`. */
  function Concat(ss: seq<string>): string {
    if |ss| == 0 then "" else Concat(ss[..|ss| - 1]) + ss[|ss| - 1]
  }

  lemma {:induction false} ConcatPieces(s: string, n: nat)
    ensures Concat(Pieces(s, n)) == s[..Min(n * CHUNK_SIZE, |s|)]
  {
    if n > 0 {
      var ps, last := Pieces(s, n - 1), Piece(s, n - 1);
      var prefix := s[..Min((n - 1) * CHUNK_SIZE, |s|)];
      assert Concat(ps) == prefix by {
        ConcatPieces(s, n - 1);
      }
      assert prefix + last == s[..Min(n * CHUNK_SIZE, |s|)] by {
        PieceExtends(s, n - 1);
      }
      assert (ps + [last])[..n - 1] == ps;
    }
  }

  /** Piece `i` continues the string where the pieces before it stop. */
  lemma PieceExtends(s: string, i: nat)
    ensures s[..Min(i * CHUNK_SIZE, |s|)] + Piece(s, i) == s[..Min((i + 1) * CHUNK_SIZE, |s|)]
  {
    var a, b := Min(i * CHUNK_SIZE, |s|), Min(i * CHUNK_SIZE + CHUNK_SIZE, |s|);
    assert (i + 1) * CHUNK_SIZE == i * CHUNK_SIZE + CHUNK_SIZE;
    assert s[..a] + s[a..b] == s[..b];
  }

  /**
   * The split of a large serialisation: `ceil(len / CHUNK_SIZE)` pieces,
   * every piece but the last exactly `CHUNK_SIZE` long, the last non-empty
   * and at most that long, and the pieces in index order spell the string.
   */
  lemma SplitFacts(s: string)
    requires |s| > CHUNK_SIZE
    ensures var n := ChunkCount(|s|);
      && n >= 2
      && (forall i :: 0 <= i < n - 1 ==> |Piece(s, i)| == CHUNK_SIZE)
      && 0 < |Piece(s, n - 1)| <= CHUNK_SIZE
      && Concat(Pieces(s, n)) == s
  {
    var n := ChunkCount(|s|);
    forall i | 0 <= i < n - 1
      ensures |Piece(s, i)| == CHUNK_SIZE
    {
      assert i * CHUNK_SIZE + CHUNK_SIZE <= (n - 1) * CHUNK_SIZE;
    }
    assert (n - 1) * CHUNK_SIZE + CHUNK_SIZE == n * CHUNK_SIZE;
    ConcatPieces(s, n);
  }

  // ----- writing -----

  datatype Write = Write(path: Path, doc: Doc)

  /** The writes applied in order, each `setDoc` replacing the whole document. */
  function Apply(store: Store, ws: seq<Write>): Store
    decreases |ws|
  {
    if |ws| == 0 then store
    else
      var last := ws[|ws| - 1];
      Apply(store, ws[..|ws| - 1])[last.path := last.doc]
  }

  lemma {:induction false} ApplyWritten(store: Store, ws: seq<Write>, i: nat)
    requires i < |ws|
    requires forall j :: i < j < |ws| ==> ws[j].path != ws[i].path
    ensures ws[i].path in Apply(store, ws) && Apply(store, ws)[ws[i].path] == ws[i].doc
    decreases |ws|
  {
    if i < |ws| - 1 {
      ApplyWritten(store, ws[..|ws| - 1], i);
    }
  }

  lemma {:induction false} ApplyUntouched(store: Store, ws: seq<Write>, q: Path)
    requires forall j :: 0 <= j < |ws| ==> ws[j].path != q
    ensures (q in Apply(store, ws) <==> q in store) && (q in store ==> Apply(store, ws)[q] == store[q])
    decreases |ws|
  {
    if |ws| > 0 {
      ApplyUntouched(store, ws[..|ws| - 1], q);
    }
  }

  /** `typeof data === 'string' ? data : JSON.stringify(data)`. */
  function Content(data: Json, codec: Codec): string {
    if data.JStr? then data.s else codec.encode(data)
  }

  /** The metadata document: inline data when small, a chunk count when not. */
  function MetaDoc(data: Json, content: string, timestamp: string): (m: Doc)
    ensures "isChunked" in m && "data" in m && "timestamp" in m
    ensures m["isChunked"] == JBool(|content| > CHUNK_SIZE)
    ensures m["data"] == if |content| > CHUNK_SIZE then JNull else data
    ensures "chunkCount" in m <==> |content| > CHUNK_SIZE
    ensures "chunkCount" in m ==> m["chunkCount"] == JNum(ChunkCount(|content|))
  {
    var isLarge := |content| > CHUNK_SIZE;
    var base := map["isChunked" := JBool(isLarge), "timestamp" := JStr(timestamp), "data" := if isLarge then JNull else data];
    if isLarge then base["chunkCount" := JNum(ChunkCount(|content|))] else base
  }

  function ChunkDoc(piece: string): Doc {
    map["data" := JStr(piece)]
  }

  /**
   * The writes of `save`: one document per piece under `chunks` when the
   * serialisation exceeds `CHUNK_SIZE` (a serialisation of exactly that
   * length stays inline), then the metadata document.
   */
  function Save(p: Path, data: Json, timestamp: string, codec: Codec): (ws: seq<Write>)
    ensures var content := Content(data, codec);
      var n := if |content| > CHUNK_SIZE then ChunkCount(|content|) else 0;
      && |ws| == n + 1
      && ws[n] == Write(p, MetaDoc(data, content, timestamp))
      && forall i :: 0 <= i < n ==> ws[i] == Write(ChunkPath(p, i), ChunkDoc(Piece(content, i)))
  {
    var content := Content(data, codec);
    var n := if |content| > CHUNK_SIZE then ChunkCount(|content|) else 0;
    seq(n, i requires 0 <= i < n => Write(ChunkPath(p, i), ChunkDoc(Piece(content, i))))
      + [Write(p, MetaDoc(data, content, timestamp))]
  }

  // ----- reading -----

  /** `load` throws when a piece it reads is missing, since `s.data()` is then undefined. */
  datatype LoadError = MissingChunk(index: nat)

  /** `Array.prototype.join` renders an undefined or null element as nothing. */
  function ChunkText(doc: Doc): string {
    if "data" !in doc || doc["data"].JNull? then "" else ToText(doc["data"])
  }

  /** The pieces `0 .. n-1` of the document at `p`, or the first missing one. */
  function ReadChunks(store: Store, p: Path, n: nat): (r: Result<seq<string>, LoadError>)
    ensures r.Ok? ==> |r.value| == n
    ensures r.Ok? <==> forall i :: 0 <= i < n ==> ChunkPath(p, i) in store
    ensures r.Ok? ==> forall i :: 0 <= i < n ==> r.value[i] == ChunkText(store[ChunkPath(p, i)])
    ensures r.Err? ==>
      r.error.index < n && ChunkPath(p, r.error.index) !in store
      && forall i :: 0 <= i < r.error.index ==> ChunkPath(p, i) in store
  {
    if n == 0 then Ok([])
    else
      var prev :- ReadChunks(store, p, n - 1);
      if ChunkPath(p, n - 1) !in store then Err(MissingChunk(n - 1))
      else Ok(prev + [ChunkText(store[ChunkPath(p, n - 1)])])
  }

  /** `i < meta.chunkCount` for a numeric count; any other value reads no piece. */
  function CountOf(v: Option<Json>): nat {
    if v.Some? && v.value.JNum? && v.value.n > 0 then v.value.n else 0
  }

  /** `meta.data`, with undefined read as null. */
  function InlineData(meta: Doc): Json {
    if "data" in meta then meta["data"] else JNull
  }

  /**
   * `load`: null for a missing document, the inline data of a document that
   * is not chunked, and otherwise the pieces joined and parsed, or the joined
   * string itself when it does not parse.
   */
  function Load(store: Store, p: Path, codec: Codec): (r: Result<Json, LoadError>)
    ensures p !in store ==> r == Ok(JNull)
    ensures p in store && !Present(Member(Some(JObj(store[p])), "isChunked")) ==> r == Ok(InlineData(store[p]))
    ensures r.Err? ==> p in store && r.error.index < CountOf(Member(Some(JObj(store[p])), "chunkCount"))
  {
    if p !in store then Ok(JNull)
    else
      var meta := store[p];
      if !Present(Member(Some(JObj(meta)), "isChunked")) then Ok(InlineData(meta))
      else
        var pieces :- ReadChunks(store, p, CountOf(Member(Some(JObj(meta)), "chunkCount")));
        var full := Concat(pieces);
        Ok(codec.decode(full).GetOr(JStr(full)))
  }

  /** What `load` gives back after a save whose writes all landed, from any earlier store. */
  function Reloaded(data: Json, codec: Codec): Json {
    var content := Content(data, codec);
    if |content| <= CHUNK_SIZE then data else codec.decode(content).GetOr(JStr(content))
  }

  lemma SavedChunksReadBack(store: Store, p: Path, data: Json, timestamp: string, codec: Codec)
    requires |Content(data, codec)| > CHUNK_SIZE
    ensures var content := Content(data, codec);
      ReadChunks(Apply(store, Save(p, data, timestamp, codec)), p, ChunkCount(|content|))
        == Ok(Pieces(content, ChunkCount(|content|)))
  {
    var content := Content(data, codec);
    var n := ChunkCount(|content|);
    var after := Apply(store, Save(p, data, timestamp, codec));
    forall i | 0 <= i < n
      ensures ChunkPath(p, i) in after && after[ChunkPath(p, i)] == ChunkDoc(Piece(content, i))
    {
      ChunkLanded(store, p, data, timestamp, codec, i);
    }
    var r := ReadChunks(after, p, n);
    assert r.value == Pieces(content, n);
  }

  /** Chunk `i` of a save is not overwritten by any later write of the same save. */
  lemma ChunkLanded(store: Store, p: Path, data: Json, timestamp: string, codec: Codec, i: nat)
    requires |Content(data, codec)| > CHUNK_SIZE && i < ChunkCount(|Content(data, codec)|)
    ensures var after := Apply(store, Save(p, data, timestamp, codec));
      ChunkPath(p, i) in after && after[ChunkPath(p, i)] == ChunkDoc(Piece(Content(data, codec), i))
  {
    var n := ChunkCount(|Content(data, codec)|);
    var ws := Save(p, data, timestamp, codec);
    forall j | i < j < |ws|
      ensures ws[j].path != ws[i].path
    {
      if j < n {
        ChunkPathsDistinct(p, j, p, i);
      } else {
        ChunkPathsDistinct(p, i, p, i);
      }
    }
    ApplyWritten(store, ws, i);
  }

  /**
   * The round trip, from any earlier store (stale pieces of a larger earlier
   * value are never read): a small payload comes back as it was given; a
   * large one comes back parsed, or as its serialisation when that does not
   * parse.
   */
  lemma LoadAfterSave(store: Store, p: Path, data: Json, timestamp: string, codec: Codec)
    ensures Load(Apply(store, Save(p, data, timestamp, codec)), p, codec) == Ok(Reloaded(data, codec))
  {
    var content := Content(data, codec);
    var ws := Save(p, data, timestamp, codec);
    assert p in Apply(store, ws) && Apply(store, ws)[p] == MetaDoc(data, content, timestamp) by {
      ApplyWritten(store, ws, |ws| - 1);
    }
    if |content| > CHUNK_SIZE {
      LargeLoadAfterSave(store, p, data, timestamp, codec);
    }
  }

  lemma LargeLoadAfterSave(store: Store, p: Path, data: Json, timestamp: string, codec: Codec)
    requires |Content(data, codec)| > CHUNK_SIZE
    requires var ws := Save(p, data, timestamp, codec);
      p in Apply(store, ws) && Apply(store, ws)[p] == MetaDoc(data, Content(data, codec), timestamp)
    ensures Load(Apply(store, Save(p, data, timestamp, codec)), p, codec) == Ok(Reloaded(data, codec))
  {
    var content := Content(data, codec);
    var after := Apply(store, Save(p, data, timestamp, codec));
    var n := ChunkCount(|content|);
    assert ReadChunks(after, p, n) == Ok(Pieces(content, n)) by {
      SavedChunksReadBack(store, p, data, timestamp, codec);
    }
    assert Concat(Pieces(content, n)) == content by {
      SplitFacts(content);
    }
    LoadChunked(after, p, codec, n, Pieces(content, n));
  }

  /** `load` on a chunked document whose pieces are all present: the pieces joined and parsed. */
  lemma LoadChunked(store: Store, p: Path, codec: Codec, n: nat, pieces: seq<string>)
    requires p in store && "isChunked" in store[p] && "chunkCount" in store[p]
    requires store[p]["isChunked"] == JBool(true) && store[p]["chunkCount"] == JNum(n)
    requires ReadChunks(store, p, n) == Ok(pieces)
    ensures Load(store, p, codec) == Ok(codec.decode(Concat(pieces)).GetOr(JStr(Concat(pieces))))
  {
  }

  /** With a lawful codec every payload round-trips except a large string that happens to parse. */
  lemma LawfulRoundTrip(store: Store, p: Path, data: Json, timestamp: string, codec: Codec)
    requires Lawful(codec)
    requires data.JStr? && |data.s| > CHUNK_SIZE ==> codec.decode(data.s).None?
    ensures Load(Apply(store, Save(p, data, timestamp, codec)), p, codec) == Ok(data)
  {
    LoadAfterSave(store, p, data, timestamp, codec);
    assert codec.decode(codec.encode(data)) == Some(data);
  }

  /**
   * A save whose metadata write did not land leaves the metadata document as
   * it was; the pieces that did land replace the old pieces at their indices,
   * so a reader of an older chunked value can see a mix of old and new pieces.
   */
  lemma InterruptedSave(store: Store, p: Path, data: Json, timestamp: string, codec: Codec, k: nat, i: nat)
    requires k < |Save(p, data, timestamp, codec)|
    ensures var after := Apply(store, Save(p, data, timestamp, codec)[..k]);
      && (p in after <==> p in store) && (p in store ==> after[p] == store[p])
      && (i < k ==> ChunkPath(p, i) in after
                     && after[ChunkPath(p, i)] == ChunkDoc(Piece(Content(data, codec), i)))
      && (i >= k ==> (ChunkPath(p, i) in after <==> ChunkPath(p, i) in store)
                     && (ChunkPath(p, i) in store ==> after[ChunkPath(p, i)] == store[ChunkPath(p, i)]))
  {
    var ws := Save(p, data, timestamp, codec);
    var landed := ws[..k];
    forall j | 0 <= j < k
      ensures landed[j].path != p
    {
      ChunkPathsDistinct(p, j, p, j);
    }
    ApplyUntouched(store, landed, p);
    if i < k {
      forall j | i < j < k
        ensures landed[j].path != landed[i].path
      {
        ChunkPathsDistinct(p, j, p, i);
      }
      ApplyWritten(store, landed, i);
    } else {
      forall j | 0 <= j < k
        ensures landed[j].path != ChunkPath(p, i)
      {
        ChunkPathsDistinct(p, j, p, i);
      }
      ApplyUntouched(store, landed, ChunkPath(p, i));
    }
  }

  // ----- subscribing -----

  /**
   * What the `onSnapshot` callback receives for the document at `p`: null
   * when it is missing, the inline data when it is not chunked, and for a
   * chunked document only a notice carrying its timestamp.
   */
  function Notification(store: Store, p: Path): (r: Json)
    ensures p in store && Present(Member(Some(JObj(store[p])), "isChunked")) ==>
      r == JObj(map["_isChunked" := JBool(true), "timestamp" := GetOrNull(Member(Some(JObj(store[p])), "timestamp"))])
  {
    if p !in store then JNull
    else
      var meta := store[p];
      if !Present(Member(Some(JObj(meta)), "isChunked")) then InlineData(meta)
      else JObj(map["_isChunked" := JBool(true), "timestamp" := GetOrNull(Member(Some(JObj(meta)), "timestamp"))])
  }

  function GetOrNull(v: Option<Json>): Json {
    v.GetOr(JNull)
  }

  /** A subscriber sees what `load` returns exactly when the document is not chunked. */
  lemma NotificationAgreesWithLoad(store: Store, p: Path, codec: Codec)
    ensures !(p in store && Present(Member(Some(JObj(store[p])), "isChunked"))) ==>
      Load(store, p, codec) == Ok(Notification(store, p))
    ensures p in store && Present(Member(Some(JObj(store[p])), "isChunked")) ==>
      Notification(store, p).JObj? && "_isChunked" in Notification(store, p).fields
  {
  }
}

=== FILE: decimal.dfy ===
/**
 * Decimal rendering of integers, as JavaScript's `Number.prototype.toString()`
 * produces it for integral values (no exponent form: the model's integers are
 * unbounded). Chunk documents are addressed by `index.toString()`, so the
 * round trip below is what keeps distinct chunk indices on distinct paths.
 */
module Decimal {

  predicate IsDigit(c: char) {
    '0' <= c <= '9'
  }

  function DigitChar(d: nat): (c: char)
    requires d < 10
    ensures IsDigit(c)
  {
    ['0', '1', '2', '3', '4', '5', '6', '7', '8', '9'][d]
  }

  function DigitValue(c: char): (d: nat)
    requires IsDigit(c)
    ensures d < 10
  {
    c as int - '0' as int
  }

  lemma DigitRoundTrip(d: nat)
    requires d < 10
    ensures DigitValue(DigitChar(d)) == d
  {
  }

  /** Shortest decimal rendering of `n`, most significant digit first. */
  function NatToString(n: nat): (s: string)
    ensures |s| >= 1
    ensures forall i :: 0 <= i < |s| ==> IsDigit(s[i])
    ensures n < 10 <==> |s| == 1
  {
    if n < 10 then [DigitChar(n)] else NatToString(n / 10) + [DigitChar(n % 10)]
  }

  /** Reads a string of decimal digits back to its value. */
  function ParseDecimal(s: string): nat
    requires forall i :: 0 <= i < |s| ==> IsDigit(s[i])
  {
    if |s| == 0 then 0 else 10 * ParseDecimal(s[..|s| - 1]) + DigitValue(s[|s| - 1])
  }

  /** Parsing undoes rendering. */
  lemma {:induction false} ParseOfNatToString(n: nat)
    ensures ParseDecimal(NatToString(n)) == n
  {
    if n < 10 {
      DigitRoundTrip(n);
    } else {
      var s := NatToString(n);
      assert s[..|s| - 1] == NatToString(n / 10);
      ParseOfNatToString(n / 10);
      DigitRoundTrip(n % 10);
    }
  }

  /** Distinct numbers have distinct renderings. */
  lemma NatToStringInjective(a: nat, b: nat)
    requires a != b
    ensures NatToString(a) != NatToString(b)
  {
    ParseOfNatToString(a);
    ParseOfNatToString(b);
  }

  /** Rendering of a possibly negative integer: a leading `-` and the magnitude. */
  function IntToString(n: int): string {
    if n >= 0 then NatToString(n) else "-" + NatToString(-n)
  }
}

=== FILE: gemini.dfy ===
/**
 * The request bodies and response-envelope checks of `GeminiAPI` in
 * canvas-library.js: `generateText`, `generateImage`, `editImage` and
 * `generateSpeech`. Each takes what `_call` returned (a parsed body or the
 * error it threw) and either extracts the payload or throws.
 */
module Gemini {
  import opened Wrappers
  import opened Json
  import Retry

  /** What a wrapper throws. */
  datatype GenError =
    | CallFailed(cause: Retry.CallError)   // rethrown from `_call`
    | TypeError                            // a property read on `null`, or `find` on a non-array
    | NoTextGenerated
    | NoImageGenerated
    | ImageEditFailed
    | TtsGenerationFailed
    | InvalidJsonText                      // `JSON.parse(text)` threw in JSON mode

  /** `{ key: value }`. */
  function Obj1(key: string, value: Json): Json {
    JObj(map[key := value])
  }

  /** `[{ parts: ps }]`, the `contents` shape of every request and response. */
  function Contents(ps: seq<Json>): Json {
    JArr([Obj1("parts", JArr(ps))])
  }

  /** `result.<field>`: reading a property of `null` throws. */
  function Field(result: Json, name: string): Result<Option<Json>, GenError> {
    if result.JNull? then Err(TypeError) else Ok(Member(Some(result), name))
  }

  /** `candidates?.[0]?.content?.parts`. */
  function Parts(result: Json): Result<Option<Json>, GenError> {
    var candidates :- Field(result, "candidates");
    Ok(Member(Member(Index(candidates, 0), "content"), "parts"))
  }

  // ----- generateText -----

  datatype TextOptions = TextOptions(systemPrompt: Option<Json>, jsonMode: bool, googleSearch: bool)

  /**
   * The `generateContent` body: the prompt as the only part, a system
   * instruction when the option is truthy, the JSON response type in JSON
   * mode and the search tool when asked for.
   */
  function TextPayload(prompt: string, options: TextOptions): (p: Json)
    ensures p.JObj? && "contents" in p.fields && "generationConfig" in p.fields
    ensures Member(Index(Member(Index(Member(Some(p), "contents"), 0), "parts"), 0), "text") == Some(JStr(prompt))
    ensures "systemInstruction" in p.fields <==> Present(options.systemPrompt)
    ensures "tools" in p.fields <==> options.googleSearch
    ensures Member(Member(Some(p), "generationConfig"), "responseMimeType").Some? <==> options.jsonMode
  {
    var config := if options.jsonMode then Obj1("responseMimeType", JStr("application/json")) else JObj(map[]);
    var base := map["contents" := Contents([Obj1("text", JStr(prompt))]), "generationConfig" := config];
    var withSystem :=
      if Present(options.systemPrompt) then base["systemInstruction" := Obj1("parts", JArr([Obj1("text", options.systemPrompt.value)]))]
      else base;
    var withTools := if options.googleSearch then withSystem["tools" := JArr([Obj1("google_search", JObj(map[]))])] else withSystem;
    JObj(withTools)
  }

  /**
   * The envelope check of `generateText`: the first part's `text` of the
   * first candidate, which must be truthy; in JSON mode it is parsed.
   */
  function GenerateText(called: Result<Json, Retry.CallError>, jsonMode: bool, codec: Codec): (r: Result<Json, GenError>)
    ensures called.Err? ==> r == Err(CallFailed(called.error))
    ensures called.Ok? && called.value.JNull? ==> r == Err(TypeError)
    ensures r.Ok? && !jsonMode ==>
      Truthy(r.value) && Some(r.value) == Member(Index(Parts(called.value).value, 0), "text")
    ensures r.Ok? && jsonMode ==>
      var text := Member(Index(Parts(called.value).value, 0), "text");
      Present(text) && Some(r.value) == codec.decode(ToText(text.value))
    ensures called.Ok? && Parts(called.value).Ok? && !Present(Member(Index(Parts(called.value).value, 0), "text"))
      ==> r == Err(NoTextGenerated)
    ensures called.Ok? && Parts(called.value).Ok? ==>
      var text := Member(Index(Parts(called.value).value, 0), "text");
      Present(text) ==>
        && (!jsonMode ==> r == Ok(text.value))
        && (jsonMode && codec.decode(ToText(text.value)).Some? ==> r == Ok(codec.decode(ToText(text.value)).value))
        && (jsonMode && codec.decode(ToText(text.value)).None? ==> r == Err(InvalidJsonText))
  {
    var result :- MapCallError(called);
    var parts :- Parts(result);
    var text := Member(Index(parts, 0), "text");
    if !Present(text) then Err(NoTextGenerated)
    else if !jsonMode then Ok(text.value)
    else
      match codec.decode(ToText(text.value))
      case None => Err(InvalidJsonText)
      case Some(v) => Ok(v)
  }

  function MapCallError(called: Result<Json, Retry.CallError>): (r: Result<Json, GenError>)
    ensures called.Ok? <==> r.Ok?
    ensures r.Ok? ==> r.value == called.value
    ensures r.Err? ==> r.error == CallFailed(called.error)
  {
    match called
    case Ok(v) => Ok(v)
    case Err(e) => Err(CallFailed(e))
  }

  /** A `generateContent` response with one candidate whose content has the given parts. */
  function CandidateReply(parts: seq<Json>): Json {
    Obj1("candidates", JArr([Obj1("content", Obj1("parts", JArr(parts)))]))
  }

  /** The response the API gives for a text reply. */
  function TextResponse(text: Json): Json {
    CandidateReply([Obj1("text", text)])
  }

  /**
   * A text reply comes back as it was sent, a non-empty string in text mode
   * and, in JSON mode with a lawful codec, the value whose encoding was sent.
   */
  lemma TextRoundTrip(t: string, v: Json, codec: Codec)
    requires Lawful(codec)
    ensures GenerateText(Ok(TextResponse(JStr(t))), false, codec) ==
      if t == "" then Err(NoTextGenerated) else Ok(JStr(t))
    ensures codec.encode(v) != "" ==> GenerateText(Ok(TextResponse(JStr(codec.encode(v)))), true, codec) == Ok(v)
  {
    assert codec.decode(codec.encode(v)) == Some(v);
  }

  /** An empty candidate list, or a null body, is not a reply. */
  lemma NoCandidates(codec: Codec, jsonMode: bool)
    ensures GenerateText(Ok(Obj1("candidates", JArr([]))), jsonMode, codec) == Err(NoTextGenerated)
    ensures GenerateText(Ok(JNull), jsonMode, codec) == Err(TypeError)
  {
  }

  // ----- generateImage -----

  /** `{ instances: [{ prompt }], parameters: { sampleCount: 1 } }`. */
  function ImagePayload(prompt: string): (p: Json)
    ensures Member(Index(Member(Some(p), "instances"), 0), "prompt") == Some(JStr(prompt))
    ensures Member(Member(Some(p), "parameters"), "sampleCount") == Some(JNum(1))
  {
    JObj(map["instances" := JArr([Obj1("prompt", JStr(prompt))]), "parameters" := Obj1("sampleCount", JNum(1))])
  }

  /** The envelope check of `generateImage`: the first prediction's `bytesBase64Encoded`, which must be truthy. */
  function GenerateImage(called: Result<Json, Retry.CallError>): (r: Result<Json, GenError>)
    ensures called.Err? ==> r == Err(CallFailed(called.error))
    ensures called.Ok? && called.value.JNull? ==> r == Err(TypeError)
    ensures r.Ok? ==>
      Truthy(r.value) && Some(r.value) == Member(Index(Member(Some(called.value), "predictions"), 0), "bytesBase64Encoded")
    ensures called.Ok? && !called.value.JNull?
      && !Present(Member(Index(Member(Some(called.value), "predictions"), 0), "bytesBase64Encoded"))
      ==> r == Err(NoImageGenerated)
    ensures called.Ok? && !called.value.JNull? ==>
      var base64 := Member(Index(Member(Some(called.value), "predictions"), 0), "bytesBase64Encoded");
      Present(base64) ==> r == Ok(base64.value)
  {
    var result :- MapCallError(called);
    var predictions :- Field(result, "predictions");
    var base64 := Member(Index(predictions, 0), "bytesBase64Encoded");
    if !Present(base64) then Err(NoImageGenerated) else Ok(base64.value)
  }

  lemma ImageRoundTrip(b: string)
    ensures GenerateImage(Ok(Obj1("predictions", JArr([Obj1("bytesBase64Encoded", JStr(b))]))))
      == if b == "" then Err(NoImageGenerated) else Ok(JStr(b))
  {
  }

  // ----- editImage -----

  const PNG_PREFIX: string := "data:image/png;base64,"
  const JPEG_PREFIX: string := "data:image/jpeg;base64,"
  const JPG_PREFIX: string := "data:image/jpg;base64,"

  predicate HasPrefix(s: string, p: string) {
    |p| <= |s| && s[..|p|] == p
  }

  /** The three prefixes part at their twelfth character, so a string has at most one of them. */
  lemma PrefixesExclusive(s: string)
    ensures !(HasPrefix(s, PNG_PREFIX) && HasPrefix(s, JPEG_PREFIX))
    ensures !(HasPrefix(s, PNG_PREFIX) && HasPrefix(s, JPG_PREFIX))
    ensures !(HasPrefix(s, JPEG_PREFIX) && HasPrefix(s, JPG_PREFIX))
  {
    if HasPrefix(s, PNG_PREFIX) {
      assert s[11] == s[..|PNG_PREFIX|][11] == 'p';
    }
    if HasPrefix(s, JPEG_PREFIX) {
      assert s[13] == s[..|JPEG_PREFIX|][13] == 'e';
    }
    if HasPrefix(s, JPG_PREFIX) {
      assert s[11] == s[..|JPG_PREFIX|][11] == 'j';
      assert s[13] == s[..|JPG_PREFIX|][13] == 'g';
    }
  }

  /**
   * `replace(/^data:image\/(png|jpeg|jpg);base64,/, '')`: one data-URL
   * prefix removed from the start, or the string unchanged when it has none.
   */
  function StripDataPrefix(s: string): (r: string)
    ensures HasPrefix(s, PNG_PREFIX) ==> r == s[|PNG_PREFIX|..]
    ensures HasPrefix(s, JPEG_PREFIX) ==> r == s[|JPEG_PREFIX|..]
    ensures HasPrefix(s, JPG_PREFIX) ==> r == s[|JPG_PREFIX|..]
    ensures !HasPrefix(s, PNG_PREFIX) && !HasPrefix(s, JPEG_PREFIX) && !HasPrefix(s, JPG_PREFIX) ==> r == s
  {
    PrefixesExclusive(s);
    if HasPrefix(s, PNG_PREFIX) then s[|PNG_PREFIX|..]
    else if HasPrefix(s, JPEG_PREFIX) then s[|JPEG_PREFIX|..]
    else if HasPrefix(s, JPG_PREFIX) then s[|JPG_PREFIX|..]
    else s
  }

  /** Stripping undoes the prefixing of a data URL, whatever the payload; the match is anchored, so it strips once. */
  lemma StripUndoesPrefix(b: string)
    ensures StripDataPrefix(PNG_PREFIX + b) == b
    ensures StripDataPrefix(JPEG_PREFIX + b) == b
    ensures StripDataPrefix(JPG_PREFIX + b) == b
    ensures StripDataPrefix(PNG_PREFIX + PNG_PREFIX + b) == PNG_PREFIX + b
  {
    assert (PNG_PREFIX + b)[..|PNG_PREFIX|] == PNG_PREFIX;
    assert (JPEG_PREFIX + b)[..|JPEG_PREFIX|] == JPEG_PREFIX;
    assert (JPG_PREFIX + b)[..|JPG_PREFIX|] == JPG_PREFIX;
    assert (PNG_PREFIX + PNG_PREFIX + b)[..|PNG_PREFIX|] == PNG_PREFIX;
    assert (PNG_PREFIX + PNG_PREFIX + b)[|PNG_PREFIX|..] == PNG_PREFIX + b;
  }

  /** The edit request: the instructions, then the cleaned image as a PNG inline part. */
  function EditPayload(prompt: string, base64Image: string): (p: Json)
    ensures var parts := Member(Index(Member(Some(p), "contents"), 0), "parts");
      && Member(Index(parts, 0), "text") == Some(JStr(prompt))
      && Member(Member(Index(parts, 1), "inlineData"), "data") == Some(JStr(StripDataPrefix(base64Image)))
      && Member(Member(Index(parts, 1), "inlineData"), "mimeType") == Some(JStr("image/png"))
  {
    var inline := JObj(map["mimeType" := JStr("image/png"), "data" := JStr(StripDataPrefix(base64Image))]);
    JObj(map[
      "contents" := Contents([Obj1("text", JStr(prompt)), Obj1("inlineData", inline)]),
      "generationConfig" := Obj1("responseModalities", JArr([JStr("IMAGE")]))])
  }

  /** `p => p.inlineData` over the parts in order: a `null` part throws before a later match is seen. */
  function FindInline(parts: seq<Json>): (r: Result<Option<Json>, GenError>)
    ensures r.Ok? && r.value.Some? ==> r.value.value in parts && Present(Member(r.value, "inlineData"))
    ensures r.Ok? && r.value.Some? ==>
      exists i :: (0 <= i < |parts| && parts[i] == r.value.value
        && forall j :: 0 <= j < i ==> !parts[j].JNull? && !Present(Member(Some(parts[j]), "inlineData")))
    ensures r.Ok? && r.value.None? ==> forall i :: 0 <= i < |parts| ==>
      !parts[i].JNull? && !Present(Member(Some(parts[i]), "inlineData"))
    ensures r.Err? ==> r.error == TypeError && exists i :: 0 <= i < |parts| && parts[i].JNull?
  {
    if |parts| == 0 then Ok(None)
    else if parts[0].JNull? then Err(TypeError)
    else if Present(Member(Some(parts[0]), "inlineData")) then Ok(Some(parts[0]))
    else
      var rest := FindInline(parts[1..]);
      if rest.Ok? && rest.value.Some? then
        var i :| 0 <= i < |parts[1..]| && parts[1..][i] == rest.value.value
          && forall j :: 0 <= j < i ==> !parts[1..][j].JNull? && !Present(Member(Some(parts[1..][j]), "inlineData"));
        assert parts[i + 1] == rest.value.value;
        rest
      else if rest.Err? then
        assert exists i :: 0 <= i < |parts[1..]| && parts[1..][i].JNull?;
        var i :| 0 <= i < |parts[1..]| && parts[1..][i].JNull?;
        assert parts[i + 1].JNull?;
        rest
      else rest
  }

  /**
   * The envelope check of `editImage`: the `inlineData.data` of the first
   * part whose `inlineData` is truthy. `parts` must be an array when it is
   * present at all, since `find` is called on it.
   */
  function EditImage(called: Result<Json, Retry.CallError>): (r: Result<Json, GenError>)
    ensures called.Err? ==> r == Err(CallFailed(called.error))
    ensures called.Ok? && called.value.JNull? ==> r == Err(TypeError)
    ensures (called.Ok? && Parts(called.value).Ok? && Parts(called.value).value.Some?
      && !Parts(called.value).value.value.JNull? && !Parts(called.value).value.value.JArr?) ==> r == Err(TypeError)
    ensures r.Ok? ==> Truthy(r.value)
    ensures (called.Ok? && Parts(called.value).Ok?
             && (Parts(called.value).value.None? || Parts(called.value).value.value.JNull?))
      ==> r == Err(ImageEditFailed)
    ensures (called.Ok? && Parts(called.value).Ok? && Parts(called.value).value.Some?
             && Parts(called.value).value.value.JArr?)
      ==>
      var found := FindInline(Parts(called.value).value.value.items);
      && (found.Err? ==> r == Err(TypeError))
      && (found == Ok(None) ==> r == Err(ImageEditFailed))
      && (found.Ok? && found.value.Some? ==>
            var data := Member(Member(found.value, "inlineData"), "data");
            r == if Present(data) then Ok(data.value) else Err(ImageEditFailed))
  {
    var result :- MapCallError(called);
    var parts :- Parts(result);
    var found :-
      if parts.None? || parts.value.JNull? then Ok(None)
      else if parts.value.JArr? then FindInline(parts.value.items)
      else Err(TypeError);
    var data := Member(Member(found, "inlineData"), "data");
    if !Present(data) then Err(ImageEditFailed) else Ok(data.value)
  }

  /** A reply whose text part comes before the image part yields the image data. */
  lemma EditSkipsTextParts(caption: string, b: string)
    requires b != ""
    ensures EditImage(Ok(CandidateReply([
      Obj1("text", JStr(caption)),
      Obj1("inlineData", Obj1("data", JStr(b)))]))) == Ok(JStr(b))
  {
    var ps := [Obj1("text", JStr(caption)), Obj1("inlineData", Obj1("data", JStr(b)))];
    assert ps[1..] == [Obj1("inlineData", Obj1("data", JStr(b)))];
    assert FindInline(ps[1..]) == Ok(Some(ps[1]));
  }

  /** A `null` part ahead of the image part makes `find`'s callback throw. */
  lemma EditNullPartThrows(b: string)
    ensures EditImage(Ok(CandidateReply([JNull, Obj1("inlineData", Obj1("data", JStr(b)))]))) == Err(TypeError)
  {
  }

  // ----- generateSpeech -----

  /** A speaker of a multi-speaker configuration. */
  datatype Speaker = Speaker(name: string, voice: string)

  /** `config.speakers` (any array is truthy) and `config.voice`. */
  datatype SpeechConfig = SpeechConfig(speakers: Option<seq<Speaker>>, voice: Option<string>)

  const DEFAULT_VOICE: string := "Kore"

  /** `config.voice || "Kore"`. */
  function VoiceName(config: SpeechConfig): (v: string)
    ensures v != ""
    ensures config.voice.Some? && config.voice.value != "" ==> v == config.voice.value
  {
    if config.voice.Some? && config.voice.value != "" then config.voice.value else DEFAULT_VOICE
  }

  function PrebuiltVoice(name: string): Json {
    Obj1("prebuiltVoiceConfig", Obj1("voiceName", JStr(name)))
  }

  function SpeakerConfigs(speakers: seq<Speaker>): (r: seq<Json>)
    ensures |r| == |speakers|
    ensures forall i :: 0 <= i < |r| ==>
      r[i] == JObj(map["speaker" := JStr(speakers[i].name), "voiceConfig" := PrebuiltVoice(speakers[i].voice)])
  {
    if |speakers| == 0 then []
    else
      var first := JObj(map["speaker" := JStr(speakers[0].name), "voiceConfig" := PrebuiltVoice(speakers[0].voice)]);
      [first] + SpeakerConfigs(speakers[1..])
  }

  /**
   * The speech request: the text as the only part, audio output, and either
   * one voice per named speaker or a single prebuilt voice.
   */
  function SpeechPayload(text: string, config: SpeechConfig): (p: Json)
    ensures Member(Index(Member(Index(Member(Some(p), "contents"), 0), "parts"), 0), "text") == Some(JStr(text))
    ensures var speech := Member(Member(Some(p), "generationConfig"), "speechConfig");
      && (Member(speech, "multiSpeakerVoiceConfig").Some? <==> config.speakers.Some?)
      && (Member(speech, "voiceConfig").Some? <==> config.speakers.None?)
      && (config.speakers.None? ==>
            Member(Member(Member(speech, "voiceConfig"), "prebuiltVoiceConfig"), "voiceName") == Some(JStr(VoiceName(config))))
  {
    var speech :=
      if config.speakers.Some? then
        Obj1("multiSpeakerVoiceConfig", Obj1("speakerVoiceConfigs", JArr(SpeakerConfigs(config.speakers.value))))
      else
        Obj1("voiceConfig", PrebuiltVoice(VoiceName(config)));
    JObj(map[
      "contents" := Contents([Obj1("text", JStr(text))]),
      "generationConfig" := JObj(map["responseModalities" := JArr([JStr("AUDIO")]), "speechConfig" := speech])])
  }

  /** The envelope check of `generateSpeech`: the first part's `inlineData.data`, base64 PCM-16. */
  function GenerateSpeech(called: Result<Json, Retry.CallError>): (r: Result<Json, GenError>)
    ensures called.Err? ==> r == Err(CallFailed(called.error))
    ensures called.Ok? && called.value.JNull? ==> r == Err(TypeError)
    ensures r.Ok? ==>
      Truthy(r.value) && Some(r.value) == Member(Member(Index(Parts(called.value).value, 0), "inlineData"), "data")
    ensures called.Ok? && Parts(called.value).Ok?
      && !Present(Member(Member(Index(Parts(called.value).value, 0), "inlineData"), "data"))
      ==> r == Err(TtsGenerationFailed)
    ensures called.Ok? && Parts(called.value).Ok? ==>
      var audio := Member(Member(Index(Parts(called.value).value, 0), "inlineData"), "data");
      Present(audio) ==> r == Ok(audio.value)
  {
    var result :- MapCallError(called);
    var parts :- Parts(result);
    var audio := Member(Member(Index(parts, 0), "inlineData"), "data");
    if !Present(audio) then Err(TtsGenerationFailed) else Ok(audio.value)
  }

  lemma SpeechRoundTrip(pcm: string)
    ensures GenerateSpeech(Ok(CandidateReply([
      Obj1("inlineData", JObj(map["mimeType" := JStr("audio/L16;rate=24000"), "data" := JStr(pcm)]))])))
      == if pcm == "" then Err(TtsGenerationFailed) else Ok(JStr(pcm))
  {
  }
}

=== FILE: json.dfy ===
/**
 * The JavaScript values the core passes around: JSON-shaped data, the
 * truthiness tests the source applies to them (`if (cached)`, `if (!text)`),
 * optional chaining (`a?.b?.[0]`) and string conversion (template literals).
 * JSON.stringify / JSON.parse are not modelled internally; they are a `Codec`
 * handed to the operations that need them.
 */
module Json {
  import opened Wrappers
  import Decimal

  /** A JSON value. Numbers are integers; floating point is outside the model. */
  datatype Json =
    | JNull
    | JBool(b: bool)
    | JNum(n: int)
    | JStr(s: string)
    | JArr(items: seq<Json>)
    | JObj(fields: map<string, Json>)

  /** JavaScript truthiness: `null`, `false`, `0` and `""` are falsy. */
  predicate Truthy(j: Json) {
    match j
    case JNull => false
    case JBool(b) => b
    case JNum(n) => n != 0
    case JStr(s) => s != ""
    case JArr(_) => true
    case JObj(_) => true
  }

  /** Truthiness of a possibly-undefined value. */
  predicate Present(j: Option<Json>) {
    j.Some? && Truthy(j.value)
  }

  /** `x?.name`: undefined when `x` is undefined or null or lacks the property. */
  function Member(x: Option<Json>, name: string): Option<Json> {
    if x.Some? && x.value.JObj? && name in x.value.fields then Some(x.value.fields[name]) else None
  }

  /**
   * `x?.[i]`: an array's element, a string's character, or an object's
   * property named by the decimal digits of `i`; undefined otherwise.
   */
  function Index(x: Option<Json>, i: nat): (r: Option<Json>)
    ensures x.Some? && x.value.JArr? ==> r == if i < |x.value.items| then Some(x.value.items[i]) else None
    ensures x.None? || x.value.JNull? || x.value.JBool? || x.value.JNum? ==> r.None?
  {
    if x.None? then None
    else
      match x.value
      case JArr(items) => if i < |items| then Some(items[i]) else None
      case JStr(s) => if i < |s| then Some(JStr([s[i]])) else None
      case JObj(fields) => if Decimal.NatToString(i) in fields then Some(fields[Decimal.NatToString(i)]) else None
      case _ => None
  }

  /** `String(j)`, as a template literal renders a value. */
  function ToText(j: Json): string
    decreases j, 1
  {
    match j
    case JNull => "null"
    case JBool(b) => if b then "true" else "false"
    case JNum(n) => Decimal.IntToString(n)
    case JStr(s) => s
    case JArr(items) => JoinElements(j, items)
    case JObj(_) => "[object Object]"
  }

  /** `Array.prototype.join(',')`: null elements render as the empty string. */
  function JoinElements(ghost parent: Json, items: seq<Json>): string
    requires forall i :: 0 <= i < |items| ==> items[i] < parent
    decreases parent, 0, |items|
  {
    if |items| == 0 then ""
    else
      var head := if items[0].JNull? then "" else ToText(items[0]);
      if |items| == 1 then head else head + "," + JoinElements(parent, items[1..])
  }

  /** JSON.stringify and JSON.parse; `decode` returns None where JSON.parse throws. */
  datatype Codec = Codec(encode: Json -> string, decode: string -> Option<Json>)

  /** Parsing what was stringified gives the value back. */
  ghost predicate Lawful(c: Codec) {
    forall v :: c.decode(c.encode(v)) == Some(v)
  }
}

=== FILE: learning.dfy ===
/**
 * The progress engine of the module-based learning app
 * (self_extending_learning.js): per-item progress updates, item deletion,
 * the dashboard's statistics and suggestions, the progress screen's sort and
 * module-descriptor validation. Mistake scheduling lives in `Schedule`.
 */
module Learning {
  import opened Wrappers
  import opened Mastery
  import opened Schedule
  import Seqs
  import Merge
  import Json

  /** A learning item: its document id and the module it belongs to. */
  datatype Item = Item(id: string, moduleKey: string)

  /** One entry of the aggregate progress document. */
  datatype ItemProgress = ItemProgress(
    masteryLevel: Level,
    attempts: int,
    successes: int,
    confidence: int,
    lastPracticed: Option<Time>)

  /** The entry used for an item that has none yet. */
  const DEFAULT_PROGRESS: ItemProgress := ItemProgress(New, 0, 0, 0, None)

  type ProgressMap = map<string, ItemProgress>

  /** `userProgress[id] || default`. */
  function Current(progress: ProgressMap, id: string): ItemProgress {
    if id in progress then progress[id] else DEFAULT_PROGRESS
  }

  /** A write the progress engine issues, in order. */
  datatype Effect = AddMistake(mistake: Mistake) | MergeProgress(update: ProgressMap)

  datatype ProgressUpdate = ProgressUpdate(local: ProgressMap, effects: seq<Effect>)

  /**
   * `updateItemProgress`: the item's entry gets one more attempt, one more
   * success iff correct, the next mastery level and `now` as practice time;
   * every other entry and the entry's other fields are kept. A failure first
   * adds one mistake (classified by `tagging`, stored under `freshId`); then
   * the whole local map is merged into the progress document.
   */
  function UpdateItemProgress(progress: ProgressMap, item: Item, isCorrect: bool,
                              sentence: string, feedback: string, tagging: Tagging,
                              now: Time, freshId: string): (r: ProgressUpdate)
    ensures r.local.Keys == progress.Keys + {item.id}
    ensures forall k :: k in progress && k != item.id ==> r.local[k] == progress[k]
    ensures var before := Current(progress, item.id); var after := r.local[item.id];
      && after.attempts == before.attempts + 1
      && after.successes == before.successes + (if isCorrect then 1 else 0)
      && after.masteryLevel == NextLevel(before.masteryLevel, isCorrect, after.successes)
      && after.confidence == before.confidence
      && after.lastPracticed == Some(now)
    ensures isCorrect ==> r.effects == [MergeProgress(r.local)]
    ensures !isCorrect ==> |r.effects| == 2 && r.effects[1] == MergeProgress(r.local)
    ensures !isCorrect ==> (r.effects[0].AddMistake? && r.effects[0].mistake
      == NewMistake(freshId, ItemRef(item.id, item.moduleKey), sentence, feedback, None, tagging, now))
  {
    var current := Current(progress, item.id);
    var successes := if isCorrect then current.successes + 1 else current.successes;
    var entry := current.(masteryLevel := NextLevel(current.masteryLevel, isCorrect, successes),
                          attempts := current.attempts + 1,
                          successes := successes,
                          lastPracticed := Some(now));
    var local := progress[item.id := entry];
    var mistakes :=
      if isCorrect then []
      else [AddMistake(NewMistake(freshId, ItemRef(item.id, item.moduleKey), sentence, feedback, None, tagging, now))];
    ProgressUpdate(local, mistakes + [MergeProgress(local)])
  }

  /** Applies the progress writes of a run of effects to the stored progress document. */
  function StoredProgress(stored: ProgressMap, effects: seq<Effect>): ProgressMap
    decreases |effects|
  {
    if |effects| == 0 then stored
    else
      var next := if effects[0].MergeProgress? then Merge.MergeWrite(stored, effects[0].update) else stored;
      StoredProgress(next, effects[1..])
  }

  /** The per-entry invariant: successes never exceed attempts, and the level agrees with them. */
  predicate WellFormed(p: ItemProgress) {
    p.successes <= p.attempts && LevelMatchesSuccesses(p.masteryLevel, p.successes)
  }

  predicate AllWellFormed(progress: ProgressMap) {
    forall k :: k in progress ==> WellFormed(progress[k])
  }

  /**
   * Updates keep every entry well formed (`successes <= attempts` in
   * particular), in memory and, when the document held only well-formed
   * entries, in the store after the merge.
   */
  lemma UpdateKeepsWellFormed(progress: ProgressMap, stored: ProgressMap, item: Item, isCorrect: bool,
                              sentence: string, feedback: string, tagging: Tagging, now: Time, freshId: string)
    requires AllWellFormed(progress) && AllWellFormed(stored)
    ensures var r := UpdateItemProgress(progress, item, isCorrect, sentence, feedback, tagging, now, freshId);
      AllWellFormed(r.local) && AllWellFormed(StoredProgress(stored, r.effects))
  {
    var r := UpdateItemProgress(progress, item, isCorrect, sentence, feedback, tagging, now, freshId);
    var before := Current(progress, item.id);
    assert WellFormed(before);
    NextLevelKeepsInvariant(before.masteryLevel, before.successes, isCorrect);
    assert AllWellFormed(r.local);
    var merged := Merge.MergeWrite(stored, r.local);
    assert AllWellFormed(merged);
    if isCorrect {
      assert r.effects[1..] == [];
      assert StoredProgress(stored, r.effects) == StoredProgress(merged, []);
    } else {
      assert r.effects[1..] == [MergeProgress(r.local)];
      assert StoredProgress(stored, r.effects) == StoredProgress(stored, [MergeProgress(r.local)]);
      assert [MergeProgress(r.local)][1..] == [];
      assert StoredProgress(stored, [MergeProgress(r.local)]) == StoredProgress(merged, []);
    }
  }

  datatype Deletion = Deletion(items: map<string, Item>, local: ProgressMap, stored: ProgressMap)

  /**
   * `deleteItem`: the item document goes, the entry leaves the local map, and
   * the local map is merged into the stored document.
   */
  function DeleteItem(items: map<string, Item>, local: ProgressMap, stored: ProgressMap, itemId: string): (r: Deletion)
    ensures r.items.Keys == items.Keys - {itemId}
    ensures itemId !in r.local && r.local.Keys == local.Keys - {itemId}
    ensures r.stored == Merge.MergeWrite(stored, r.local)
  {
    var local' := local - {itemId};
    Deletion(items - {itemId}, local', Merge.MergeWrite(stored, local'))
  }

  /**
   * The merge write cannot remove a field, so the stored progress of a
   * deleted item survives the deletion unchanged.
   */
  lemma DeletedProgressSurvives(items: map<string, Item>, local: ProgressMap, stored: ProgressMap, itemId: string)
    requires itemId in stored
    ensures var r := DeleteItem(items, local, stored, itemId);
      itemId !in r.local && itemId in r.stored && r.stored[itemId] == stored[itemId]
  {
  }

  /** The dashboard's counts. */
  datatype Stats = Stats(mastered: int, learning: int, newCount: int, total: int)

  /** `items.map(item => userProgress[item.id]).filter(Boolean)`. */
  function ProgressValues(items: seq<Item>, progress: ProgressMap): (vs: seq<ItemProgress>)
    ensures |vs| <= |items|
  {
    if |items| == 0 then []
    else (if items[0].id in progress then [progress[items[0].id]] else []) + ProgressValues(items[1..], progress)
  }

  predicate IsMastered(p: ItemProgress) { p.masteryLevel == Mastered }
  predicate IsLearning(p: ItemProgress) { p.masteryLevel == Learning }

  /** The dashboard's `stats`. */
  function DashboardStats(items: seq<Item>, progress: ProgressMap): (s: Stats)
    ensures s.mastered + s.learning + s.newCount == s.total
    ensures (forall i :: 0 <= i < |items| ==> items[i].id !in progress) ==> s == Stats(0, 0, 0, 0)
    ensures (exists i :: 0 <= i < |items| && items[i].id in progress) ==> s.total == |items|
    ensures s.mastered >= 0 && s.learning >= 0 && s.newCount >= 0
    ensures |ProgressValues(items, progress)| > 0 ==>
      && s.mastered == Seqs.Count(ProgressValues(items, progress), IsMastered)
      && s.learning == Seqs.Count(ProgressValues(items, progress), IsLearning)
  {
    var vs := ProgressValues(items, progress);
    if |vs| == 0 then
      NoValuesMeansNoProgress(items, progress);
      Stats(0, 0, 0, 0)
    else
      var mastered := Seqs.Count(vs, IsMastered);
      var learning := Seqs.Count(vs, IsLearning);
      DisjointCounts(vs);
      SomeValueMeansSomeProgress(items, progress);
      Stats(mastered, learning, |items| - mastered - learning, |items|)
  }

  lemma {:induction false} NoValuesMeansNoProgress(items: seq<Item>, progress: ProgressMap)
    requires |ProgressValues(items, progress)| == 0
    ensures forall i :: 0 <= i < |items| ==> items[i].id !in progress
  {
    if |items| > 0 {
      NoValuesMeansNoProgress(items[1..], progress);
      forall i | 0 <= i < |items| ensures items[i].id !in progress {
        if i > 0 { assert items[i] == items[1..][i - 1]; }
      }
    }
  }

  lemma {:induction false} SomeValueMeansSomeProgress(items: seq<Item>, progress: ProgressMap)
    requires |ProgressValues(items, progress)| > 0
    ensures exists i :: 0 <= i < |items| && items[i].id in progress
  {
    if items[0].id !in progress {
      SomeValueMeansSomeProgress(items[1..], progress);
      var i :| 0 <= i < |items[1..]| && items[1..][i].id in progress;
      assert items[i + 1].id in progress;
    }
  }

  /** Mastered and learning entries are disjoint, so together they never outnumber the entries. */
  lemma {:induction false} DisjointCounts(vs: seq<ItemProgress>)
    ensures Seqs.Count(vs, IsMastered) + Seqs.Count(vs, IsLearning) <= |vs|
  {
    if |vs| > 0 {
      DisjointCounts(vs[1..]);
    }
  }

  predicate NotMastered(progress: ProgressMap, item: Item) {
    item.id !in progress || progress[item.id].masteryLevel != Mastered
  }

  /** `item => userProgress[item.id]?.masteryLevel !== 'Mastered'`. */
  function UnmasteredTest(progress: ProgressMap): Item -> bool {
    it => NotMastered(progress, it)
  }

  /** The dashboard's `suggestedItems`: the first three items not yet mastered. */
  function Suggestions(items: seq<Item>, progress: ProgressMap): (r: seq<Item>)
    ensures |r| <= 3
    ensures forall i :: 0 <= i < |r| ==> r[i] in items && NotMastered(progress, r[i])
    ensures Seqs.IsSubsequence(r, items)
    ensures |r| < 3 ==> forall i :: 0 <= i < |items| && NotMastered(progress, items[i]) ==> items[i] in r
  {
    var candidates := Seqs.Filter(items, UnmasteredTest(progress));
    Seqs.FilterIsSubsequence(items, UnmasteredTest(progress));
    TakeOfSubsequence(candidates, items, 3);
    Seqs.Take(candidates, 3)
  }

  /**
   * The suggestions are the first unmastered items: those of some prefix of
   * the items, which holds three of them or is the whole list.
   */
  lemma SuggestionsAreFirstUnmastered(items: seq<Item>, progress: ProgressMap)
    ensures exists k :: (0 <= k <= |items|
      && Suggestions(items, progress) == Seqs.Filter(items[..k], UnmasteredTest(progress))
      && (k == |items| || |Suggestions(items, progress)| == 3))
  {
    Seqs.TakeFilterIsFilterOfPrefix(items, UnmasteredTest(progress), 3);
  }

  lemma TakeOfSubsequence<T>(r: seq<T>, s: seq<T>, n: nat)
    requires Seqs.IsSubsequence(r, s)
    ensures Seqs.IsSubsequence(Seqs.Take(r, n), s)
  {
    if n < |r| {
      PrefixOfSubsequence(r, s, n);
    }
  }

  lemma {:induction false} PrefixOfSubsequence<T>(r: seq<T>, s: seq<T>, n: nat)
    requires n <= |r| && Seqs.IsSubsequence(r, s)
    ensures Seqs.IsSubsequence(r[..n], s)
    decreases |s|
  {
    if n > 0 {
      if r[0] == s[0] {
        PrefixOfSubsequence(r[1..], s[1..], n - 1);
        assert r[..n][1..] == r[1..][..n - 1];
      } else {
        PrefixOfSubsequence(r, s[1..], n);
      }
    }
  }

  /** A row of the progress screen: an item and its progress, `New` when it has none. */
  datatype Row = Row(item: Item, progress: ItemProgress)

  function RowRank(r: Row): int {
    Rank(r.progress.masteryLevel)
  }

  function Rows(items: seq<Item>, progress: ProgressMap): (rows: seq<Row>)
    ensures |rows| == |items|
    ensures forall i :: 0 <= i < |items| ==> rows[i] == Row(items[i], Current(progress, items[i].id))
  {
    if |items| == 0 then [] else [Row(items[0], Current(progress, items[0].id))] + Rows(items[1..], progress)
  }

  /** `GenericProgressScreen`'s `sortedItems`: a stable sort on descending rank. */
  function SortedItems(items: seq<Item>, progress: ProgressMap): seq<Row> {
    Seqs.SortDesc(Rows(items, progress), RowRank)
  }

  /**
   * The sorted rows are the mastered rows, then the learning rows, then the
   * new rows (items without progress among them), each group in the items'
   * original order, and nothing else.
   */
  lemma SortedItemsGroups(items: seq<Item>, progress: ProgressMap)
    ensures var rows := Rows(items, progress);
      && SortedItems(items, progress)
         == Seqs.WithKey(rows, RowRank, 2) + Seqs.WithKey(rows, RowRank, 1) + Seqs.WithKey(rows, RowRank, 0)
      && multiset(SortedItems(items, progress)) == multiset(rows)
  {
    var rows := Rows(items, progress);
    var sorted := SortedItems(items, progress);
    Seqs.SortDescFacts(rows, RowRank);
    SortedSplitsByRank(sorted);
  }

  lemma {:induction false} SortedSplitsByRank(t: seq<Row>)
    requires Seqs.SortedDesc(t, RowRank)
    ensures t == Seqs.WithKey(t, RowRank, 2) + Seqs.WithKey(t, RowRank, 1) + Seqs.WithKey(t, RowRank, 0)
  {
    if |t| > 0 {
      var a, rest := t[0], t[1..];
      assert t == [a] + rest;
      assert Seqs.SortedDesc(rest, RowRank);
      SortedSplitsByRank(rest);
      forall i | 0 <= i < |rest| ensures RowRank(rest[i]) <= RowRank(a) {
        assert rest[i] == t[i + 1];
      }
      ConsSplitsByRank(a, rest);
    }
  }

  lemma {:induction false} ConsSplitsByRank(a: Row, rest: seq<Row>)
    requires rest == Seqs.WithKey(rest, RowRank, 2) + Seqs.WithKey(rest, RowRank, 1) + Seqs.WithKey(rest, RowRank, 0)
    requires forall i :: 0 <= i < |rest| ==> RowRank(rest[i]) <= RowRank(a)
    ensures [a] + rest
      == Seqs.WithKey([a] + rest, RowRank, 2) + Seqs.WithKey([a] + rest, RowRank, 1) + Seqs.WithKey([a] + rest, RowRank, 0)
  {
    var t := [a] + rest;
    var m2, m1, m0 := Seqs.WithKey(rest, RowRank, 2), Seqs.WithKey(rest, RowRank, 1), Seqs.WithKey(rest, RowRank, 0);
    var n2, n1, n0 := Seqs.WithKey(t, RowRank, 2), Seqs.WithKey(t, RowRank, 1), Seqs.WithKey(t, RowRank, 0);
    var k := RowRank(a);
    var p2, p1, p0 := if k == 2 then [a] else [], if k == 1 then [a] else [], if k == 0 then [a] else [];
    assert n2 == p2 + m2 && n1 == p1 + m1 && n0 == p0 + m0 by {
      WithRankCons(a, rest, 0);
      WithRankCons(a, rest, 1);
      WithRankCons(a, rest, 2);
    }
    if k == 2 {
      assert n2 + n1 + n0 == [a] + (m2 + m1 + m0);
    } else if k == 1 {
      assert m2 == [] by { NoneWithRank(rest, 2); }
      assert n2 + n1 + n0 == [a] + (m2 + m1 + m0);
    } else {
      assert m2 == [] && m1 == [] by {
        NoneWithRank(rest, 2);
        NoneWithRank(rest, 1);
      }
      assert n2 + n1 + n0 == [a] + (m2 + m1 + m0);
    }
  }

  lemma {:induction false} WithRankCons(a: Row, rest: seq<Row>, j: int)
    ensures Seqs.WithKey([a] + rest, RowRank, j)
      == (if RowRank(a) == j then [a] else []) + Seqs.WithKey(rest, RowRank, j)
  {
    assert ([a] + rest)[0] == a;
    assert ([a] + rest)[1..] == rest;
  }

  lemma {:induction false} NoneWithRank(s: seq<Row>, k: int)
    requires forall i :: 0 <= i < |s| ==> RowRank(s[i]) < k
    ensures Seqs.WithKey(s, RowRank, k) == []
  {
    if |s| > 0 {
      NoneWithRank(s[1..], k);
    }
  }

  /** A property of a module descriptor: absent, a function, or a plain value. */
  datatype FieldValue = Absent | Function | Value(v: Json.Json)

  predicate FieldTruthy(f: FieldValue) {
    match f
    case Absent => false
    case Function => true
    case Value(v) => Json.Truthy(v)
  }

  type ModuleDescriptor = map<string, FieldValue>

  function Field(m: ModuleDescriptor, name: string): FieldValue {
    if name in m then m[name] else Absent
  }

  const REQUIRED_FIELDS: seq<string> :=
    ["key", "name", "collectionName", "DisplayCard", "AddItemForm", "getPracticePrompt"]

  /** The properties that must hold functions, in the order they are checked. */
  const FUNCTION_FIELDS: seq<string> := ["DisplayCard", "AddItemForm", "getPracticePrompt"]

  datatype ValidationError = MissingFields(names: seq<string>) | NotAFunction(field: string)

  /** `requiredFields.filter(field => !module[field])`. */
  function MissingFieldNames(m: ModuleDescriptor): (names: seq<string>)
    ensures Seqs.IsSubsequence(names, REQUIRED_FIELDS)
    ensures forall i :: 0 <= i < |names| ==> !FieldTruthy(Field(m, names[i]))
    ensures forall i :: (0 <= i < |REQUIRED_FIELDS| && !FieldTruthy(Field(m, REQUIRED_FIELDS[i]))
      ==> REQUIRED_FIELDS[i] in names)
  {
    Seqs.FilterIsSubsequence(REQUIRED_FIELDS, f => !FieldTruthy(Field(m, f)));
    Seqs.Filter(REQUIRED_FIELDS, f => !FieldTruthy(Field(m, f)))
  }

  /** The first function-valued property that does not hold a function, if any. */
  function FirstNonFunction(m: ModuleDescriptor, fields: seq<string>): (r: Option<string>)
    ensures r.None? <==> forall i :: 0 <= i < |fields| ==> Field(m, fields[i]).Function?
    ensures r.Some? ==> exists i :: (0 <= i < |fields| && fields[i] == r.value && !Field(m, fields[i]).Function?
      && forall j :: 0 <= j < i ==> Field(m, fields[j]).Function?)
  {
    if |fields| == 0 then None
    else if !Field(m, fields[0]).Function? then Some(fields[0])
    else
      var r := FirstNonFunction(m, fields[1..]);
      if r.Some? then
        ghost var i :| 0 <= i < |fields[1..]| && fields[1..][i] == r.value && !Field(m, fields[1..][i]).Function?
          && forall j :: 0 <= j < i ==> Field(m, fields[1..][j]).Function?;
        assert fields[i + 1] == r.value;
        r
      else r
  }

  /**
   * `validateModule`: accepted iff every required property is truthy and the
   * three component properties are functions. Missing properties are reported
   * first, all of them, in `REQUIRED_FIELDS` order; otherwise the first
   * component property that is not a function.
   */
  function ValidateModule(m: ModuleDescriptor): (r: Result<bool, ValidationError>)
    ensures r.Ok? <==> (forall i :: 0 <= i < |REQUIRED_FIELDS| ==> FieldTruthy(Field(m, REQUIRED_FIELDS[i])))
                       && Field(m, "DisplayCard").Function? && Field(m, "AddItemForm").Function?
                       && Field(m, "getPracticePrompt").Function?
    ensures r.Ok? ==> r.value
    ensures (exists i :: 0 <= i < |REQUIRED_FIELDS| && !FieldTruthy(Field(m, REQUIRED_FIELDS[i])))
      ==> r == Err(MissingFields(MissingFieldNames(m)))
    ensures r.Err? && r.error.NotAFunction? ==>
      (forall i :: 0 <= i < |REQUIRED_FIELDS| ==> FieldTruthy(Field(m, REQUIRED_FIELDS[i])))
      && r.error.field in FUNCTION_FIELDS
    ensures ((forall i :: 0 <= i < |REQUIRED_FIELDS| ==> FieldTruthy(Field(m, REQUIRED_FIELDS[i])))
             && FirstNonFunction(m, FUNCTION_FIELDS).Some?)
      ==> r == Err(NotAFunction(FirstNonFunction(m, FUNCTION_FIELDS).value))
  {
    var missing := MissingFieldNames(m);
    if |missing| > 0 then Err(MissingFields(missing))
    else
      match FirstNonFunction(m, FUNCTION_FIELDS)
      case Some(f) => Err(NotAFunction(f))
      case None =>
        assert FUNCTION_FIELDS[0] == "DisplayCard" && FUNCTION_FIELDS[1] == "AddItemForm"
          && FUNCTION_FIELDS[2] == "getPracticePrompt";
        Ok(true)
  }
}

=== FILE: markdown.dfy ===
/**
 * `renderMarkdownText` of self_extending_learning.js: splits feedback text
 * into plain runs, `**bold**` spans and `*italic*` spans. The two regular
 * expressions are modelled by what they match: a declarative description of
 * a match and a scanner proved to find the leftmost one, as the JavaScript
 * regex engine does.
 */
module Markdown {
  import opened Wrappers

  /** The characters `.` does not match. */
  predicate IsLineTerminator(c: char) {
    c == '\n' || c == '\r' || c == '\U{2028}' || c == '\U{2029}'
  }

  /** `/\*\*(.*?)\*\*\/` matches at `i` with a content of length `k`. */
  predicate BoldAt(s: string, i: nat, k: nat) {
    && i + k + 4 <= |s|
    && s[i] == '*' && s[i + 1] == '*'
    && (forall j :: i + 2 <= j < i + 2 + k ==> !IsLineTerminator(s[j]))
    && s[i + 2 + k] == '*' && s[i + 3 + k] == '*'
  }

  /** `/(?<!\*)\*([^*]+)\*(?!\*)/` matches at `i` with a content of length `k`. */
  predicate ItalicAt(s: string, i: nat, k: nat) {
    && i + k + 2 <= |s|
    && (i == 0 || s[i - 1] != '*')
    && s[i] == '*'
    && k >= 1
    && (forall j :: i + 1 <= j < i + 1 + k ==> s[j] != '*')
    && s[i + 1 + k] == '*'
    && (i + k + 2 == |s| || s[i + k + 2] != '*')
  }

  /** The lazy `.*?`: the shortest content, starting the search at length `k`. */
  function BoldClose(s: string, i: nat, k: nat): (r: Option<nat>)
    requires i + 2 + k <= |s| && forall j :: i + 2 <= j < i + 2 + k ==> !IsLineTerminator(s[j])
    requires s[i] == '*' && s[i + 1] == '*'
    ensures r.Some? ==> (r.value >= k && BoldAt(s, i, r.value)
      && forall k': nat :: k <= k' < r.value ==> !BoldAt(s, i, k'))
    ensures r.None? ==> forall k': nat :: k' >= k ==> !BoldAt(s, i, k')
    decreases |s| - k
  {
    var p := i + 2 + k;
    if p + 2 > |s| then None
    else if s[p] == '*' && s[p + 1] == '*' then Some(k)
    else if IsLineTerminator(s[p]) then
      assert forall k': nat :: k' > k ==> !BoldAt(s, i, k') by {
        forall k': nat | k' > k ensures !BoldAt(s, i, k') {
          assert i + 2 <= p < i + 2 + k';
        }
      }
      None
    else BoldClose(s, i, k + 1)
  }

  /** The leftmost bold match at or after `from`, with its shortest content. */
  function FindBold(s: string, from: nat): (r: Option<(nat, nat)>)
    ensures r.Some? ==> var (i, k) := r.value;
      && from <= i && BoldAt(s, i, k)
      && (forall k': nat :: k' < k ==> !BoldAt(s, i, k'))
      && (forall i': nat, k': nat :: from <= i' < i ==> !BoldAt(s, i', k'))
    ensures r.None? ==> forall i': nat, k': nat :: from <= i' ==> !BoldAt(s, i', k')
    decreases |s| - from
  {
    if from + 2 > |s| then None
    else if s[from] == '*' && s[from + 1] == '*' && BoldClose(s, from, 0).Some? then
      Some((from, BoldClose(s, from, 0).value))
    else
      FindBold(s, from + 1)
  }

  /** The first `*` at or after `j`, or `|s|`. */
  function NextStar(s: string, j: nat): (r: nat)
    requires j <= |s|
    ensures j <= r <= |s|
    ensures r < |s| ==> s[r] == '*'
    ensures forall m :: j <= m < r ==> s[m] != '*'
    decreases |s| - j
  {
    if j == |s| || s[j] == '*' then j else NextStar(s, j + 1)
  }

  /** The leftmost italic match at or after `from`; its content length is forced. */
  function FindItalic(s: string, from: nat): (r: Option<(nat, nat)>)
    ensures r.Some? ==> var (i, k) := r.value;
      && from <= i && ItalicAt(s, i, k)
      && (forall k': nat :: k' != k ==> !ItalicAt(s, i, k'))
      && (forall i': nat, k': nat :: from <= i' < i ==> !ItalicAt(s, i', k'))
    ensures r.None? ==> forall i': nat, k': nat :: from <= i' ==> !ItalicAt(s, i', k')
    decreases |s| - from
  {
    if from >= |s| then None
    else
      var e := NextStar(s, from + 1);
      var k := e - (from + 1);
      if (from == 0 || s[from - 1] != '*') && s[from] == '*' && k >= 1 && e < |s|
         && (e + 1 == |s| || s[e + 1] != '*') then
        assert ItalicAt(s, from, k);
        ItalicContentForced(s, from, k);
        Some((from, k))
      else
        assert forall k': nat :: !ItalicAt(s, from, k') by {
          forall k': nat | ItalicAt(s, from, k') ensures false {
            ItalicEndsAtNextStar(s, from, k');
          }
        }
        FindItalic(s, from + 1)
  }

  lemma ItalicEndsAtNextStar(s: string, i: nat, k: nat)
    requires ItalicAt(s, i, k)
    ensures NextStar(s, i + 1) == i + 1 + k
  {
  }

  lemma ItalicContentForced(s: string, i: nat, k: nat)
    requires ItalicAt(s, i, k)
    ensures forall k': nat :: k' != k ==> !ItalicAt(s, i, k')
  {
    forall k': nat | ItalicAt(s, i, k') ensures k' == k {
      ItalicEndsAtNextStar(s, i, k);
      ItalicEndsAtNextStar(s, i, k');
    }
  }

  /** A rendered piece: plain text, `<strong>` or `<em>`. */
  datatype Part = Text(t: string) | Bold(content: string) | Italic(content: string)

  /** A part written back as markdown. */
  function Show(p: Part): string {
    match p
    case Text(t) => t
    case Bold(c) => "**" + c + "**"
    case Italic(c) => "*" + c + "*"
  }

  function ShowAll(ps: seq<Part>): string {
    if |ps| == 0 then "" else Show(ps[0]) + ShowAll(ps[1..])
  }

  function StarCount(s: string): nat {
    if |s| == 0 then 0 else (if s[0] == '*' then 1 else 0) + StarCount(s[1..])
  }

  /** One iteration of the loop: the parts it pushes and the text that remains. */
  datatype Step = Step(pushed: seq<Part>, rest: string, done: bool)

  /** `beforeBold` / `beforeItalic`, pushed only when non-empty. */
  function Before(s: string, i: nat): seq<Part>
    requires i <= |s|
  {
    if i == 0 then [] else [Text(s[..i])]
  }

  /**
   * One pass of the loop body over a non-empty remainder: a bold match is
   * preferred to an italic one; without either the remainder is pushed whole
   * and the loop stops. A match consumes a non-empty prefix holding at least
   * two asterisks, and the pushed parts spell out exactly that prefix.
   */
  function LoopStep(s: string): (st: Step)
    requires |s| > 0
    ensures |st.rest| < |s|
    ensures ShowAll(st.pushed) + st.rest == s
    ensures st.done <==> FindBold(s, 0).None? && FindItalic(s, 0).None?
    ensures st.done ==> st.pushed == [Text(s)] && st.rest == ""
    ensures !st.done ==> StarCount(s[..|s| - |st.rest|]) >= 2
    ensures 1 <= |st.pushed| <= 2
  {
    match FindBold(s, 0)
    case Some((i, k)) =>
      var content := s[i + 2..i + 2 + k];
      var pushed := Before(s, i) + [Bold(content)];
      var rest := s[i + k + 4..];
      ShowBoldStep(s, i, k);
      Step(pushed, rest, false)
    case None =>
      match FindItalic(s, 0)
      case Some((i, k)) =>
        var content := s[i + 1..i + 1 + k];
        var pushed := Before(s, i) + [Italic(content)];
        var rest := s[i + k + 2..];
        ShowItalicStep(s, i, k);
        Step(pushed, rest, false)
      case None =>
        assert ShowAll([Text(s)]) == s;
        Step([Text(s)], "", true)
  }

  lemma ShowAllAppend(a: seq<Part>, b: seq<Part>)
    ensures ShowAll(a + b) == ShowAll(a) + ShowAll(b)
  {
    if |a| > 0 {
      assert (a + b)[1..] == a[1..] + b;
      ShowAllAppend(a[1..], b);
    } else {
      assert a + b == b;
    }
  }

  lemma StarCountAppend(a: string, b: string)
    ensures StarCount(a + b) == StarCount(a) + StarCount(b)
  {
    if |a| > 0 {
      assert (a + b)[1..] == a[1..] + b;
      StarCountAppend(a[1..], b);
    } else {
      assert a + b == b;
    }
  }

  /** The consumed prefix `before + match` starts its match with `stars` asterisks at `i`. */
  lemma PrefixStars(s: string, i: nat, e: nat, stars: nat)
    requires i + stars <= e <= |s|
    requires forall j :: i <= j < i + stars ==> s[j] == '*'
    ensures StarCount(s[..e]) >= stars
  {
    assert s[..e] == s[..i] + s[i..e];
    StarCountAppend(s[..i], s[i..e]);
    assert s[i..e] == s[i..i + stars] + s[i + stars..e];
    StarCountAppend(s[i..i + stars], s[i + stars..e]);
    AllStars(s[i..i + stars]);
  }

  lemma {:induction false} AllStars(t: string)
    requires forall j :: 0 <= j < |t| ==> t[j] == '*'
    ensures StarCount(t) == |t|
  {
    if |t| > 0 {
      AllStars(t[1..]);
    }
  }

  lemma BoldSlice(s: string, i: nat, k: nat)
    requires BoldAt(s, i, k)
    ensures s[i..i + k + 4] == "**" + s[i + 2..i + 2 + k] + "**"
  {
    var a, b, c, d := i, i + 2, i + 2 + k, i + k + 4;
    assert s[a..d] == s[a..b] + s[b..c] + s[c..d];
    assert s[a..b] == [s[i], s[i + 1]];
    assert s[c..d] == [s[c], s[c + 1]];
  }

  lemma ItalicSlice(s: string, i: nat, k: nat)
    requires ItalicAt(s, i, k)
    ensures s[i..i + k + 2] == "*" + s[i + 1..i + 1 + k] + "*"
  {
    var a, b, c, d := i, i + 1, i + 1 + k, i + k + 2;
    assert s[a..d] == s[a..b] + s[b..c] + s[c..d];
    assert s[a..b] == [s[i]];
    assert s[c..d] == [s[c]];
  }

  lemma ShowBoldStep(s: string, i: nat, k: nat)
    requires BoldAt(s, i, k)
    ensures ShowAll(Before(s, i) + [Bold(s[i + 2..i + 2 + k])]) + s[i + k + 4..] == s
    ensures StarCount(s[..i + k + 4]) >= 2
  {
    BoldStars(s, i, k);
    var content := s[i + 2..i + 2 + k];
    ShowAllAppend(Before(s, i), [Bold(content)]);
    ShowBefore(s, i);
    ShowOne(Bold(content));
    BoldSlice(s, i, k);
    SplitAt(s, i, i + k + 4);
  }

  lemma ShowBefore(s: string, i: nat)
    requires i <= |s|
    ensures ShowAll(Before(s, i)) == s[..i]
  {
  }

  lemma ShowOne(p: Part)
    ensures ShowAll([p]) == Show(p)
  {
    assert [p][1..] == [];
  }

  lemma SplitAt(s: string, a: nat, b: nat)
    requires a <= b <= |s|
    ensures s[..a] + s[a..b] + s[b..] == s
  {
  }

  lemma BoldStars(s: string, i: nat, k: nat)
    requires BoldAt(s, i, k)
    ensures StarCount(s[..i + k + 4]) >= 2
  {
    PrefixStars(s, i, i + k + 4, 2);
  }

  lemma ShowItalicStep(s: string, i: nat, k: nat)
    requires ItalicAt(s, i, k)
    ensures ShowAll(Before(s, i) + [Italic(s[i + 1..i + 1 + k])]) + s[i + k + 2..] == s
    ensures StarCount(s[..i + k + 2]) >= 2
  {
    ItalicStars(s, i, k);
    var content := s[i + 1..i + 1 + k];
    ShowAllAppend(Before(s, i), [Italic(content)]);
    ShowBefore(s, i);
    ShowOne(Italic(content));
    ItalicSlice(s, i, k);
    SplitAt(s, i, i + k + 2);
  }

  lemma ItalicStars(s: string, i: nat, k: nat)
    requires ItalicAt(s, i, k)
    ensures StarCount(s[..i + k + 2]) >= 2
  {
    var e := i + k + 2;
    assert s[..e] == s[..i + 1] + s[i + 1..e];
    StarCountAppend(s[..i + 1], s[i + 1..e]);
    PrefixStars(s, i, i + 1, 1);
    PrefixStars(s[i + 1..e], k, k + 1, 1);
    assert s[i + 1..e][..k + 1] == s[i + 1..e];
  }

  /** The `parts` array the loop builds. */
  function Tokenize(s: string): seq<Part>
    decreases |s|
  {
    if |s| == 0 then []
    else
      var st := LoopStep(s);
      if st.done then st.pushed else st.pushed + Tokenize(st.rest)
  }

  /** Writing the parts back as markdown gives the input text: nothing is lost or invented. */
  lemma {:induction false} TokenizeSpellsInput(s: string)
    ensures ShowAll(Tokenize(s)) == s
    decreases |s|
  {
    if |s| > 0 {
      var st := LoopStep(s);
      if !st.done {
        TokenizeSpellsInput(st.rest);
        ShowAllAppend(st.pushed, Tokenize(st.rest));
      } else {
        assert st.rest == "";
      }
    }
  }

  /** What the renderer returns: the parts, or the original text when there is at most one. */
  datatype Rendered = Parts(parts: seq<Part>) | Original(text: string)

  /** `renderMarkdownText` on a string. */
  function RenderMarkdownText(text: string): (r: Rendered)
    ensures r.Original? ==> r.text == text
    ensures r.Parts? ==> |r.parts| > 1 && ShowAll(r.parts) == text
    ensures |Tokenize(text)| <= 1 <==> r == Original(text)
  {
    TokenizeSpellsInput(text);
    var parts := Tokenize(text);
    if |parts| > 1 then Parts(parts) else Original(text)
  }

  /** A text that is exactly one `**bold**` span comes back unchanged. */
  lemma SingleBoldSpanUnchanged(c: string)
    requires forall j :: 0 <= j < |c| ==> !IsLineTerminator(c[j])
    requires forall j :: 0 <= j < |c| - 1 ==> !(c[j] == '*' && c[j + 1] == '*')
    requires |c| == 0 || c[|c| - 1] != '*'
    ensures Tokenize("**" + c + "**") == [Bold(c)]
    ensures RenderMarkdownText("**" + c + "**") == Original("**" + c + "**")
  {
    var s := "**" + c + "**";
    WholeTextIsFirstBold(c);
    var st := LoopStep(s);
    assert s[2..2 + |c|] == c;
    assert st.pushed == [Bold(c)];
    assert st.rest == "";
  }

  lemma WholeTextIsFirstBold(c: string)
    requires forall j :: 0 <= j < |c| ==> !IsLineTerminator(c[j])
    requires forall j :: 0 <= j < |c| - 1 ==> !(c[j] == '*' && c[j + 1] == '*')
    requires |c| == 0 || c[|c| - 1] != '*'
    ensures FindBold("**" + c + "**", 0) == Some((0, |c|))
  {
    var s := "**" + c + "**";
    assert BoldAt(s, 0, |c|);
    forall k': nat | k' < |c| ensures !BoldAt(s, 0, k') {
      if k' < |c| - 1 {
        assert s[2 + k'] == c[k'] && s[3 + k'] == c[k' + 1];
      } else {
        assert s[2 + k'] == c[|c| - 1];
      }
    }
  }

  /** Text without any asterisk is never split. */
  lemma NoAsteriskUnchanged(s: string)
    requires forall j :: 0 <= j < |s| ==> s[j] != '*'
    ensures |s| > 0 ==> Tokenize(s) == [Text(s)]
    ensures RenderMarkdownText(s) == Original(s)
  {
    if |s| > 0 {
      var st := LoopStep(s);
      assert FindBold(s, 0).None?;
      assert FindItalic(s, 0).None?;
    }
  }
}

=== FILE: mastery.dfy ===
/**
 * The three-state mastery machine shared by both learning apps
 * (`updateItemProgress` in self_extending_learning.js and
 * `updateVerbProgress` in verb_mastery2.ts): one function of the current
 * level, the outcome and the success count after this outcome.
 */
module Mastery {

  datatype Level = New | Learning | Mastered

  /** Successes needed, counting the current one, to leave `Learning` for `Mastered`. */
  const MASTERY_THRESHOLD: int := 4

  /** Rank used by the progress screens' sort: Mastered 2, Learning 1, New 0. */
  function Rank(l: Level): (r: int)
    ensures 0 <= r <= 2
    ensures r == 2 <==> l == Mastered
    ensures r == 0 <==> l == New
  {
    match l
    case New => 0
    case Learning => 1
    case Mastered => 2
  }

  /**
   * The level after one outcome. `successesAfter` is the success count
   * including this outcome.
   */
  function NextLevel(current: Level, isCorrect: bool, successesAfter: int): (next: Level)
    // a success never lowers the level, a failure never raises it
    ensures isCorrect ==> Rank(next) >= Rank(current)
    ensures !isCorrect ==> Rank(next) <= Rank(current)
    // the level moves by at most one step
    ensures Rank(next) - Rank(current) <= 1 && Rank(current) - Rank(next) <= 1
    // each way into or out of a level
    ensures current == New && next != New <==> current == New && isCorrect
    ensures current != Mastered && next == Mastered
      <==> current == Learning && isCorrect && successesAfter >= MASTERY_THRESHOLD
    ensures current == Mastered && next != Mastered <==> current == Mastered && !isCorrect
    ensures next == New ==> current == New
    ensures current == Mastered && !isCorrect ==> next == Learning
  {
    if isCorrect then
      if current == New then Learning
      else if current == Learning && successesAfter >= MASTERY_THRESHOLD then Mastered
      else current
    else
      if current == Mastered then Learning else current
  }

  /**
   * The invariant a progress record keeps when it is only ever changed by
   * `NextLevel` with a success counter that starts at 0: nothing is counted as
   * a success before the first one, and `Mastered` needs the threshold.
   */
  predicate LevelMatchesSuccesses(l: Level, successes: int) {
    && successes >= 0
    && (l == New ==> successes == 0)
    && (l == Mastered ==> successes >= MASTERY_THRESHOLD)
  }

  /** One outcome keeps the invariant. */
  lemma NextLevelKeepsInvariant(l: Level, successes: int, isCorrect: bool)
    requires LevelMatchesSuccesses(l, successes)
    ensures LevelMatchesSuccesses(
      NextLevel(l, isCorrect, if isCorrect then successes + 1 else successes),
      if isCorrect then successes + 1 else successes)
  {
  }
}

=== FILE: merge.dfy ===
/**
 * The document store's `setDoc(ref, update, { merge: true })` on a document
 * whose fields form a map: fields named in the update are overwritten, all
 * others are kept. Nested values are replaced whole (the records written
 * here always carry every field).
 */
module Merge {

  function MergeWrite<K, V>(stored: map<K, V>, update: map<K, V>): (r: map<K, V>)
    ensures r.Keys == stored.Keys + update.Keys
    ensures forall k :: k in update ==> r[k] == update[k]
    ensures forall k :: k in stored && k !in update ==> r[k] == stored[k]
  {
    stored + update
  }
}

=== FILE: retry.dfy ===
/**
 * `GeminiAPI._call` in canvas-library.js: up to five POST attempts with
 * waits of 1, 2, 4 and 8 seconds between them. The network is a script of
 * responses, one per attempt; an attempt past the end of the script fails
 * like an unreachable host. Waiting is recorded, not performed.
 */
module Retry {
  import opened Wrappers
  import opened Json

  /** What one `fetch` produced: no response at all, or a status and a body that parses or not. */
  datatype Response = NetworkFailure | Reply(status: int, body: Option<Json>)

  /** The error `_call` throws. */
  datatype CallError =
    | ClientError(status: int)    // `API Client Error <status>: <text>`
    | ServerError(status: int)    // `API Error <status>`
    | FetchFailed                 // the `fetch` promise rejected
    | InvalidJson                 // `response.json()` rejected

  const MAX_RETRIES: nat := 4

  const DELAYS: seq<nat> := [1000, 2000, 4000, 8000]

  /** `response.ok`. */
  predicate IsOk(status: int) {
    200 <= status <= 299
  }

  /** The status test that picks the client-error message: 4xx other than 429. */
  predicate IsClientError(status: int) {
    400 <= status < 500 && status != 429
  }

  /**
   * The outcome of one attempt, as the body of the `try` computes it. Both
   * error statuses end in a `throw` inside the `try`, so both reach the
   * `catch`.
   */
  function Attempt(r: Response): (a: Result<Json, CallError>)
    ensures a.Ok? <==> r.Reply? && IsOk(r.status) && r.body.Some?
    ensures a.Ok? ==> a.value == r.body.value
    ensures a.Err? && a.error.ClientError? <==> r.Reply? && IsClientError(r.status)
    ensures a.Err? && a.error.ClientError? ==> a.error.status == r.status
    ensures r.Reply? && !IsOk(r.status) && !IsClientError(r.status) ==> a == Err(ServerError(r.status))
  {
    match r
    case NetworkFailure => Err(FetchFailed)
    case Reply(status, body) =>
      if !IsOk(status) then
        if IsClientError(status) then Err(ClientError(status)) else Err(ServerError(status))
      else if body.None? then Err(InvalidJson)
      else Ok(body.value)
  }

  /** The response the network gives to attempt `k`. */
  function At(script: seq<Response>, k: nat): Response {
    if k < |script| then script[k] else NetworkFailure
  }

  /**
   * Which errors the `catch` retries: as written, every error; as the
   * comment above the status test says, not client errors.
   */
  datatype Policy = RetryEverything | StopOnClientError

  predicate Retries(policy: Policy, e: CallError) {
    policy == RetryEverything || !e.ClientError?
  }

  /** The result and the waits between attempts. */
  datatype CallOutcome = CallOutcome(result: Result<Json, CallError>, waited: seq<nat>)

  /** The reference definition: attempts from `k` on. */
  function OutcomeFrom(script: seq<Response>, policy: Policy, k: nat): CallOutcome
    requires k <= MAX_RETRIES
    decreases MAX_RETRIES - k
  {
    var a := Attempt(At(script, k));
    if a.Ok? || k == MAX_RETRIES || !Retries(policy, a.error) then CallOutcome(a, [])
    else
      var rest := OutcomeFrom(script, policy, k + 1);
      CallOutcome(rest.result, [DELAYS[k]] + rest.waited)
  }

  function Outcome(script: seq<Response>, policy: Policy): CallOutcome {
    OutcomeFrom(script, policy, 0)
  }

  /**
   * `_call` over a scripted network. The result is the outcome of the last
   * attempt made; every earlier attempt failed with a retried error, and the
   * waits are the first entries of `DELAYS`, one per retry. Fewer than five
   * attempts are made only after a success or, under `StopOnClientError`, a
   * client error.
   */
  method Call(script: seq<Response>, policy: Policy) returns (result: Result<Json, CallError>, waited: seq<nat>)
    ensures CallOutcome(result, waited) == Outcome(script, policy)
    ensures |waited| <= MAX_RETRIES && waited == DELAYS[..|waited|]
    ensures result == Attempt(At(script, |waited|))
    ensures forall k :: 0 <= k < |waited| ==>
      Attempt(At(script, k)).Err? && Retries(policy, Attempt(At(script, k)).error)
    ensures result.Err? && |waited| < MAX_RETRIES ==> !Retries(policy, result.error)
  {
    var attempt := 0;
    waited := [];
    while true
      invariant 0 <= attempt <= MAX_RETRIES
      invariant |waited| == attempt && waited == DELAYS[..attempt]
      invariant Pending(script, policy, attempt, waited)
      decreases MAX_RETRIES - attempt
    {
      var a := Attempt(At(script, attempt));
      if a.Ok? || attempt == MAX_RETRIES || !Retries(policy, a.error) {
        Stop(script, policy, attempt, waited);
        return a, waited;
      }
      Advance(script, policy, attempt, waited);
      waited := waited + [DELAYS[attempt]];
      attempt := attempt + 1;
    }
  }

  /** The loop invariant of `Call`: `waited` holds the waits so far and the rest of the call is still to come. */
  ghost predicate Pending(script: seq<Response>, policy: Policy, k: nat, waited: seq<nat>)
    requires k <= MAX_RETRIES
  {
    Outcome(script, policy) == CallOutcome(OutcomeFrom(script, policy, k).result, waited + OutcomeFrom(script, policy, k).waited)
  }

  /** A retried failure at attempt `k` adds the `k`-th delay and moves on. */
  lemma Advance(script: seq<Response>, policy: Policy, k: nat, waited: seq<nat>)
    requires k < MAX_RETRIES && waited == DELAYS[..k]
    requires Attempt(At(script, k)).Err? && Retries(policy, Attempt(At(script, k)).error)
    requires Pending(script, policy, k, waited)
    ensures waited + [DELAYS[k]] == DELAYS[..k + 1]
    ensures Pending(script, policy, k + 1, waited + [DELAYS[k]])
  {
    var rest := OutcomeFrom(script, policy, k + 1);
    assert OutcomeFrom(script, policy, k) == CallOutcome(rest.result, [DELAYS[k]] + rest.waited);
    assert waited + ([DELAYS[k]] + rest.waited) == (waited + [DELAYS[k]]) + rest.waited;
  }

  /** A success, an unretried failure or the last attempt ends the call with that attempt's outcome. */
  lemma Stop(script: seq<Response>, policy: Policy, k: nat, waited: seq<nat>)
    requires k <= MAX_RETRIES && |waited| == k && waited == DELAYS[..k]
    requires var a := Attempt(At(script, k)); a.Ok? || k == MAX_RETRIES || !Retries(policy, a.error)
    requires Pending(script, policy, k, waited)
    ensures Outcome(script, policy) == CallOutcome(Attempt(At(script, k)), waited)
    ensures forall j :: 0 <= j < k ==>
      Attempt(At(script, j)).Err? && Retries(policy, Attempt(At(script, j)).error)
  {
    assert OutcomeFrom(script, policy, k) == CallOutcome(Attempt(At(script, k)), []);
    assert waited + [] == waited;
    OutcomeRetried(script, policy, 0);
  }

  /**
   * The attempts from `k` on make `n` retries, for some `n` that keeps
   * within the budget: the waits are the `n` delays from `k`, and the
   * result is what attempt `k + n` gave.
   */
  lemma {:induction false} OutcomeShape(script: seq<Response>, policy: Policy, k: nat)
    requires k <= MAX_RETRIES
    ensures var o := OutcomeFrom(script, policy, k);
      && k + |o.waited| <= MAX_RETRIES
      && o.waited == DELAYS[k..k + |o.waited|]
      && o.result == Attempt(At(script, k + |o.waited|))
    decreases MAX_RETRIES - k
  {
    var a := Attempt(At(script, k));
    if !(a.Ok? || k == MAX_RETRIES || !Retries(policy, a.error)) {
      OutcomeShape(script, policy, k + 1);
      var n := |OutcomeFrom(script, policy, k + 1).waited|;
      assert DELAYS[k..k + 1 + n] == [DELAYS[k]] + DELAYS[k + 1..k + 1 + n];
    }
  }

  /**
   * Every retried attempt failed with an error the policy retries, and a
   * failure ends the call early only when the policy does not retry it.
   */
  lemma {:induction false} OutcomeRetried(script: seq<Response>, policy: Policy, k: nat)
    requires k <= MAX_RETRIES
    ensures var o := OutcomeFrom(script, policy, k);
      && (forall j :: k <= j < k + |o.waited| ==>
            Attempt(At(script, j)).Err? && Retries(policy, Attempt(At(script, j)).error))
      && (o.result.Err? && k + |o.waited| < MAX_RETRIES ==> !Retries(policy, o.result.error))
    decreases MAX_RETRIES - k
  {
    var a := Attempt(At(script, k));
    if !(a.Ok? || k == MAX_RETRIES || !Retries(policy, a.error)) {
      OutcomeRetried(script, policy, k + 1);
    }
  }

  function Sum(s: seq<nat>): nat {
    if |s| == 0 then 0 else s[0] + Sum(s[1..])
  }

  /** The waits of one call add up to at most 15 seconds, and to exactly that when every attempt fails. */
  lemma {:induction false} WaitBound(script: seq<Response>, policy: Policy, k: nat)
    requires k <= MAX_RETRIES
    ensures Sum(OutcomeFrom(script, policy, k).waited) <= Sum(DELAYS[k..])
    ensures (forall j :: k <= j <= MAX_RETRIES ==> Attempt(At(script, j)).Err? && Retries(policy, Attempt(At(script, j)).error))
      ==> OutcomeFrom(script, policy, k).waited == DELAYS[k..]
    decreases MAX_RETRIES - k
  {
    var a := Attempt(At(script, k));
    if !(a.Ok? || k == MAX_RETRIES || !Retries(policy, a.error)) {
      WaitBound(script, policy, k + 1);
      assert DELAYS[k..] == [DELAYS[k]] + DELAYS[k + 1..];
    }
  }

  lemma TotalWaitAtMostFifteenSeconds(script: seq<Response>, policy: Policy)
    ensures Sum(Outcome(script, policy).waited) <= 15000
  {
    WaitBound(script, policy, 0);
    assert DELAYS[0..] == DELAYS;
  }

  /** Three rate-limit replies and then a success: the body comes back after waits of 1, 2 and 4 seconds. */
  lemma RateLimitedThenServed(body: Json, policy: Policy)
    ensures Outcome([Reply(429, None), Reply(429, None), Reply(429, None), Reply(200, Some(body))], policy)
      == CallOutcome(Ok(body), [1000, 2000, 4000])
  {
  }

  /** A network that never answers: five attempts, all four waits, and the fetch failure is rethrown. */
  lemma NetworkDownExhaustsRetries(policy: Policy)
    ensures Outcome([], policy) == CallOutcome(Err(FetchFailed), DELAYS)
  {
  }

  /** The five replies a persistent 404 gives. */
  const NOT_FOUND: seq<Response> := [Reply(404, None), Reply(404, None), Reply(404, None), Reply(404, None), Reply(404, None)]

  /**
   * As written, a 404 is retried: the client-error `throw` sits inside the
   * `try`, so the `catch` waits and tries again, five attempts in all.
   */
  lemma ClientErrorRetried()
    ensures Outcome(NOT_FOUND, RetryEverything) == CallOutcome(Err(ClientError(404)), DELAYS)
  {
  }

  /**
   * Under the intended policy a client error ends the call at once: for
   * every script, when attempt `k` gives a client error after `k` retried
   * failures, that error is the result and only `k` waits happened.
   */
  lemma ClientErrorFailsFast(script: seq<Response>, k: nat)
    requires k <= MAX_RETRIES
    requires Attempt(At(script, k)).Err? && Attempt(At(script, k)).error.ClientError?
    requires forall j :: 0 <= j < k ==> Attempt(At(script, j)).Err? && !Attempt(At(script, j)).error.ClientError?
    ensures Outcome(script, StopOnClientError) == CallOutcome(Attempt(At(script, k)), DELAYS[..k])
  {
    FailFastFrom(script, k, 0);
  }

  lemma {:induction false} FailFastFrom(script: seq<Response>, k: nat, i: nat)
    requires i <= k <= MAX_RETRIES
    requires Attempt(At(script, k)).Err? && Attempt(At(script, k)).error.ClientError?
    requires forall j :: i <= j < k ==> Attempt(At(script, j)).Err? && !Attempt(At(script, j)).error.ClientError?
    ensures OutcomeFrom(script, StopOnClientError, i) == CallOutcome(Attempt(At(script, k)), DELAYS[i..k])
    decreases k - i
  {
    if i < k {
      FailFastFrom(script, k, i + 1);
      assert DELAYS[i..k] == [DELAYS[i]] + DELAYS[i + 1..k];
    }
  }

  /** Under the intended policy a persistent 404 costs one attempt and no wait. */
  lemma NotFoundFailsFast()
    ensures Outcome(NOT_FOUND, StopOnClientError) == CallOutcome(Err(ClientError(404)), [])
  {
  }
}

=== FILE: review_screen.dfy ===
/**
 * The navigation of the verb app's mistake review screen
 * (`MistakeReviewScreen` in verb_mastery2.ts): an assessment of the
 * learner's correction, then, when the target verb is still wrong, a round
 * of three practice exercises, then the next mistake. Prompts, feedback
 * texts and timers are not modelled; only which mistake and which exercise
 * the screen is on.
 */
module ReviewScreen {
  import opened Wrappers
  import Schedule

  /** The practice exercises, in the order of the `steps` array. */
  datatype Step = Mcq | FillGap | TranslateParaphrase

  const STEPS: seq<Step> := [Mcq, FillGap, TranslateParaphrase]

  /** `steps.indexOf(step)`; every step is listed, so this is never -1. */
  function StepIndex(s: Step): (i: nat)
    ensures i < |STEPS| && STEPS[i] == s
  {
    match s
    case Mcq => 0
    case FillGap => 1
    case TranslateParaphrase => 2
  }

  /**
   * The screen's state: the mistake index, whether the assessment is done,
   * the `practiceStep` state variable and the kind of the exercise on show;
   * or back on the dashboard.
   */
  datatype Screen =
    | Reviewing(index: nat, assessmentDone: bool, practiceStep: Step, exercise: Option<Step>)
    | BackToDashboard

  const START: Screen := Reviewing(0, false, Mcq, None)

  /**
   * What the assessment call decided: the learner may move on (overall
   * correct, or the target verb correct), needs practice (the first exercise
   * is generated, or its generation fails), or nothing happened (empty
   * input, or the call threw).
   */
  datatype Assessment = MovesOn | NeedsPractice(generated: bool) | NoAssessment

  /** A user action on the screen; `generated` says whether the next exercise could be generated. */
  datatype Event = Assessed(result: Assessment) | PracticeAnswered(generated: bool)

  /**
   * `moveToNextMistake` followed by the effect on `currentIndex`: back to the
   * dashboard after the last mistake; otherwise the next index with the
   * assessment and exercise cleared. `resetsStep` says whether the practice
   * step is also set back to the first exercise.
   */
  function MoveToNext(s: Screen, count: nat, resetsStep: bool): (r: Screen)
    requires s.Reviewing?
    ensures r.BackToDashboard? <==> s.index + 1 >= count
    ensures r.Reviewing? ==> r.index == s.index + 1 && !r.assessmentDone && r.exercise.None?
    ensures r.Reviewing? ==> r.practiceStep == if resetsStep then Mcq else s.practiceStep
  {
    if s.index + 1 >= count then BackToDashboard
    else Reviewing(s.index + 1, false, if resetsStep then Mcq else s.practiceStep, None)
  }

  /** `generateExercise(step)`: the exercise is shown, or its failure moves on to the next mistake. */
  function Generate(s: Screen, step: Step, generated: bool, count: nat, resetsStep: bool): Screen
    requires s.Reviewing?
  {
    if generated then s.(exercise := Some(step)) else MoveToNext(s, count, resetsStep)
  }

  /**
   * One event on a screen over `count` mistakes. `handleAssessment` starts
   * the practice round with the first exercise but leaves `practiceStep` as
   * it is; `handlePracticeAnswer` advances along `STEPS` from
   * `practiceStep` and moves on after the last one. Answers on a screen that
   * shows no exercise, and any event past the last mistake, change nothing.
   */
  function Transition(s: Screen, e: Event, count: nat, resetsStep: bool): Screen {
    match s
    case BackToDashboard => s
    case Reviewing(index, done, step, exercise) =>
      if index >= count then s
      else
        match e
        case Assessed(MovesOn) =>
          if done then s else MoveToNext(s, count, resetsStep)
        case Assessed(NeedsPractice(generated)) =>
          if done then s else Generate(s.(assessmentDone := true), Mcq, generated, count, resetsStep)
        case Assessed(NoAssessment) => s
        case PracticeAnswered(generated) =>
          if !done || exercise.None? then s
          else if StepIndex(step) >= |STEPS| - 1 then MoveToNext(s, count, resetsStep)
          else
            var next := STEPS[StepIndex(step) + 1];
            Generate(s.(practiceStep := next), next, generated, count, resetsStep)
  }

  /**
   * The screen as written: the effect on `currentIndex` clears the
   * assessment and the exercise but not `practiceStep`. The index only ever
   * grows by one, the dashboard is final, and a change of mistake carries the
   * practice step over.
   */
  function Handle(s: Screen, e: Event, count: nat): (r: Screen)
    ensures s.BackToDashboard? ==> r == s
    ensures r.Reviewing? ==> s.Reviewing? && s.index <= r.index <= s.index + 1
    ensures r.BackToDashboard? && s.Reviewing? ==> s.index + 1 >= count
    ensures r.Reviewing? && r.index != s.index ==> !r.assessmentDone && r.exercise.None?
    ensures r.Reviewing? && r.index != s.index && e.Assessed? ==> r.practiceStep == s.practiceStep
  {
    Transition(s, e, count, false)
  }

  /**
   * The screen with the reset self_extending_learning.js performs: moving
   * to another mistake also sets the practice step back to the first one.
   */
  function HandleCorrected(s: Screen, e: Event, count: nat): (r: Screen)
    ensures s.BackToDashboard? ==> r == s
    ensures r.Reviewing? ==> s.Reviewing? && s.index <= r.index <= s.index + 1
    ensures r.BackToDashboard? && s.Reviewing? ==> s.index + 1 >= count
    ensures r.Reviewing? && r.index != s.index ==>
      !r.assessmentDone && r.exercise.None? && r.practiceStep == Mcq
  {
    Transition(s, e, count, true)
  }

  function Run(s: Screen, es: seq<Event>, count: nat, resetsStep: bool): Screen
    decreases |es|
  {
    if |es| == 0 then s else Run(Transition(s, es[0], count, resetsStep), es[1..], count, resetsStep)
  }

  /**
   * What the corrected screen keeps: before the assessment the practice step
   * is the first one and no exercise shows; during practice the exercise on
   * show is the one `practiceStep` names.
   */
  predicate Consistent(s: Screen) {
    s.Reviewing? ==>
      && (!s.assessmentDone ==> s.practiceStep == Mcq && s.exercise.None?)
      && (s.assessmentDone && s.exercise.Some? ==> s.exercise.value == s.practiceStep)
  }

  lemma CorrectedKeepsConsistent(s: Screen, e: Event, count: nat)
    requires Consistent(s)
    ensures Consistent(HandleCorrected(s, e, count))
  {
  }

  /** The corrected screen is consistent after any run of events from the start. */
  lemma {:induction false} CorrectedRunConsistent(s: Screen, es: seq<Event>, count: nat)
    requires Consistent(s)
    ensures Consistent(Run(s, es, count, true))
    decreases |es|
  {
    if |es| > 0 {
      CorrectedKeepsConsistent(s, es[0], count);
      CorrectedRunConsistent(Transition(s, es[0], count, true), es[1..], count);
    }
  }

  /**
   * On the corrected screen every practice round is the full round: from any
   * mistake not yet assessed, a failed assessment and two answers show the
   * three exercises in order without leaving the mistake, and the third
   * answer moves on.
   */
  lemma CorrectedRoundVisitsAllSteps(s: Screen, count: nat)
    requires Consistent(s) && s.Reviewing? && !s.assessmentDone && s.index < count
    ensures var a := HandleCorrected(s, Assessed(NeedsPractice(true)), count);
      && a == Reviewing(s.index, true, Mcq, Some(Mcq))
      && HandleCorrected(a, PracticeAnswered(true), count) == Reviewing(s.index, true, FillGap, Some(FillGap))
      && HandleCorrected(Reviewing(s.index, true, FillGap, Some(FillGap)), PracticeAnswered(true), count)
         == Reviewing(s.index, true, TranslateParaphrase, Some(TranslateParaphrase))
      && HandleCorrected(Reviewing(s.index, true, TranslateParaphrase, Some(TranslateParaphrase)),
                         PracticeAnswered(true), count)
         == MoveToNext(s, count, true)
  {
  }

  /**
   * As written, a mistake entered with the step left at the last exercise
   * gets one exercise only: the first answer already moves on.
   */
  lemma StaleStepEndsRound(i: nat, count: nat)
    requires i < count
    ensures var a := Handle(Reviewing(i, false, TranslateParaphrase, None), Assessed(NeedsPractice(true)), count);
      && a == Reviewing(i, true, TranslateParaphrase, Some(Mcq))
      && Handle(a, PracticeAnswered(true), count) == MoveToNext(a, count, false)
  {
  }

  /** The learner's round on the first mistake, then a failed assessment and one answer on the second. */
  const TWO_ROUNDS: seq<Event> := [
    Assessed(NeedsPractice(true)), PracticeAnswered(true), PracticeAnswered(true), PracticeAnswered(true),
    Assessed(NeedsPractice(true)), PracticeAnswered(true)]

  /**
   * As written, the second mistake's practice round ends after its first
   * exercise: the step left at the last exercise by the first round makes
   * the first answer look like the last one. With the reset the learner is
   * still on the second mistake, at the second exercise.
   */
  lemma SecondRoundCutShort()
    ensures Run(START, TWO_ROUNDS, 3, false) == Reviewing(2, false, TranslateParaphrase, None)
    ensures Run(START, TWO_ROUNDS, 3, true) == Reviewing(1, true, FillGap, Some(FillGap))
  {
    var es := TWO_ROUNDS;
    var w1 := Transition(START, es[0], 3, false);
    var w2 := Transition(w1, es[1], 3, false);
    var w3 := Transition(w2, es[2], 3, false);
    var w4 := Transition(w3, es[3], 3, false);
    assert w4 == Reviewing(1, false, TranslateParaphrase, None);
    var w5 := Transition(w4, es[4], 3, false);
    assert w5 == Reviewing(1, true, TranslateParaphrase, Some(Mcq));
    assert Run(START, es, 3, false) == Run(w1, es[1..], 3, false);
    assert es[1..][1..] == es[2..] && es[2..][1..] == es[3..] && es[3..][1..] == es[4..];
    assert es[4..][1..] == es[5..] && es[5..][1..] == [];
    var c1 := Transition(START, es[0], 3, true);
    var c4 := Transition(Transition(Transition(c1, es[1], 3, true), es[2], 3, true), es[3], 3, true);
    assert c4 == Reviewing(1, false, Mcq, None);
  }

  // ---------------------------------------------------------------------------
  // The list under review
  // ---------------------------------------------------------------------------

  /**
   * The screen together with `mistakesToReview`, the ids of the due mistakes
   * it is given. As written that prop is the app's live `activeMistakes`:
   * every snapshot of the mistakes collection replaces it, while the screen
   * keeps its index.
   */
  datatype Session = Session(mistakes: seq<string>, screen: Screen)

  /** A screen event, or a new snapshot of the due mistakes' ids. */
  datatype SessionEvent = OnScreen(e: Event) | Snapshot(due: seq<string>)

  /** `mistakesToReview[currentIndex]`; none past the end, where the screen says nothing is due. */
  function CurrentMistake(s: Session): Option<string> {
    if s.screen.Reviewing? && s.screen.index < |s.mistakes| then Some(s.mistakes[s.screen.index]) else None
  }

  /** The screen asks for a correction of `id`: it is the current mistake and not yet assessed. */
  predicate Presents(s: Session, id: string) {
    CurrentMistake(s) == Some(id) && !s.screen.assessmentDone
  }

  /**
   * As written: a snapshot replaces the list and keeps the index, and a
   * screen event counts the list it was handled with. The moves-on timer
   * runs the closure of the render that handled the assessment, so its count
   * is the list from before the snapshot that the review causes.
   */
  function LiveStep(s: Session, e: SessionEvent): Session {
    match e
    case Snapshot(due) => Session(due, s.screen)
    case OnScreen(ev) => Session(s.mistakes, Handle(s.screen, ev, |s.mistakes|))
  }

  /**
   * Corrected: the screen keeps the list it was opened with, so snapshots do
   * not move it, and a change of mistake also resets the practice step.
   */
  function FrozenStep(s: Session, e: SessionEvent): Session {
    match e
    case Snapshot(_) => s
    case OnScreen(ev) => Session(s.mistakes, HandleCorrected(s.screen, ev, |s.mistakes|))
  }

  /** Document ids are unique within the collection, so a queue lists each id once. */
  predicate Distinct(ids: seq<string>) {
    forall a, b :: 0 <= a < b < |ids| ==> ids[a] != ids[b]
  }

  /** Dropping one id from a list of distinct ids removes exactly its position. */
  lemma {:induction false} WithoutAt(ids: seq<string>, i: nat)
    requires Distinct(ids) && i < |ids|
    ensures Schedule.Without(ids, ids[i]) == ids[..i] + ids[i+1..]
    decreases |ids|
  {
    if i == 0 {
      WithoutAbsent(ids[1..], ids[0]);
      assert ids[1..] == ids[..0] + ids[1..];
    } else {
      WithoutAt(ids[1..], i - 1);
      assert ids[1..][i-1] == ids[i];
      assert ids[1..][..i-1] + ids[1..][i..] == ids[1..i] + ids[i+1..];
      assert ids[..i] + ids[i+1..] == [ids[0]] + (ids[1..i] + ids[i+1..]);
    }
  }

  lemma {:induction false} WithoutAbsent(ids: seq<string>, id: string)
    requires forall k :: 0 <= k < |ids| ==> ids[k] != id
    ensures Schedule.Without(ids, id) == ids
    decreases |ids|
  {
    if |ids| > 0 {
      WithoutAbsent(ids[1..], id);
      assert ids == [ids[0]] + ids[1..];
    }
  }

  /**
   * As written, the mistake after a reviewed one is skipped. The review
   * reschedules the current mistake `L[i]` into the future, so the next
   * snapshot lists `L` without it (Schedule.QueueAfterReview) and `L[i+1]`
   * slides into index `i`. When the assessment moves on, the index then
   * grows past `L[i+1]`; when the practice round's last answer moves on,
   * the same happens, `L[i+1]` having stood at the index during practice
   * (its sentence on show) without its own assessment. On the moves-on
   * path the snapshot lands while the timer is pending, so `L[i+1]` stands
   * at index `i` with its correction open until the timer fires. Once the
   * screen has moved on it asks for `L[i+2]` or stops, while `L[i+1]` is
   * still due and was assessed only if the learner submitted during that
   * window.
   */
  lemma LiveListSkipsNext(L: seq<string>, i: nat, step: Step)
    requires Distinct(L) && i + 1 < |L|
    ensures var after := Schedule.Without(L, L[i]);
      var movedOn := LiveStep(LiveStep(Session(L, Reviewing(i, false, step, None)), OnScreen(Assessed(MovesOn))),
                              Snapshot(after));
      var practising := LiveStep(Session(L, Reviewing(i, true, TranslateParaphrase, Some(TranslateParaphrase))),
                                 Snapshot(after));
      var practised := LiveStep(practising, OnScreen(PracticeAnswered(true)));
      && L[i+1] in after
      && CurrentMistake(practising) == Some(L[i+1]) && practising.screen.assessmentDone
      && Presents(LiveStep(Session(L, Reviewing(i, false, step, None)), Snapshot(after)), L[i+1])
      && !Presents(movedOn, L[i+1]) && !Presents(practised, L[i+1])
      && (i + 2 < |L| ==> Presents(movedOn, L[i+2]) && Presents(practised, L[i+2]))
      && (i + 2 == |L| ==> CurrentMistake(movedOn).None? && practised.screen.BackToDashboard?)
  {
    WithoutAt(L, i);
    var after := L[..i] + L[i+1..];
    assert after[i] == L[i+1];
    if i + 2 < |L| {
      assert after[i+1] == L[i+2];
    }
    SkipAfterShift(L, after, i, step);
  }

  /** The skip over any snapshot that shifts the list after index `i` down by one. */
  lemma SkipAfterShift(L: seq<string>, after: seq<string>, i: nat, step: Step)
    requires i + 1 < |L| && |after| + 1 == |L| && after[i] == L[i+1]
    requires i + 2 < |L| ==> after[i+1] == L[i+2] && L[i+2] != L[i+1]
    ensures var movedOn := LiveStep(LiveStep(Session(L, Reviewing(i, false, step, None)), OnScreen(Assessed(MovesOn))),
                                    Snapshot(after));
      var practising := LiveStep(Session(L, Reviewing(i, true, TranslateParaphrase, Some(TranslateParaphrase))),
                                 Snapshot(after));
      var practised := LiveStep(practising, OnScreen(PracticeAnswered(true)));
      && CurrentMistake(practising) == Some(L[i+1]) && practising.screen.assessmentDone
      && Presents(LiveStep(Session(L, Reviewing(i, false, step, None)), Snapshot(after)), L[i+1])
      && !Presents(movedOn, L[i+1]) && !Presents(practised, L[i+1])
      && (i + 2 < |L| ==> Presents(movedOn, L[i+2]) && Presents(practised, L[i+2]))
      && (i + 2 == |L| ==> CurrentMistake(movedOn).None? && practised.screen.BackToDashboard?)
  {
    assert Transition(Reviewing(i, false, step, None), Assessed(MovesOn), |L|, false)
        == MoveToNext(Reviewing(i, false, step, None), |L|, false);
    var last := Reviewing(i, true, TranslateParaphrase, Some(TranslateParaphrase));
    assert Transition(last, PracticeAnswered(true), |after|, false) == MoveToNext(last, |after|, false);
  }

  /**
   * With the list kept, a change of mistake goes to the next id of the list
   * the screen opened with, whatever snapshots arrive, and the screen only
   * stops after the last one.
   */
  lemma FrozenVisitsInOrder(s: Session, e: SessionEvent)
    requires s.screen.Reviewing? && s.screen.index < |s.mistakes|
    ensures var r := FrozenStep(s, e);
      && r.mistakes == s.mistakes
      && (r.screen.Reviewing? && r.screen.index != s.screen.index ==>
            Presents(r, s.mistakes[s.screen.index + 1]) && r.screen.practiceStep == Mcq)
      && (r.screen.BackToDashboard? ==> s.screen.index + 1 == |s.mistakes|)
  {
  }

  /** With the list kept, the reviewed mistake's successor is presented next on both paths. */
  lemma FrozenListPresentsNext(L: seq<string>, i: nat, step: Step)
    requires Distinct(L) && i + 1 < |L|
    ensures var after := Schedule.Without(L, L[i]);
      var movedOn := FrozenStep(FrozenStep(Session(L, Reviewing(i, false, step, None)), OnScreen(Assessed(MovesOn))),
                                Snapshot(after));
      var practising := FrozenStep(Session(L, Reviewing(i, true, TranslateParaphrase, Some(TranslateParaphrase))),
                                   Snapshot(after));
      var practised := FrozenStep(practising, OnScreen(PracticeAnswered(true)));
      && CurrentMistake(practising) == Some(L[i])
      && Presents(movedOn, L[i+1]) && Presents(practised, L[i+1])
  {
    assert Transition(Reviewing(i, false, step, None), Assessed(MovesOn), |L|, true)
        == MoveToNext(Reviewing(i, false, step, None), |L|, true);
    var last := Reviewing(i, true, TranslateParaphrase, Some(TranslateParaphrase));
    assert Transition(last, PracticeAnswered(true), |L|, true) == MoveToNext(last, |L|, true);
  }
}

=== FILE: schedule.dfy ===
/**
 * Mistake records and their spaced-repetition schedule, common to both
 * learning apps (`saveUserMistake`, `updateMistakeStatus`, `resetMistake` and
 * the active-mistake filter in self_extending_learning.js and
 * verb_mastery2.ts). Time is an integer count of milliseconds.
 */
module Schedule {
  import opened Wrappers
  import Seqs

  type Time = int

  /** Review intervals in days for confidence levels 1 through 7. */
  const CONFIDENCE_INTERVALS: seq<nat> := [1, 3, 7, 14, 30, 60, 180]

  /** The highest confidence level: the length of the interval table. */
  const MAX_CONFIDENCE: nat := 7

  /** A calendar day; daylight-saving shifts are not modelled. */
  const DAY_MS: nat := 86_400_000

  /** What a mistake is about: a module item, a verb, or nothing (a bare merged document). */
  datatype Subject = ItemRef(itemId: string, moduleKey: string) | VerbRef(verb: string) | NoSubject

  /** A mistake document as the snapshot listener sees it (`{ id, ...doc.data() }`). */
  datatype Mistake = Mistake(
    id: string,
    subject: Subject,
    sentence: string,
    feedback: string,
    tags: seq<string>,
    timestamp: Option<Time>,
    confidenceLevel: Option<int>,
    nextReviewAt: Option<Time>,
    lastReviewed: Option<Time>)

  /** What the tag classifier did: threw, or answered with a `tags` field that may be missing. */
  datatype Tagging = TaggerThrew | TaggerAnswered(tags: Option<seq<string>>)

  const UNTAGGED: seq<string> := ["untagged"]

  /**
   * The tags a new mistake gets: the caller's when given; otherwise the
   * classifier's answer, with `["untagged"]` when the answer has no tags or
   * the classifier threw.
   */
  function ResolveTags(existing: Option<seq<string>>, tagging: Tagging): (tags: seq<string>)
    ensures existing.Some? ==> tags == existing.value
    ensures existing.None? && tagging.TaggerAnswered? && tagging.tags.Some? ==> tags == tagging.tags.value
    ensures existing.None? && (tagging.TaggerThrew? || tagging.tags.None?) ==> tags == UNTAGGED
  {
    match existing
    case Some(t) => t
    case None =>
      match tagging
      case TaggerThrew => UNTAGGED
      case TaggerAnswered(answer) => answer.GetOr(UNTAGGED)
  }

  /** The document `saveUserMistake` adds; `id` is the fresh id the store assigns. */
  function NewMistake(id: string, subject: Subject, sentence: string, feedback: string,
                      existing: Option<seq<string>>, tagging: Tagging, now: Time): (m: Mistake)
    ensures m.id == id && m.subject == subject && m.sentence == sentence && m.feedback == feedback
    ensures m.tags == ResolveTags(existing, tagging)
    ensures m.confidenceLevel == Some(0) && m.nextReviewAt == Some(now)
    ensures m.lastReviewed.None?
    ensures IsDue(m, now)
  {
    Mistake(id, subject, sentence, feedback, ResolveTags(existing, tagging),
            Some(now), Some(0), Some(now), None)
  }

  /** `confidenceIntervals[c - 1] || 1`: out-of-table positions fall back to one day. */
  function IntervalDays(c: int): (days: nat)
    ensures 1 <= c <= MAX_CONFIDENCE ==> days == CONFIDENCE_INTERVALS[c - 1]
    ensures !(1 <= c <= MAX_CONFIDENCE) ==> days == 1
    ensures days >= 1
  {
    if 1 <= c <= |CONFIDENCE_INTERVALS| then CONFIDENCE_INTERVALS[c - 1] else 1
  }

  /**
   * One review step: `Math.min(c + 1, 7)` after a success and
   * `Math.max(c - 1, 0)` after a failure, a missing level reading as 0.
   */
  function NextConfidence(stored: Option<int>, wasCorrect: bool): (c': int)
    ensures wasCorrect ==> c' <= MAX_CONFIDENCE
    ensures !wasCorrect ==> c' >= 0
    ensures var c := stored.GetOr(0);
      0 <= c <= MAX_CONFIDENCE ==>
        && 0 <= c' <= MAX_CONFIDENCE
        && (wasCorrect ==> c' == if c == MAX_CONFIDENCE then c else c + 1)
        && (!wasCorrect ==> c' == if c == 0 then 0 else c - 1)
  {
    var c := stored.GetOr(0);
    if wasCorrect then (if c + 1 < MAX_CONFIDENCE then c + 1 else MAX_CONFIDENCE)
    else (if c - 1 > 0 then c - 1 else 0)
  }

  /** The fields a review or reset merges into a mistake document. */
  datatype Patch = Patch(confidenceLevel: int, nextReviewAt: Time, lastReviewed: Option<Time>)

  /** The schedule a review writes: the next confidence and that many days' wait. */
  function Reschedule(stored: Option<int>, wasCorrect: bool, now: Time, stamp: bool): (p: Patch)
    ensures p.confidenceLevel == NextConfidence(stored, wasCorrect)
    ensures p.nextReviewAt == now + IntervalDays(p.confidenceLevel) * DAY_MS
    ensures p.nextReviewAt > now
    ensures p.lastReviewed == if stamp then Some(now) else None
  {
    var c' := NextConfidence(stored, wasCorrect);
    Patch(c', now + IntervalDays(c') * DAY_MS, if stamp then Some(now) else None)
  }

  /** `userMistakes.find(m => m.id === id)`. */
  function Find(ms: seq<Mistake>, id: string): (r: Option<Mistake>)
    ensures r.Some? <==> exists i :: 0 <= i < |ms| && ms[i].id == id
    ensures r.Some? ==> r.value in ms && r.value.id == id
  {
    if |ms| == 0 then None
    else if ms[0].id == id then Some(ms[0])
    else Find(ms[1..], id)
  }

  /** Merging a patch into one document: the patched fields change, the others stay. */
  function MergeInto(m: Mistake, p: Patch): Mistake {
    m.(confidenceLevel := Some(p.confidenceLevel),
       nextReviewAt := Some(p.nextReviewAt),
       lastReviewed := if p.lastReviewed.Some? then p.lastReviewed else m.lastReviewed)
  }

  /** A document that only holds the patched fields: a merge write to a missing id. */
  function BareDocument(id: string, p: Patch): Mistake {
    Mistake(id, NoSubject, "", "", [], None, Some(p.confidenceLevel), Some(p.nextReviewAt), p.lastReviewed)
  }

  function MergeAll(ms: seq<Mistake>, id: string, p: Patch): (r: seq<Mistake>)
    ensures |r| == |ms|
    ensures forall i :: 0 <= i < |ms| ==> r[i] == if ms[i].id == id then MergeInto(ms[i], p) else ms[i]
  {
    if |ms| == 0 then [] else [if ms[0].id == id then MergeInto(ms[0], p) else ms[0]] + MergeAll(ms[1..], id, p)
  }

  /**
   * `setDoc(ref(id), patch, { merge: true })` applied to the collection: the
   * document with that id gets the patched fields, or is created holding only
   * them when it does not exist.
   */
  function ApplyPatch(ms: seq<Mistake>, id: string, p: Patch): (r: seq<Mistake>)
    ensures Find(ms, id).Some? ==> |r| == |ms|
    ensures Find(ms, id).None? ==> r == ms + [BareDocument(id, p)]
    ensures forall i :: 0 <= i < |ms| && ms[i].id != id ==> r[i] == ms[i]
    ensures forall i :: 0 <= i < |ms| && ms[i].id == id ==> r[i] == MergeInto(ms[i], p)
  {
    if Find(ms, id).Some? then MergeAll(ms, id, p) else ms + [BareDocument(id, p)]
  }

  /** A mistake is due when it has a review time that is not after `now`. */
  predicate IsDue(m: Mistake, now: Time) {
    m.nextReviewAt.Some? && m.nextReviewAt.value <= now
  }

  /** The active review queue: `mistakes.filter(m => m.nextReviewAt && m.nextReviewAt <= now)`. */
  function ActiveQueue(ms: seq<Mistake>, now: Time): (q: seq<Mistake>)
    ensures forall i :: 0 <= i < |q| ==> q[i] in ms && IsDue(q[i], now)
    ensures forall i :: 0 <= i < |ms| && IsDue(ms[i], now) ==> ms[i] in q
    ensures Seqs.IsSubsequence(q, ms)
  {
    Seqs.FilterIsSubsequence(ms, m => IsDue(m, now));
    Seqs.Filter(ms, m => IsDue(m, now))
  }

  /**
   * `updateMistakeStatus`: the patch merged into the mistake with this id, or
   * no write at all when the snapshot has no such mistake. `stamp` says
   * whether the app also records `lastReviewed` (self_extending_learning.js
   * does, verb_mastery2.ts does not). The caller's confidence adjustment
   * argument plays no part: the step is always one.
   */
  function Review(ms: seq<Mistake>, id: string, wasCorrect: bool, now: Time, stamp: bool): (p: Option<Patch>)
    ensures p.None? <==> (forall i :: 0 <= i < |ms| ==> ms[i].id != id)
    ensures p.Some? ==> p.value == Reschedule(Find(ms, id).value.confidenceLevel, wasCorrect, now, stamp)
  {
    match Find(ms, id)
    case None => None
    case Some(m) => Some(Reschedule(m.confidenceLevel, wasCorrect, now, stamp))
  }

  /** `resetMistake`: confidence 0 and due now, written whether or not the id exists. */
  function Reset(now: Time): (p: Patch)
    ensures p.confidenceLevel == 0 && p.nextReviewAt == now && p.lastReviewed.None?
  {
    Patch(0, now, None)
  }

  /**
   * After a review is merged, the reviewed mistake leaves the queue at the
   * review time, and every other mistake keeps its place in or out of it.
   */
  lemma ReviewedLeavesQueue(ms: seq<Mistake>, id: string, wasCorrect: bool, now: Time, stamp: bool)
    requires Review(ms, id, wasCorrect, now, stamp).Some?
    ensures var after := ApplyPatch(ms, id, Review(ms, id, wasCorrect, now, stamp).value);
      && |after| == |ms|
      && (forall i :: 0 <= i < |after| && after[i].id == id ==> after[i] !in ActiveQueue(after, now))
      && (forall i :: 0 <= i < |after| && after[i].id != id ==> after[i] == ms[i])
  {
  }

  /** The ids of a run of mistakes, in order. */
  function Ids(ms: seq<Mistake>): (r: seq<string>)
    ensures |r| == |ms| && forall i :: 0 <= i < |ms| ==> r[i] == ms[i].id
  {
    if |ms| == 0 then [] else [ms[0].id] + Ids(ms[1..])
  }

  /** The ids other than `id`, in order. */
  function Without(ids: seq<string>, id: string): (r: seq<string>)
    ensures Seqs.IsSubsequence(r, ids)
  {
    if |ids| == 0 then []
    else if ids[0] == id then (Seqs.SubsequenceOfTail(Without(ids[1..], id), ids); Without(ids[1..], id))
    else (assert ([ids[0]] + Without(ids[1..], id))[1..] == Without(ids[1..], id); [ids[0]] + Without(ids[1..], id))
  }

  /**
   * The snapshot listener's next queue after a review: the due mistakes it
   * listed before, in the same order, less the reviewed one.
   */
  lemma QueueAfterReview(ms: seq<Mistake>, id: string, wasCorrect: bool, now: Time, stamp: bool)
    requires Review(ms, id, wasCorrect, now, stamp).Some?
    ensures Ids(ActiveQueue(ApplyPatch(ms, id, Review(ms, id, wasCorrect, now, stamp).value), now))
         == Without(Ids(ActiveQueue(ms, now)), id)
  {
    MergedQueue(ms, id, Review(ms, id, wasCorrect, now, stamp).value, now);
  }

  lemma {:induction false} MergedQueue(ms: seq<Mistake>, id: string, p: Patch, now: Time)
    requires p.nextReviewAt > now
    ensures Ids(ActiveQueue(MergeAll(ms, id, p), now)) == Without(Ids(ActiveQueue(ms, now)), id)
    decreases |ms|
  {
    if |ms| > 0 {
      var m := MergeAll(ms, id, p);
      assert m[1..] == MergeAll(ms[1..], id, p);
      MergedQueue(ms[1..], id, p, now);
      var rest := ActiveQueue(ms[1..], now);
      var mrest := ActiveQueue(m[1..], now);
      if IsDue(ms[0], now) {
        assert ActiveQueue(ms, now) == [ms[0]] + rest;
        assert Ids([ms[0]] + rest)[1..] == Ids(rest) by { assert ([ms[0]] + rest)[1..] == rest; }
      } else {
        assert ActiveQueue(ms, now) == rest;
      }
      if ms[0].id == id {
        assert ActiveQueue(m, now) == mrest;
      } else if IsDue(ms[0], now) {
        assert ActiveQueue(m, now) == [ms[0]] + mrest;
        assert ([ms[0]] + mrest)[1..] == mrest;
      } else {
        assert ActiveQueue(m, now) == mrest;
      }
    }
  }

  /** After a reset is merged, a mistake with that id exists and is due from `now` on. */
  lemma ResetIsDue(ms: seq<Mistake>, id: string, now: Time, later: Time)
    requires now <= later
    ensures var after := ApplyPatch(ms, id, Reset(now));
      && (exists i :: 0 <= i < |after| && after[i].id == id)
      && (forall i :: 0 <= i < |after| && after[i].id == id ==> after[i] in ActiveQueue(after, later))
  {
    var after := ApplyPatch(ms, id, Reset(now));
    if Find(ms, id).None? {
      assert after[|ms|].id == id;
    } else {
      var i :| 0 <= i < |ms| && ms[i].id == id;
      assert after[i].id == id;
    }
  }

  /** A mistake saved at `now` is in the queue at every later time. */
  lemma NewMistakeIsQueued(ms: seq<Mistake>, m: Mistake, now: Time, later: Time)
    requires m.nextReviewAt == Some(now) && now <= later
    ensures m in ActiveQueue(ms + [m], later)
  {
    assert (ms + [m])[|ms|] == m;
  }

  /** Confidence after a run of reviews starting from `c`. */
  function ReplayReviews(c: int, outcomes: seq<bool>): int
    decreases |outcomes|
  {
    if |outcomes| == 0 then c else ReplayReviews(NextConfidence(Some(c), outcomes[0]), outcomes[1..])
  }

  /** Any run of reviews, in any direction, keeps confidence within `[0, 7]`. */
  lemma {:induction false} ReplayStaysInRange(c: int, outcomes: seq<bool>)
    requires 0 <= c <= MAX_CONFIDENCE
    ensures 0 <= ReplayReviews(c, outcomes) <= MAX_CONFIDENCE
    decreases |outcomes|
  {
    if |outcomes| > 0 {
      ReplayStaysInRange(NextConfidence(Some(c), outcomes[0]), outcomes[1..]);
    }
  }

  /** Interval lookups: 0 to 1 waits a day, 3 to 4 waits 14 days, falling to 0 waits a day. */
  lemma IntervalExamples(now: Time)
    ensures Reschedule(Some(0), true, now, false).nextReviewAt == now + 1 * DAY_MS
    ensures Reschedule(Some(3), true, now, false).nextReviewAt == now + 14 * DAY_MS
    ensures Reschedule(Some(1), false, now, false).nextReviewAt == now + 1 * DAY_MS
    ensures Reschedule(None, false, now, false).confidenceLevel == 0
    ensures Reschedule(Some(7), true, now, false).nextReviewAt == now + 180 * DAY_MS
  {
  }
}

=== FILE: seqs.dfy ===
/**
 * Sequence helpers behind `Array.prototype.filter`, `slice` and the stable
 * `Array.prototype.sort` the source relies on (stable since ECMAScript 2019).
 */
module Seqs {

  /** `s.filter(p)`. */
  function Filter<T>(s: seq<T>, p: T -> bool): (r: seq<T>)
    ensures |r| <= |s|
    ensures forall i :: 0 <= i < |r| ==> r[i] in s && p(r[i])
    ensures forall i :: 0 <= i < |s| && p(s[i]) ==> s[i] in r
  {
    if |s| == 0 then []
    else if p(s[0]) then [s[0]] + Filter(s[1..], p)
    else Filter(s[1..], p)
  }

  /** `s.filter(p).length`. */
  function Count<T>(s: seq<T>, p: T -> bool): nat {
    |Filter(s, p)|
  }

  /** `r` is obtained from `s` by deleting elements (relative order kept). */
  predicate IsSubsequence<T(==)>(r: seq<T>, s: seq<T>)
    decreases |s|
  {
    if |r| == 0 then true
    else if |s| == 0 then false
    else if r[0] == s[0] then IsSubsequence(r[1..], s[1..])
    else IsSubsequence(r, s[1..])
  }

  lemma {:induction false} FilterIsSubsequence<T>(s: seq<T>, p: T -> bool)
    ensures IsSubsequence(Filter(s, p), s)
  {
    if |s| > 0 {
      FilterIsSubsequence(s[1..], p);
      if !p(s[0]) {
        SubsequenceOfTail(Filter(s[1..], p), s);
      }
    }
  }

  lemma {:induction false} SubsequenceOfTail<T>(r: seq<T>, s: seq<T>)
    requires |s| > 0
    requires IsSubsequence(r, s[1..])
    ensures IsSubsequence(r, s)
    decreases |s|, 0
  {
    if |r| > 0 && r[0] == s[0] {
      assert IsSubsequence(r[1..], s[1..]) by {
        SubsequenceDropHead(r, s[1..]);
      }
    }
  }

  lemma {:induction false} SubsequenceDropHead<T>(r: seq<T>, s: seq<T>)
    requires |r| > 0
    requires IsSubsequence(r, s)
    ensures IsSubsequence(r[1..], s)
    decreases |s|, 1
  {
    if r[0] != s[0] {
      SubsequenceDropHead(r, s[1..]);
      SubsequenceOfTail(r[1..], s);
    } else if |r| > 1 {
      SubsequenceOfTail(r[1..], s);
    }
  }

  lemma {:induction false} FilterAppend<T>(a: seq<T>, b: seq<T>, p: T -> bool)
    ensures Filter(a + b, p) == Filter(a, p) + Filter(b, p)
  {
    if |a| > 0 {
      assert (a + b)[1..] == a[1..] + b;
      FilterAppend(a[1..], b, p);
    } else {
      assert a + b == b;
    }
  }

  /** `s.slice(0, n)`. */
  function Take<T>(s: seq<T>, n: nat): (r: seq<T>)
    ensures |r| == if n < |s| then n else |s|
    ensures forall i :: 0 <= i < |r| ==> r[i] == s[i]
  {
    if n < |s| then s[..n] else s
  }

  /**
   * The first `n` elements `p` accepts are what `p` accepts in some prefix of
   * `s`: a prefix holding exactly `n` of them, or all of `s` when it holds
   * fewer.
   */
  lemma {:induction false} TakeFilterIsFilterOfPrefix<T>(s: seq<T>, p: T -> bool, n: nat)
    ensures exists k :: (0 <= k <= |s| && Take(Filter(s, p), n) == Filter(s[..k], p)
      && (k == |s| || |Take(Filter(s, p), n)| == n))
  {
    if |s| == 0 || n == 0 {
      assert Take(Filter(s, p), n) == Filter(s[..0], p);
    } else {
      var m := if p(s[0]) then n - 1 else n;
      TakeFilterIsFilterOfPrefix(s[1..], p, m);
      var k :| 0 <= k <= |s[1..]| && Take(Filter(s[1..], p), m) == Filter(s[1..][..k], p)
        && (k == |s[1..]| || |Take(Filter(s[1..], p), m)| == m);
      assert s[..k + 1][1..] == s[1..][..k];
      assert s[..k + 1][0] == s[0];
      if p(s[0]) {
        assert Filter(s, p) == [s[0]] + Filter(s[1..], p);
        assert Take(Filter(s, p), n) == [s[0]] + Take(Filter(s[1..], p), m);
      }
      assert Take(Filter(s, p), n) == Filter(s[..k + 1], p);
    }
  }

  /** The elements of `s` whose key is `k`, in their order in `s`. */
  function WithKey<T>(s: seq<T>, key: T -> int, k: int): seq<T> {
    if |s| == 0 then [] else (if key(s[0]) == k then [s[0]] else []) + WithKey(s[1..], key, k)
  }

  /** Keys never increase from left to right. */
  predicate SortedDesc<T>(s: seq<T>, key: T -> int) {
    forall i, j :: 0 <= i < j < |s| ==> key(s[i]) >= key(s[j])
  }

  /** Places `x` before the first element whose key does not exceed its own. */
  function Insert<T>(x: T, t: seq<T>, key: T -> int): seq<T> {
    if |t| == 0 || key(x) >= key(t[0]) then [x] + t else [t[0]] + Insert(x, t[1..], key)
  }

  /**
   * A stable sort by descending key: the comparator `(a, b) => key(b) - key(a)`
   * handed to the built-in sort.
   */
  function SortDesc<T>(s: seq<T>, key: T -> int): seq<T> {
    if |s| == 0 then [] else Insert(s[0], SortDesc(s[1..], key), key)
  }

  lemma {:induction false} InsertPermutes<T>(x: T, t: seq<T>, key: T -> int)
    ensures multiset(Insert(x, t, key)) == multiset(t) + multiset{x}
  {
    if |t| > 0 && key(x) < key(t[0]) {
      InsertPermutes(x, t[1..], key);
      assert t == [t[0]] + t[1..];
    }
  }

  lemma {:induction false} InsertSorted<T>(x: T, t: seq<T>, key: T -> int)
    requires SortedDesc(t, key)
    ensures SortedDesc(Insert(x, t, key), key)
  {
    if |t| > 0 && key(x) < key(t[0]) {
      var rest := Insert(x, t[1..], key);
      InsertSorted(x, t[1..], key);
      InsertPermutes(x, t[1..], key);
      forall i | 0 <= i < |rest|
        ensures key(rest[i]) <= key(t[0])
      {
        assert rest[i] in multiset(rest);
        assert rest[i] in multiset(t[1..]) + multiset{x};
      }
    }
  }

  lemma {:induction false} InsertStable<T>(x: T, t: seq<T>, key: T -> int, k: int)
    ensures WithKey(Insert(x, t, key), key, k)
      == if key(x) == k then [x] + WithKey(t, key, k) else WithKey(t, key, k)
  {
    if |t| == 0 || key(x) >= key(t[0]) {
      assert ([x] + t)[1..] == t;
    } else {
      var rest := Insert(x, t[1..], key);
      InsertStable(x, t[1..], key, k);
      assert ([t[0]] + rest)[1..] == rest;
    }
  }

  /**
   * Sorting yields a permutation in descending key order that keeps the
   * relative order of equal-key elements (stability).
   */
  lemma SortDescFacts<T>(s: seq<T>, key: T -> int)
    ensures multiset(SortDesc(s, key)) == multiset(s)
    ensures SortedDesc(SortDesc(s, key), key)
    ensures forall k :: WithKey(SortDesc(s, key), key, k) == WithKey(s, key, k)
  {
    SortDescPermutes(s, key);
    SortDescSorted(s, key);
    forall k
      ensures WithKey(SortDesc(s, key), key, k) == WithKey(s, key, k)
    {
      SortDescStable(s, key, k);
    }
  }

  lemma {:induction false} SortDescPermutes<T>(s: seq<T>, key: T -> int)
    ensures multiset(SortDesc(s, key)) == multiset(s)
  {
    if |s| > 0 {
      SortDescPermutes(s[1..], key);
      InsertPermutes(s[0], SortDesc(s[1..], key), key);
      assert s == [s[0]] + s[1..];
    }
  }

  lemma {:induction false} SortDescSorted<T>(s: seq<T>, key: T -> int)
    ensures SortedDesc(SortDesc(s, key), key)
  {
    if |s| > 0 {
      SortDescSorted(s[1..], key);
      InsertSorted(s[0], SortDesc(s[1..], key), key);
    }
  }

  lemma {:induction false} SortDescStable<T>(s: seq<T>, key: T -> int, k: int)
    ensures WithKey(SortDesc(s, key), key, k) == WithKey(s, key, k)
  {
    if |s| > 0 {
      SortDescStable(s[1..], key, k);
      InsertStable(s[0], SortDesc(s[1..], key), key, k);
    }
  }
}

=== FILE: verbs.dfy ===
/**
 * The verb-mastery app (verb_mastery2.ts): per-verb progress updates, the
 * initialisation of missing progress entries, the dashboard's statistics,
 * verb of the day and practice suggestions, and the settings screen's
 * keyword list. Mistake scheduling lives in `Schedule`.
 */
module Verbs {
  import opened Wrappers
  import opened Mastery
  import opened Schedule
  import Seqs
  import Merge

  /** A verb as the snapshot formats it: `[infinitive, pastSimple, pastParticiple, polish]`. */
  datatype Verb = Verb(infinitive: string, pastSimple: string, pastParticiple: string, polish: string)

  /** One entry of the progress document, keyed by infinitive. */
  datatype VerbProgress = VerbProgress(level: Level, correct: int, incorrect: int, lastPracticed: Option<Time>)

  type VerbProgressMap = map<string, VerbProgress>

  /** The entry a verb without progress starts from. */
  const FRESH: VerbProgress := VerbProgress(New, 0, 0, None)

  function Current(progress: VerbProgressMap, name: string): VerbProgress {
    if name in progress then progress[name] else FRESH
  }

  /** A write `updateVerbProgress` issues, in order. */
  datatype Write = SaveMistake(mistake: Mistake) | MergeProgress(update: VerbProgressMap)

  datatype VerbUpdate = VerbUpdate(local: VerbProgressMap, writes: seq<Write>)

  /**
   * `updateVerbProgress`: one more correct or incorrect answer, the next
   * mastery level and `now` as practice time for this verb, nothing else
   * changed. A wrong answer first saves a mistake about the verb; then the
   * whole local map is merged into the progress document.
   */
  function UpdateVerbProgress(progress: VerbProgressMap, verb: Verb, isCorrect: bool,
                              sentence: string, feedback: string, tagging: Tagging,
                              now: Time, freshId: string): (r: VerbUpdate)
    ensures r.local.Keys == progress.Keys + {verb.infinitive}
    ensures forall k :: k in progress && k != verb.infinitive ==> r.local[k] == progress[k]
    ensures var before := Current(progress, verb.infinitive); var after := r.local[verb.infinitive];
      && after.correct == before.correct + (if isCorrect then 1 else 0)
      && after.incorrect == before.incorrect + (if isCorrect then 0 else 1)
      && after.level == NextLevel(before.level, isCorrect, after.correct)
      && after.lastPracticed == Some(now)
    ensures isCorrect ==> r.writes == [MergeProgress(r.local)]
    ensures !isCorrect ==> r.writes == [
      SaveMistake(NewMistake(freshId, VerbRef(verb.infinitive), sentence, feedback, None, tagging, now)),
      MergeProgress(r.local)]
  {
    var current := Current(progress, verb.infinitive);
    var correct := if isCorrect then current.correct + 1 else current.correct;
    var incorrect := if isCorrect then current.incorrect else current.incorrect + 1;
    var entry := VerbProgress(NextLevel(current.level, isCorrect, correct), correct, incorrect, Some(now));
    var local := progress[verb.infinitive := entry];
    var mistake :=
      if isCorrect then []
      else [SaveMistake(NewMistake(freshId, VerbRef(verb.infinitive), sentence, feedback, None, tagging, now))];
    VerbUpdate(local, mistake + [MergeProgress(local)])
  }

  /** The per-entry invariant: counters are non-negative and the level agrees with the successes. */
  predicate WellFormed(p: VerbProgress) {
    p.incorrect >= 0 && LevelMatchesSuccesses(p.level, p.correct)
  }

  predicate AllWellFormed(progress: VerbProgressMap) {
    forall k :: k in progress ==> WellFormed(progress[k])
  }

  /** Updates keep every entry well formed; in particular a `Mastered` verb has at least 4 correct answers. */
  lemma UpdateKeepsWellFormed(progress: VerbProgressMap, verb: Verb, isCorrect: bool,
                              sentence: string, feedback: string, tagging: Tagging, now: Time, freshId: string)
    requires AllWellFormed(progress)
    ensures AllWellFormed(UpdateVerbProgress(progress, verb, isCorrect, sentence, feedback, tagging, now, freshId).local)
  {
    var before := Current(progress, verb.infinitive);
    assert WellFormed(before);
    NextLevelKeepsInvariant(before.level, before.correct, isCorrect);
  }

  /** The verbs' infinitives. */
  function Infinitives(verbs: seq<Verb>): set<string> {
    if |verbs| == 0 then {} else Infinitives(verbs[..|verbs| - 1]) + {verbs[|verbs| - 1].infinitive}
  }

  lemma {:induction false} InInfinitives(verbs: seq<Verb>, i: nat)
    requires i < |verbs|
    ensures verbs[i].infinitive in Infinitives(verbs)
    decreases |verbs|
  {
    if i < |verbs| - 1 {
      InInfinitives(verbs[..|verbs| - 1], i);
    }
  }

  /** There are never more infinitives than verbs. */
  lemma {:induction false} InfinitivesCardinality(verbs: seq<Verb>)
    ensures |Infinitives(verbs)| <= |verbs|
    decreases |verbs|
  {
    if |verbs| > 0 {
      var names := Infinitives(verbs[..|verbs| - 1]);
      InfinitivesCardinality(verbs[..|verbs| - 1]);
      assert |names + {verbs[|verbs| - 1].infinitive}| <= |names| + 1;
    }
  }

  /**
   * The progress listener's initialisation: every verb whose infinitive has
   * no entry in the stored document gets a fresh one; stored entries are
   * kept as they are. The flag says whether anything was added, which is
   * when the listener writes the result back.
   */
  function InitProgress(existing: VerbProgressMap, verbs: seq<Verb>): (r: (VerbProgressMap, bool))
    ensures r.0.Keys == existing.Keys + Infinitives(verbs)
    ensures forall k :: k in existing ==> r.0[k] == existing[k]
    ensures forall k :: k in r.0 && k !in existing ==> r.0[k] == FRESH
    ensures r.1 <==> !(Infinitives(verbs) <= existing.Keys)
  {
    if |verbs| == 0 then (existing, false)
    else
      var init := verbs[..|verbs| - 1];
      var prev := InitProgress(existing, init);
      var v := verbs[|verbs| - 1];
      var r := if v.infinitive in existing then prev else (prev.0[v.infinitive := FRESH], true);
      assert verbs == init + [v];
      InitStep(existing, init, v, prev, r);
      r
  }

  /** The four facts `InitProgress` promises, as one predicate for the induction step. */
  ghost predicate InitFacts(existing: VerbProgressMap, verbs: seq<Verb>, r: (VerbProgressMap, bool)) {
    && r.0.Keys == existing.Keys + Infinitives(verbs)
    && (forall k :: k in existing ==> r.0[k] == existing[k])
    && (forall k :: k in r.0 && k !in existing ==> r.0[k] == FRESH)
    && (r.1 <==> !(Infinitives(verbs) <= existing.Keys))
  }

  /** One turn of the `forEach`: the facts extend from a prefix of the verbs to one verb more. */
  lemma InitStep(existing: VerbProgressMap, init: seq<Verb>, v: Verb,
                 prev: (VerbProgressMap, bool), r: (VerbProgressMap, bool))
    requires InitFacts(existing, init, prev)
    requires r == if v.infinitive in existing then prev else (prev.0[v.infinitive := FRESH], true)
    ensures InitFacts(existing, init + [v], r)
  {
    assert (init + [v])[..|init|] == init;
    assert Infinitives(init + [v]) == Infinitives(init) + {v.infinitive};
  }

  /** A document that already has an entry for every verb is left as it is, and not written. */
  lemma InitOfCovered(existing: VerbProgressMap, verbs: seq<Verb>)
    requires Infinitives(verbs) <= existing.Keys
    ensures InitProgress(existing, verbs) == (existing, false)
  {
    var (m, changed) := InitProgress(existing, verbs);
    assert m.Keys == existing.Keys;
    assert m == existing;
  }

  /**
   * Initialisation is idempotent: run again on its own result it adds
   * nothing, so the listener's second snapshot issues no write; and merging
   * the result into the document it was computed from yields the result.
   */
  lemma InitProgressIdempotent(existing: VerbProgressMap, verbs: seq<Verb>)
    ensures var (m, _) := InitProgress(existing, verbs);
      && InitProgress(m, verbs) == (m, false)
      && Merge.MergeWrite(existing, m) == m
  {
    var (m, _) := InitProgress(existing, verbs);
    InitOfCovered(m, verbs);
  }

  /** After initialisation every verb has an entry, so the verb screens never see a missing one. */
  lemma InitCoversAllVerbs(existing: VerbProgressMap, verbs: seq<Verb>, i: nat)
    requires i < |verbs|
    ensures verbs[i].infinitive in InitProgress(existing, verbs).0
  {
    InInfinitives(verbs, i);
  }

  // ----- dashboard -----

  /** A progress entry with its key: one element of `Object.entries(userProgress)`. */
  datatype Entry = Entry(name: string, progress: VerbProgress)

  /** The entries in key-enumeration order `order` (keys without an entry are skipped). */
  function Entries(order: seq<string>, progress: VerbProgressMap): (es: seq<Entry>)
    ensures |es| <= |order|
    ensures forall i :: 0 <= i < |es| ==> es[i].name in progress && es[i].progress == progress[es[i].name]
  {
    if |order| == 0 then []
    else (if order[0] in progress then [Entry(order[0], progress[order[0]])] else []) + Entries(order[1..], progress)
  }

  /** `order` lists every key of `progress` exactly once, as `Object.keys` does. */
  predicate Enumerates(order: seq<string>, progress: VerbProgressMap) {
    && Distinct(order)
    && (forall i :: 0 <= i < |order| ==> order[i] in progress)
    && (forall k :: k in progress ==> k in order)
  }

  /** When every name of `order` has progress, `Entries` keeps them all, in order. */
  lemma {:induction false} EntriesFollowOrder(order: seq<string>, progress: VerbProgressMap)
    requires forall i :: 0 <= i < |order| ==> order[i] in progress
    ensures |Entries(order, progress)| == |order|
    ensures forall i :: 0 <= i < |order| ==>
      Entries(order, progress)[i] == Entry(order[i], progress[order[i]])
  {
    if |order| > 0 {
      EntriesFollowOrder(order[1..], progress);
    }
  }

  /**
   * With `order` enumerating the map, the entries are one per key of the map,
   * so the statistics and the suggestions range over the whole progress map.
   */
  lemma EntriesCoverMap(order: seq<string>, progress: VerbProgressMap)
    requires Enumerates(order, progress)
    ensures |Entries(order, progress)| == |progress|
    ensures forall k :: k in progress ==> Entry(k, progress[k]) in Entries(order, progress)
  {
    EntriesFollowOrder(order, progress);
    var es := Entries(order, progress);
    forall k | k in progress
      ensures Entry(k, progress[k]) in es
    {
      var i :| 0 <= i < |order| && order[i] == k;
      assert es[i] == Entry(k, progress[k]);
    }
    KeysOfOrder(order, progress);
  }

  /** The keys of the map are exactly the distinct names of `order`. */
  lemma {:induction false} KeysOfOrder(order: seq<string>, progress: VerbProgressMap)
    requires Enumerates(order, progress)
    ensures |progress| == |order|
  {
    var keys := set i | 0 <= i < |order| :: order[i];
    assert keys == progress.Keys;
    DistinctCard(order);
  }

  /** A sequence of distinct names has as many names as elements. */
  lemma {:induction false} DistinctCard(order: seq<string>)
    requires Distinct(order)
    ensures |set i | 0 <= i < |order| :: order[i]| == |order|
  {
    if |order| > 0 {
      var last := |order| - 1;
      var init := order[..last];
      DistinctCard(init);
      var s := set i | 0 <= i < |order| :: order[i];
      var t := set i | 0 <= i < |init| :: init[i];
      assert s == t + {order[last]};
      assert order[last] !in t;
    }
  }

  datatype Stats = Stats(mastered: int, learning: int, newCount: int, total: int)

  function LevelCount(es: seq<Entry>, l: Level): (n: nat)
    ensures n <= |es|
  {
    if |es| == 0 then 0 else (if es[0].progress.level == l then 1 else 0) + LevelCount(es[1..], l)
  }

  lemma {:induction false} LevelCountsBounded(es: seq<Entry>)
    ensures LevelCount(es, Mastered) + LevelCount(es, Learning) <= |es|
  {
    if |es| > 0 {
      LevelCountsBounded(es[1..]);
    }
  }

  /**
   * The dashboard's `stats`: all zero when there are no entries or no verbs;
   * otherwise Mastered and Learning counted over every entry, the total
   * being the number of verbs and `new` the difference.
   */
  function VerbStats(order: seq<string>, progress: VerbProgressMap, verbs: seq<Verb>): (s: Stats)
    ensures s.mastered + s.learning + s.newCount == s.total
    ensures s.mastered >= 0 && s.learning >= 0
    ensures |Entries(order, progress)| == 0 || |verbs| == 0 <==> s == Stats(0, 0, 0, 0) && |verbs| * |Entries(order, progress)| == 0
    ensures |Entries(order, progress)| > 0 && |verbs| > 0 ==>
      && s.total == |verbs|
      && s.mastered == LevelCount(Entries(order, progress), Mastered)
      && s.learning == LevelCount(Entries(order, progress), Learning)
  {
    var es := Entries(order, progress);
    if |es| == 0 || |verbs| == 0 then Stats(0, 0, 0, 0)
    else
      var mastered := LevelCount(es, Mastered);
      var learning := LevelCount(es, Learning);
      Stats(mastered, learning, |verbs| - mastered - learning, |verbs|)
  }

  /**
   * `new` is never negative as long as every progress key is the infinitive
   * of a verb (distinct infinitives): there are then no more entries than
   * verbs.
   */
  lemma NewCountNonNegative(order: seq<string>, progress: VerbProgressMap, verbs: seq<Verb>)
    requires Enumerates(order, progress)
    requires forall k :: k in progress ==> exists i :: 0 <= i < |verbs| && verbs[i].infinitive == k
    ensures VerbStats(order, progress, verbs).newCount >= 0
  {
    var es := Entries(order, progress);
    LevelCountsBounded(es);
    var names := Infinitives(verbs);
    var keys := set i | 0 <= i < |order| :: order[i];
    forall k | k in keys ensures k in names {
      var i :| 0 <= i < |verbs| && verbs[i].infinitive == k;
      InInfinitives(verbs, i);
    }
    SubsetCardinality(keys, names);
    DistinctCardinality(order);
    InfinitivesCardinality(verbs);
  }

  lemma SubsetCardinality<T>(a: set<T>, b: set<T>)
    requires a <= b
    ensures |a| <= |b|
  {
    assert b == a + (b - a);
  }

  lemma {:induction false} DistinctCardinality(s: seq<string>)
    requires forall i, j :: 0 <= i < j < |s| ==> s[i] != s[j]
    ensures |set i | 0 <= i < |s| :: s[i]| == |s|
  {
    if |s| > 0 {
      var last := s[|s| - 1];
      var init := s[..|s| - 1];
      DistinctCardinality(init);
      var a := set i | 0 <= i < |init| :: init[i];
      assert (set i | 0 <= i < |s| :: s[i]) == a + {last} by {
        forall x | x in (set i | 0 <= i < |s| :: s[i]) ensures x in a + {last} {
          var i :| 0 <= i < |s| && s[i] == x;
          if i < |s| - 1 { assert init[i] == x; }
        }
      }
      assert last !in a;
    }
  }

  /** Entries for infinitives that are no longer verbs drive `new` below zero. */
  lemma StaleEntriesMakeNewNegative()
    ensures var progress := map["go" := FRESH.(level := Mastered), "went" := FRESH.(level := Mastered)];
      VerbStats(["go", "went"], progress, [Verb("go", "went", "gone", "iść")]).newCount == -1
  {
    var progress := map["go" := FRESH.(level := Mastered), "went" := FRESH.(level := Mastered)];
    assert ["go", "went"][1..] == ["went"] && ["went"][1..] == [];
    assert Entries(["went"], progress) == [Entry("went", progress["went"])];
    var es := Entries(["go", "went"], progress);
    assert es == [Entry("go", progress["go"]), Entry("went", progress["went"])];
    assert es[1..] == [Entry("went", progress["went"])] && es[1..][1..] == [];
    assert LevelCount(es, Mastered) == 2;
    assert LevelCount(es, Learning) == 0;
  }

  /** `userProgress[v[0]]?.level !== 'Mastered'`: a verb without an entry counts as not mastered. */
  predicate NotMastered(progress: VerbProgressMap, v: Verb) {
    v.infinitive !in progress || progress[v.infinitive].level != Mastered
  }

  /** `v => userProgress[v[0]]?.level !== 'Mastered'`. */
  function NotMasteredTest(progress: VerbProgressMap): Verb -> bool {
    v => NotMastered(progress, v)
  }

  /**
   * Every verb not yet mastered is the verb of some day: the one whose
   * number is its position among the not-mastered verbs.
   */
  lemma EveryUnmasteredVerbHasADay(progress: VerbProgressMap, verbs: seq<Verb>, i: nat)
    requires i < |verbs| && NotMastered(progress, verbs[i])
    ensures exists day: nat :: VerbOfTheDay(progress, verbs, day) == Some(verbs[i])
  {
    var notMastered := Seqs.Filter(verbs, NotMasteredTest(progress));
    assert NotMasteredTest(progress)(verbs[i]);
    var k :| 0 <= k < |notMastered| && notMastered[k] == verbs[i];
    ModUnique(k, |notMastered|, 0, k);
    OfTheDayAt(progress, verbs, k);
  }

  /** The verb of day `day` is the not-mastered verb at `day` modulo their number. */
  lemma OfTheDayAt(progress: VerbProgressMap, verbs: seq<Verb>, day: nat)
    requires |Seqs.Filter(verbs, NotMasteredTest(progress))| > 0
    ensures var notMastered := Seqs.Filter(verbs, NotMasteredTest(progress));
      VerbOfTheDay(progress, verbs, day) == Some(notMastered[day % |notMastered|])
  {
  }

  /** The remainder is the one `r` with `x == q * n + r` and `0 <= r < n`. */
  lemma ModUnique(x: int, n: int, q: int, r: int)
    requires n > 0 && 0 <= r < n && x == q * n + r
    ensures x % n == r
  {
    var d := q - x / n;
    assert d * n == x % n - r;
    if d > 0 {
      assert false;
    } else if d < 0 {
      assert false;
    }
  }

  /**
   * The verb of the day for day-of-month `day`: none without verbs; the first
   * verb when all are mastered; otherwise the not-mastered verb at position
   * `day` modulo their number.
   */
  function VerbOfTheDay(progress: VerbProgressMap, verbs: seq<Verb>, day: nat): (r: Option<Verb>)
    ensures r.None? <==> |verbs| == 0
    ensures r.Some? ==> r.value in verbs
    ensures (exists i :: 0 <= i < |verbs| && NotMastered(progress, verbs[i])) ==> r.Some? && NotMastered(progress, r.value)
    ensures |verbs| > 0 && (forall i :: 0 <= i < |verbs| ==> !NotMastered(progress, verbs[i])) ==> r == Some(verbs[0])
    ensures var notMastered := Seqs.Filter(verbs, NotMasteredTest(progress));
      |notMastered| > 0 ==> r == Some(notMastered[day % |notMastered|])
  {
    if |verbs| == 0 then None
    else
      var notMastered := Seqs.Filter(verbs, NotMasteredTest(progress));
      if |notMastered| == 0 then Some(verbs[0])
      else Some(notMastered[day % |notMastered|])
  }

  /** Entries at level `l`, in order. */
  function AtLevel(es: seq<Entry>, l: Level): (r: seq<Entry>)
    ensures forall i :: 0 <= i < |r| ==> r[i] in es && r[i].progress.level == l
    ensures |r| == LevelCount(es, l)
  {
    if |es| == 0 then []
    else (if es[0].progress.level == l then [es[0]] else []) + AtLevel(es[1..], l)
  }

  function Incorrect(e: Entry): int { e.progress.incorrect }

  /** `irregularVerbs.find(v => v[0] === name)`. */
  function FindVerb(verbs: seq<Verb>, name: string): (r: Option<Verb>)
    ensures r.Some? <==> exists i :: 0 <= i < |verbs| && verbs[i].infinitive == name
    ensures r.Some? ==> r.value in verbs && r.value.infinitive == name
  {
    if |verbs| == 0 then None
    else if verbs[0].infinitive == name then Some(verbs[0])
    else FindVerb(verbs[1..], name)
  }

  /** `.map(([name]) => find(name)).filter(Boolean)`: entries whose verb is not found are dropped. */
  function FoundVerbs(es: seq<Entry>, verbs: seq<Verb>): (r: seq<Verb>)
    ensures |r| <= |es|
    ensures forall i :: 0 <= i < |r| ==> r[i] in verbs && exists j :: 0 <= j < |es| && es[j].name == r[i].infinitive
    ensures (forall j :: 0 <= j < |es| ==> FindVerb(verbs, es[j].name).Some?) ==> |r| == |es|
  {
    if |es| == 0 then []
    else
      var rest := FoundVerbs(es[1..], verbs);
      assert forall i :: 0 <= i < |rest| ==> exists j :: 0 <= j < |es| && es[j].name == rest[i].infinitive by {
        forall i | 0 <= i < |rest| ensures exists j :: 0 <= j < |es| && es[j].name == rest[i].infinitive {
          var j :| 0 <= j < |es[1..]| && es[1..][j].name == rest[i].infinitive;
          assert es[j + 1].name == rest[i].infinitive;
        }
      }
      match FindVerb(verbs, es[0].name)
      case Some(v) => [v] + rest
      case None => rest
  }

  /** The candidates: Learning entries, then New ones, each group in enumeration order. */
  function Candidates(order: seq<string>, progress: VerbProgressMap): seq<Entry> {
    var es := Entries(order, progress);
    AtLevel(es, Learning) + AtLevel(es, New)
  }

  /** The incorrect count of a verb's entry, 0 for a verb without one. */
  function VerbIncorrect(progress: VerbProgressMap, v: Verb): int {
    if v.infinitive in progress then progress[v.infinitive].incorrect else 0
  }

  /**
   * `practiceSuggestions`: the Learning and New entries, stably sorted by
   * descending incorrect count, the first five, mapped to their verbs. The
   * result holds at most five verbs, none of them mastered, with incorrect
   * counts in descending order; it is five long whenever there are five
   * candidates whose verbs exist.
   */
  function PracticeSuggestions(order: seq<string>, progress: VerbProgressMap, verbs: seq<Verb>): (r: seq<Verb>)
    ensures |r| <= 5
    ensures |verbs| == 0 ==> r == []
    ensures forall i :: 0 <= i < |r| ==>
      (r[i] in verbs && r[i].infinitive in progress && progress[r[i].infinitive].level != Mastered)
    ensures SortedByIncorrect(progress, r)
    ensures (|verbs| > 0 && forall e :: e in Candidates(order, progress) ==> FindVerb(verbs, e.name).Some?) ==>
      |r| == if |Candidates(order, progress)| < 5 then |Candidates(order, progress)| else 5
  {
    if |verbs| == 0 then []
    else
      var top := Seqs.Take(Seqs.SortDesc(Candidates(order, progress), Incorrect), 5);
      TopCandidates(order, progress);
      FoundVerbsSorted(top, verbs, progress);
      FoundVerbs(top, verbs)
  }

  /** The first five of the sorted candidates: sorted, drawn from the candidates, as many as there are up to five. */
  lemma TopCandidates(order: seq<string>, progress: VerbProgressMap)
    ensures var cands := Candidates(order, progress);
      var top := Seqs.Take(Seqs.SortDesc(cands, Incorrect), 5);
      && |top| == (if |cands| < 5 then |cands| else 5)
      && Seqs.SortedDesc(top, Incorrect)
      && (forall i :: 0 <= i < |top| ==> top[i] in cands)
      && (forall i :: 0 <= i < |top| ==>
            top[i].name in progress && top[i].progress == progress[top[i].name] && top[i].progress.level != Mastered)
  {
    var cands := Candidates(order, progress);
    CandidatesFromProgress(order, progress);
    TopOfSorted(cands, 5);
  }

  /**
   * The suggestions are the five candidates with the most incorrect
   * answers: a candidate whose verb exists but is not suggested has no more
   * incorrect answers than any suggested verb.
   */
  lemma PracticeSuggestionsAreTopFive(order: seq<string>, progress: VerbProgressMap, verbs: seq<Verb>)
    ensures var r := PracticeSuggestions(order, progress, verbs);
      forall e, v :: (e in Candidates(order, progress) && FindVerb(verbs, e.name).Some?
        && FindVerb(verbs, e.name).value !in r && v in r) ==> Incorrect(e) <= VerbIncorrect(progress, v)
  {
    var r := PracticeSuggestions(order, progress, verbs);
    forall e, v | e in Candidates(order, progress) && FindVerb(verbs, e.name).Some? && FindVerb(verbs, e.name).value !in r && v in r
      ensures Incorrect(e) <= VerbIncorrect(progress, v)
    {
      NotSuggestedRanksLower(order, progress, verbs, e, v);
    }
  }

  lemma NotSuggestedRanksLower(order: seq<string>, progress: VerbProgressMap, verbs: seq<Verb>, e: Entry, v: Verb)
    requires e in Candidates(order, progress) && FindVerb(verbs, e.name).Some?
    requires FindVerb(verbs, e.name).value !in PracticeSuggestions(order, progress, verbs)
    requires v in PracticeSuggestions(order, progress, verbs)
    ensures Incorrect(e) <= VerbIncorrect(progress, v)
  {
    var r := PracticeSuggestions(order, progress, verbs);
    var cands := Candidates(order, progress);
    var top := Seqs.Take(Seqs.SortDesc(cands, Incorrect), 5);
    assert r == FoundVerbs(top, verbs);
    assert e !in top by {
      if e in top {
        var j :| 0 <= j < |top| && top[j] == e;
        FoundVerbsHas(top, verbs, j);
      }
    }
    LeftOutOfTop(cands, 5, e);
    var i :| 0 <= i < |r| && r[i] == v;
    var j :| 0 <= j < |top| && top[j].name == r[i].infinitive;
    assert top[j].name in progress && top[j].progress == progress[top[j].name] by {
      TopCandidates(order, progress);
    }
  }

  /** A candidate left out of the first `n` sorted ones has no more incorrect answers than any of them. */
  lemma LeftOutOfTop(s: seq<Entry>, n: nat, e: Entry)
    requires e in s && e !in Seqs.Take(Seqs.SortDesc(s, Incorrect), n)
    ensures var top := Seqs.Take(Seqs.SortDesc(s, Incorrect), n);
      forall i :: 0 <= i < |top| ==> Incorrect(e) <= Incorrect(top[i])
  {
    var sorted := Seqs.SortDesc(s, Incorrect);
    Seqs.SortDescPermutes(s, Incorrect);
    Seqs.SortDescSorted(s, Incorrect);
    assert e in multiset(sorted);
    var j :| 0 <= j < |sorted| && sorted[j] == e;
    var top := Seqs.Take(sorted, n);
    assert j >= |top| by {
      assert top == sorted[..|top|];
    }
    forall i | 0 <= i < |top| ensures Incorrect(e) <= Incorrect(top[i]) {
      assert top[i] == sorted[i];
    }
  }

  /** Every entry whose verb is found contributes that verb. */
  lemma {:induction false} FoundVerbsHas(es: seq<Entry>, verbs: seq<Verb>, j: nat)
    requires j < |es| && FindVerb(verbs, es[j].name).Some?
    ensures FindVerb(verbs, es[j].name).value in FoundVerbs(es, verbs)
    decreases j
  {
    var rest := FoundVerbs(es[1..], verbs);
    if j > 0 {
      assert es[1..][j - 1] == es[j];
      FoundVerbsHas(es[1..], verbs, j - 1);
      assert FoundVerbs(es, verbs) == rest || FoundVerbs(es, verbs) == [FindVerb(verbs, es[0].name).value] + rest;
    }
  }

  /** A prefix of the sorted sequence: sorted, of the expected length, each element drawn from the input. */
  lemma TopOfSorted(s: seq<Entry>, n: nat)
    ensures var top := Seqs.Take(Seqs.SortDesc(s, Incorrect), n);
      && |top| == (if |s| < n then |s| else n)
      && Seqs.SortedDesc(top, Incorrect)
      && (forall i :: 0 <= i < |top| ==> top[i] in s)
  {
    var sorted := Seqs.SortDesc(s, Incorrect);
    Seqs.SortDescFacts(s, Incorrect);
    assert |sorted| == |s| by {
      assert |multiset(sorted)| == |multiset(s)|;
    }
    var top := Seqs.Take(sorted, n);
    forall i | 0 <= i < |top| ensures top[i] in s {
      assert top[i] in multiset(sorted);
    }
  }

  lemma CandidatesFromProgress(order: seq<string>, progress: VerbProgressMap)
    ensures forall e :: e in Candidates(order, progress) ==>
      e.name in progress && e.progress == progress[e.name] && e.progress.level != Mastered
  {
    var es := Entries(order, progress);
    forall e | e in Candidates(order, progress)
      ensures e.name in progress && e.progress == progress[e.name] && e.progress.level != Mastered
    {
      assert e in AtLevel(es, Learning) || e in AtLevel(es, New);
    }
  }

  predicate SortedByIncorrect(progress: VerbProgressMap, r: seq<Verb>) {
    forall i, j :: 0 <= i < j < |r| ==> VerbIncorrect(progress, r[i]) >= VerbIncorrect(progress, r[j])
  }

  lemma {:induction false} FoundVerbsSorted(es: seq<Entry>, verbs: seq<Verb>, progress: VerbProgressMap)
    requires Seqs.SortedDesc(es, Incorrect)
    requires forall i :: 0 <= i < |es| ==> es[i].name in progress && es[i].progress == progress[es[i].name]
    ensures SortedByIncorrect(progress, FoundVerbs(es, verbs))
  {
    if |es| > 0 {
      var rest := FoundVerbs(es[1..], verbs);
      FoundVerbsSorted(es[1..], verbs, progress);
      var r := FoundVerbs(es, verbs);
      match FindVerb(verbs, es[0].name)
      case None =>
        assert r == rest;
        forall i, j | 0 <= i < j < |r| ensures VerbIncorrect(progress, r[i]) >= VerbIncorrect(progress, r[j]) {
          assert r[i] == rest[i] && r[j] == rest[j];
        }
      case Some(v) =>
        assert r == [v] + rest;
        forall j | 0 < j < |r| ensures VerbIncorrect(progress, r[0]) >= VerbIncorrect(progress, r[j]) {
          var m :| 0 <= m < |es[1..]| && es[1..][m].name == rest[j - 1].infinitive;
          assert Incorrect(es[0]) >= Incorrect(es[m + 1]);
        }
    }
  }

  // ----- settings -----

  /** The characters `String.prototype.trim` removes: white space and line terminators. */
  predicate IsJsSpace(c: char) {
    || c == '\t' || c == '\n' || c == '\U{000B}' || c == '\U{000C}' || c == '\r' || c == ' '
    || c == '\U{00A0}' || c == '\U{1680}' || ('\U{2000}' <= c <= '\U{200A}')
    || c == '\U{2028}' || c == '\U{2029}' || c == '\U{202F}' || c == '\U{205F}'
    || c == '\U{3000}' || c == '\U{FEFF}'
  }

  /** The number of leading white-space characters. */
  function Leading(s: string): (n: nat)
    ensures n <= |s|
    ensures forall i :: 0 <= i < n ==> IsJsSpace(s[i])
    ensures n < |s| ==> !IsJsSpace(s[n])
  {
    if |s| == 0 || !IsJsSpace(s[0]) then 0 else 1 + Leading(s[1..])
  }

  /** The number of trailing white-space characters. */
  function Trailing(s: string): (n: nat)
    ensures n <= |s|
    ensures forall i :: |s| - n <= i < |s| ==> IsJsSpace(s[i])
    ensures n < |s| ==> !IsJsSpace(s[|s| - 1 - n])
  {
    if |s| == 0 || !IsJsSpace(s[|s| - 1]) then 0 else 1 + Trailing(s[..|s| - 1])
  }

  /**
   * `s.trim()`: the longest infix that neither starts nor ends with white
   * space, everything cut off around it being white space.
   */
  function Trim(s: string): (t: string)
    ensures |t| == 0 || (!IsJsSpace(t[0]) && !IsJsSpace(t[|t| - 1]))
    ensures |t| == 0 <==> forall i :: 0 <= i < |s| ==> IsJsSpace(s[i])
    ensures |t| > 0 ==> t == s[Leading(s)..|s| - Trailing(s)]
  {
    var a := Leading(s);
    if a == |s| then ""
    else
      var b := |s| - Trailing(s);
      assert !IsJsSpace(s[a]);
      s[a..b]
  }

  /**
   * `addKeyword`: the trimmed input is appended when it is non-empty and
   * not yet listed; otherwise nothing is written (`None`).
   */
  function AddKeyword(keywords: seq<string>, input: string): (r: Option<seq<string>>)
    ensures r.Some? <==> Trim(input) != "" && Trim(input) !in keywords
    ensures r.Some? ==> |r.value| == |keywords| + 1 && r.value[..|keywords|] == keywords && r.value[|keywords|] == Trim(input)
  {
    var k := Trim(input);
    if k != "" && k !in keywords then Some(keywords + [k]) else None
  }

  /** `removeKeyword`: every occurrence of the keyword goes, the rest keep their order. */
  function RemoveKeyword(keywords: seq<string>, keyword: string): (r: seq<string>)
    ensures keyword !in r
    ensures forall i :: 0 <= i < |keywords| && keywords[i] != keyword ==> keywords[i] in r
    ensures forall i :: 0 <= i < |r| ==> r[i] in keywords
    ensures keyword !in keywords ==> r == keywords
    ensures Seqs.IsSubsequence(r, keywords)
    ensures forall x :: multiset(r)[x] == if x == keyword then 0 else multiset(keywords)[x]
  {
    if |keywords| == 0 then []
    else
      var rest := RemoveKeyword(keywords[1..], keyword);
      if keywords[0] == keyword then
        RemoveDropsHead(keywords, keyword, rest);
        rest
      else
        RemoveKeepsHead(keywords, keyword, rest);
        [keywords[0]] + rest
  }

  /** The contract of `RemoveKeyword`, as one predicate for its proof steps. */
  ghost predicate Removed(r: seq<string>, keywords: seq<string>, keyword: string) {
    && keyword !in r
    && (forall i :: 0 <= i < |keywords| && keywords[i] != keyword ==> keywords[i] in r)
    && (forall i :: 0 <= i < |r| ==> r[i] in keywords)
    && (keyword !in keywords ==> r == keywords)
    && Seqs.IsSubsequence(r, keywords)
    && (forall x :: multiset(r)[x] == if x == keyword then 0 else multiset(keywords)[x])
  }

  lemma RemoveDropsHead(keywords: seq<string>, keyword: string, rest: seq<string>)
    requires |keywords| > 0 && keywords[0] == keyword && Removed(rest, keywords[1..], keyword)
    ensures Removed(rest, keywords, keyword)
  {
    assert keywords == [keywords[0]] + keywords[1..];
    assert multiset(keywords) == multiset{keywords[0]} + multiset(keywords[1..]);
    Seqs.SubsequenceOfTail(rest, keywords);
  }

  lemma RemoveKeepsHead(keywords: seq<string>, keyword: string, rest: seq<string>)
    requires |keywords| > 0 && keywords[0] != keyword && Removed(rest, keywords[1..], keyword)
    ensures Removed([keywords[0]] + rest, keywords, keyword)
  {
    var r := [keywords[0]] + rest;
    assert keywords == [keywords[0]] + keywords[1..];
    assert multiset(keywords) == multiset{keywords[0]} + multiset(keywords[1..]);
    assert r[1..] == rest;
    assert multiset(r) == multiset{keywords[0]} + multiset(rest);
  }

  predicate Distinct(ks: seq<string>) {
    forall i, j :: 0 <= i < j < |ks| ==> ks[i] != ks[j]
  }

  /** Adding keeps the list free of duplicates, and removing what was added gives the list back. */
  lemma AddThenRemove(keywords: seq<string>, input: string)
    requires AddKeyword(keywords, input).Some?
    ensures Distinct(keywords) ==> Distinct(AddKeyword(keywords, input).value)
    ensures RemoveKeyword(AddKeyword(keywords, input).value, Trim(input)) == keywords
  {
    var k := Trim(input);
    RemoveAppended(keywords, k);
  }

  lemma {:induction false} RemoveAppended(keywords: seq<string>, k: string)
    requires k !in keywords
    ensures RemoveKeyword(keywords + [k], k) == keywords
  {
    if |keywords| == 0 {
      assert RemoveKeyword([k], k) == [] + RemoveKeyword([], k);
    } else {
      assert (keywords + [k])[1..] == keywords[1..] + [k];
      RemoveAppended(keywords[1..], k);
    }
  }

  /** Removing keeps the list free of duplicates. */
  lemma {:induction false} RemoveKeepsDistinct(keywords: seq<string>, keyword: string)
    requires Distinct(keywords)
    ensures Distinct(RemoveKeyword(keywords, keyword))
  {
    if |keywords| > 0 {
      RemoveKeepsDistinct(keywords[1..], keyword);
      var rest := RemoveKeyword(keywords[1..], keyword);
      assert keywords[0] !in keywords[1..];
      assert keywords[0] !in rest;
    }
  }
}

=== FILE: wav.dfy ===
/**
 * `Optimizer.pcmToWav` in canvas-library.js: decoded PCM-16 samples behind
 * the canonical 44-byte RIFF/WAVE header for one channel of 16-bit PCM.
 * The `DataView` writes use little-endian order and `setUint32`/`setUint16`
 * keep the value modulo 2^32 or 2^16. Base64 decoding (`atob`) is not part
 * of this model: the operation starts from the decoded bytes.
 */
module Wav {
  import opened Wrappers

  type Byte = b: int | 0 <= b < 256

  const TWO_16: int := 65536
  const TWO_32: int := 4294967296

  const DEFAULT_SAMPLE_RATE: int := 24000
  const HEADER_SIZE: nat := 44

  /** `view.setUint16(offset, v, true)`: the value modulo 2^16, low byte first. */
  function Le16(v: int): (bs: seq<Byte>)
    ensures |bs| == 2 && Value16(bs[0], bs[1]) == v % TWO_16
  {
    var u := v % TWO_16;
    [u % 256, u / 256]
  }

  /** `view.setUint32(offset, v, true)`: the value modulo 2^32, low byte first. */
  function Le32(v: int): (bs: seq<Byte>)
    ensures |bs| == 4 && Value32(bs[0], bs[1], bs[2], bs[3]) == v % TWO_32
  {
    var u := v % TWO_32;
    var q1 := u / 256;
    var q2 := q1 / 256;
    var q3 := q2 / 256;
    [u % 256, q1 % 256, q2 % 256, q3]
  }

  function Value16(b0: Byte, b1: Byte): int {
    b0 as int + 256 * b1 as int
  }

  function Value32(b0: Byte, b1: Byte, b2: Byte, b3: Byte): int {
    b0 as int + 256 * (b1 as int + 256 * (b2 as int + 256 * b3 as int))
  }

  /** The little-endian reads a WAV reader applies. */
  function ReadLe16(bs: seq<Byte>, at: nat): int
    requires at + 2 <= |bs|
  {
    Value16(bs[at], bs[at + 1])
  }

  function ReadLe32(bs: seq<Byte>, at: nat): int
    requires at + 4 <= |bs|
  {
    Value32(bs[at], bs[at + 1], bs[at + 2], bs[at + 3])
  }

  /** `writeString`: each character's code, kept modulo 2^8 by `setUint8`. */
  function Ascii(s: string): (bs: seq<Byte>)
    ensures |bs| == |s| && forall i :: 0 <= i < |s| ==> bs[i] == (s[i] as int) % 256
  {
    if |s| == 0 then [] else [(s[0] as int) % 256] + Ascii(s[1..])
  }

  /** The header fields of a 16-bit mono PCM file, as a reader sees them. */
  datatype WavInfo = WavInfo(
    riffSize: int, fmtSize: int, audioFormat: int, channels: int,
    sampleRate: int, byteRate: int, blockAlign: int, bitsPerSample: int,
    dataSize: int, data: seq<Byte>)

  /** The RIFF descriptor: the tag, the size of the rest of the file, and the WAVE format tag. */
  function RiffDescriptor(dataSize: nat): (r: seq<Byte>)
    ensures |r| == 12
  {
    Ascii("RIFF") + Le32(36 + dataSize) + Ascii("WAVE")
  }

  /** The `fmt ` sub-chunk of one channel of 16-bit PCM. */
  function FmtChunk(sampleRate: int): (r: seq<Byte>)
    ensures |r| == 24
  {
    Ascii("fmt ") + Le32(16) + Le16(1) + Le16(1) + Le32(sampleRate) + Le32(sampleRate * 2) + Le16(2) + Le16(16)
  }

  /** The start of the `data` sub-chunk: its tag and length. */
  function DataChunkHeader(dataSize: nat): (r: seq<Byte>)
    ensures |r| == 8
  {
    Ascii("data") + Le32(dataSize)
  }

  /** The 44 header bytes for `dataSize` bytes of samples at `sampleRate`. */
  function Header(sampleRate: int, dataSize: nat): (h: seq<Byte>)
    ensures |h| == HEADER_SIZE
  {
    RiffDescriptor(dataSize) + FmtChunk(sampleRate) + DataChunkHeader(dataSize)
  }

  /** `new Int16Array(bytes.buffer)` throws on a buffer of odd length. */
  datatype WavError = OddByteLength

  /**
   * `pcmToWav`: the header followed by the samples. The samples are read
   * and written back as 16-bit little-endian values, which leaves the bytes
   * as they were.
   */
  function PcmToWav(pcm: seq<Byte>, sampleRate: int): (r: Result<seq<Byte>, WavError>)
    ensures r.Err? <==> |pcm| % 2 == 1
    ensures r.Ok? ==> |r.value| == HEADER_SIZE + |pcm| && r.value[HEADER_SIZE..] == pcm
  {
    if |pcm| % 2 == 1 then Err(OddByteLength) else Ok(Header(sampleRate, |pcm|) + pcm)
  }

  function Code(c: char): Byte {
    (c as int) % 256
  }

  /** The four-character tag `tag` sits at `at`. */
  predicate TagAt(bs: seq<Byte>, at: nat, tag: string)
    requires at + 4 <= |bs| && |tag| == 4
  {
    bs[at] == Code(tag[0]) && bs[at + 1] == Code(tag[1]) && bs[at + 2] == Code(tag[2]) && bs[at + 3] == Code(tag[3])
  }

  /** A reader of the canonical layout: the four tags in place, the fields at their offsets. */
  function ParseWav(bs: seq<Byte>): (r: Option<WavInfo>)
    ensures r.Some? ==> |bs| >= HEADER_SIZE && r.value.data == bs[HEADER_SIZE..]
    ensures r.Some? <==>
      |bs| >= HEADER_SIZE && TagAt(bs, 0, "RIFF") && TagAt(bs, 8, "WAVE")
      && TagAt(bs, 12, "fmt ") && TagAt(bs, 36, "data")
  {
    if |bs| < HEADER_SIZE then None
    else if !TagAt(bs, 0, "RIFF") || !TagAt(bs, 8, "WAVE") || !TagAt(bs, 12, "fmt ") || !TagAt(bs, 36, "data") then None
    else
      Some(WavInfo(
        ReadLe32(bs, 4), ReadLe32(bs, 16), ReadLe16(bs, 20), ReadLe16(bs, 22),
        ReadLe32(bs, 24), ReadLe32(bs, 28), ReadLe16(bs, 32), ReadLe16(bs, 34),
        ReadLe32(bs, 40), bs[HEADER_SIZE..]))
  }

  /** What a reader finds in the RIFF descriptor. */
  lemma RiffLayout(n: nat)
    ensures var r := RiffDescriptor(n);
      TagAt(r, 0, "RIFF") && ReadLe32(r, 4) == (36 + n) % TWO_32 && TagAt(r, 8, "WAVE")
  {
    var r := RiffDescriptor(n);
    var size := Le32(36 + n);
    assert r[4] == size[0] && r[5] == size[1] && r[6] == size[2] && r[7] == size[3];
  }

  /** What a reader finds in the `fmt ` sub-chunk. */
  lemma FmtLayout(sampleRate: int)
    ensures var f := FmtChunk(sampleRate);
      && TagAt(f, 0, "fmt ") && ReadLe32(f, 4) == 16 && ReadLe16(f, 8) == 1 && ReadLe16(f, 10) == 1
      && ReadLe32(f, 12) == sampleRate % TWO_32 && ReadLe32(f, 16) == (sampleRate * 2) % TWO_32
      && ReadLe16(f, 20) == 2 && ReadLe16(f, 22) == 16
  {
    var f := FmtChunk(sampleRate);
    var rate, byteRate := Le32(sampleRate), Le32(sampleRate * 2);
    assert f[12] == rate[0] && f[13] == rate[1] && f[14] == rate[2] && f[15] == rate[3];
    assert f[16] == byteRate[0] && f[17] == byteRate[1] && f[18] == byteRate[2] && f[19] == byteRate[3];
    var fixed, fmt, pcm, mono, align, bits := Le32(16), Le16(1), Le16(1), Le16(1), Le16(2), Le16(16);
    assert f[4] == fixed[0] && f[5] == fixed[1] && f[6] == fixed[2] && f[7] == fixed[3];
    assert f[8] == pcm[0] && f[9] == pcm[1] && f[10] == mono[0] && f[11] == mono[1];
    assert f[20] == align[0] && f[21] == align[1] && f[22] == bits[0] && f[23] == bits[1];
  }

  /** What a reader finds at the start of the `data` sub-chunk. */
  lemma DataLayout(n: nat)
    ensures var d := DataChunkHeader(n);
      TagAt(d, 0, "data") && ReadLe32(d, 4) == n % TWO_32
  {
    var d := DataChunkHeader(n);
    var size := Le32(n);
    assert d[4] == size[0] && d[5] == size[1] && d[6] == size[2] && d[7] == size[3];
  }

  /** What a reader finds in the 44 header bytes. */
  lemma HeaderReads(sampleRate: int, n: nat)
    ensures var h := Header(sampleRate, n);
      && TagAt(h, 0, "RIFF") && ReadLe32(h, 4) == (36 + n) % TWO_32 && TagAt(h, 8, "WAVE")
      && TagAt(h, 12, "fmt ") && ReadLe32(h, 16) == 16 && ReadLe16(h, 20) == 1 && ReadLe16(h, 22) == 1
      && ReadLe32(h, 24) == sampleRate % TWO_32 && ReadLe32(h, 28) == (sampleRate * 2) % TWO_32
      && ReadLe16(h, 32) == 2 && ReadLe16(h, 34) == 16
      && TagAt(h, 36, "data") && ReadLe32(h, 40) == n % TWO_32
  {
    var r, f, d := RiffDescriptor(n), FmtChunk(sampleRate), DataChunkHeader(n);
    var h := Header(sampleRate, n);
    RiffLayout(n);
    FmtLayout(sampleRate);
    DataLayout(n);
    assert forall k :: 0 <= k < 12 ==> h[k] == r[k];
    assert forall k :: 0 <= k < 24 ==> h[12 + k] == f[k];
    assert forall k :: 0 <= k < 8 ==> h[36 + k] == d[k];
  }

  /**
   * Reading back what `pcmToWav` wrote gives PCM format, one channel, the
   * sample rate and twice it as byte rate (both modulo 2^32), a block of two
   * bytes of 16 bits, sizes `36 + n` and `n` (modulo 2^32), and the samples
   * unchanged.
   */
  lemma WavRoundTrip(pcm: seq<Byte>, sampleRate: int)
    requires |pcm| % 2 == 0
    ensures ParseWav(PcmToWav(pcm, sampleRate).value) == Some(WavInfo(
      (36 + |pcm|) % TWO_32, 16, 1, 1, sampleRate % TWO_32, (sampleRate * 2) % TWO_32, 2, 16,
      |pcm| % TWO_32, pcm))
  {
    var h := Header(sampleRate, |pcm|);
    var w := h + pcm;
    HeaderReads(sampleRate, |pcm|);
    assert forall k :: 0 <= k < HEADER_SIZE ==> w[k] == h[k];
    assert w[HEADER_SIZE..] == pcm;
  }

  /**
   * For files under 4 GiB the two size fields describe the file: the RIFF
   * size is the file length less 8 and the data size the length less 44;
   * and for rates below 2^31 the byte rate is the rate times the block size.
   */
  lemma SizesDescribeFile(pcm: seq<Byte>, sampleRate: int)
    requires |pcm| % 2 == 0 && 36 + |pcm| < TWO_32
    requires 0 <= sampleRate && 2 * sampleRate < TWO_32
    ensures var wav := PcmToWav(pcm, sampleRate).value;
      var info := ParseWav(wav).value;
      && info.riffSize == |wav| - 8
      && info.dataSize == |wav| - HEADER_SIZE
      && info.sampleRate == sampleRate
      && info.byteRate == info.sampleRate * info.blockAlign
  {
    var n := |pcm|;
    var info := ParseWav(PcmToWav(pcm, sampleRate).value).value;
    assert info == WavInfo((36 + n) % TWO_32, 16, 1, 1, sampleRate % TWO_32, (sampleRate * 2) % TWO_32, 2, 16,
      n % TWO_32, pcm) by {
      WavRoundTrip(pcm, sampleRate);
    }
    ModSmall(36 + n);
    ModSmall(n);
    ModSmall(sampleRate);
    ModSmall(sampleRate * 2);
  }

  lemma ModSmall(x: int)
    requires 0 <= x < TWO_32
    ensures x % TWO_32 == x
  {
  }

  /** At the default 24 kHz the byte rate is 48000. */
  lemma DefaultRate(pcm: seq<Byte>)
    requires |pcm| % 2 == 0
    ensures var info := ParseWav(PcmToWav(pcm, DEFAULT_SAMPLE_RATE).value).value;
      info.sampleRate == 24000 && info.byteRate == 48000
  {
    var info := ParseWav(PcmToWav(pcm, DEFAULT_SAMPLE_RATE).value).value;
    assert info.sampleRate == 24000 % TWO_32 && info.byteRate == (24000 * 2) % TWO_32 by {
      WavRoundTrip(pcm, DEFAULT_SAMPLE_RATE);
    }
    assert 24000 % TWO_32 == 24000;
    assert 48000 % TWO_32 == 48000;
  }
}

=== FILE: wrappers.dfy ===
/** Failure-compatible wrappers shared by every module of the model. */
module Wrappers {

  /** An optional value; `None` stands for JavaScript's `null`/`undefined`. */
  datatype Option<+T> = None | Some(value: T) {
    function GetOr(default: T): T {
      match this
      case Some(v) => v
      case None => default
    }
  }

  /** A value or the error an operation throws. */
  datatype Result<+R, +E> = Ok(value: R) | Err(error: E) {
    predicate IsFailure() {
      Err?
    }

    function PropagateFailure<U>(): Result<U, E>
      requires Err?
    {
      Err(error)
    }

    function Extract(): R
      requires Ok?
    {
      value
    }
  }
}
